=== FILE: README.md ===
# syplugin-imageEditor, modelled in Dafny

syplugin-imageEditor is a SiYuan plugin. It opens an image asset of a note in an
image editor and writes the edited image back to the workspace. There are three
editor back ends:
- the embedded tui-image-editor;
- the embedded Filerobot editor;
- an external program started with the image path.

Most of the plugin is DOM, widget and HTTP plumbing. This project models the parts whose behaviour can be stated exactly:

- **Editor registry** (`Registry`). A table of the two embedded back ends and the `currentEditor` slot that `changeEditor` fills. The log records the `init`, `destroy` and show calls the registry makes.
- **Editor sessions** (`EditorSession`, `TuiEditor`, `FilerbotEditor`, `Backends`). The session is a record: visible, widget held, unsaved flag, image `src`, dialog open, widgets built, notices shown. Each event handler is a transition function on that record. `Backends` proves where the two embedded back ends differ.
- **External-program back end** (`LocalEditor`):
  - the platform check;
  - the `%%PATH%%` argument templates;
  - the image path taken from the `src` before its first `?`;
  - the quick-exit dialog.
- **Storage** (`LocalStorage`). Parsing the data URL, the extension and file name, the request fields, and mapping the server's answer to the boolean result.
- **Settings** (`Settings`):
  - default settings;
  - the legacy migration;
  - the `@version` stamp;
  - the SELECT/SWITCH type check;
  - the overlay on the defaults;
  - the settings file name.
- **Event bus** (`EventHandler`). Which bus handlers are bound, and the "asset" gate of the image context-menu entry.
- **Utilities**:
  - `isValidStr`, `isBlankStr` and the cached macOS test (`CommonCheck`);
  - `escapeHTML`, shortcut rewriting, the UUID shape, date slicing and the plugin test (`Common`);
  - `htmlTransferParser` (`StringUtils`);
  - IAL strings, the block-id format, the sub-document id walk and `isValidDeck` (`SyCustom`);
  - request shaping and response reading of the kernel API (`SyApi`);
  - the release-notes script (`Release`).

`Js` holds the JavaScript scalar values and their truthiness, plus the member names every object inherits from `Object.prototype`. `Text` holds the string helpers: global literal replace, `split`/`join`, the part of a `src` before `?`, and decimal digits.

Several things become parameters:
- the clock (`now`, `nowMs`, `elapsedMs`);
- the random source (`draws`);
- `atob`, `path.join`, `getFrontend` and `getBackend`;
- the server's answer (a `Response` or `Reply` record).

Notes on the code's behaviour:
- `changeEditor` never consults `isAvailable`, and the external-program back end cannot be reached through the table.
- The tui back end builds a new widget on every show; only the Filerobot back end reuses its widget.
- When the external program exits, the image `src` is refreshed unconditionally, so the waiting dialog's "cancel" does not leave the `src` untouched.
- No code detects an unexpected close of the editor. The only close paths are `closeEditor`, the widget's `onClose` and `destroy`.
- The tui back end has no `isAvailable`.

## Model

| member | source | states |
|---|---|---|
| CommonCheck.IsValidStr | src/utils/commonCheck.ts:6-11 | A value is a valid string unless it is undefined, null or the empty string. Numbers, booleans and whitespace count as valid. |
| CommonCheck.ValidStrIsTruthyOnStrings | src/utils/commonCheck.ts:6-11 | On strings, validity is truthiness. `false` and `0` are valid although falsy. |
| CommonCheck.StripEmptyIff | src/utils/commonCheck.ts:20-21 | Removing every whitespace character leaves nothing exactly when the string was whitespace only. |
| CommonCheck.IsBlankStr | src/utils/commonCheck.ts:18-25 | An invalid value is blank. A string is blank iff it is whitespace only. Any other valid value throws, because it has no `replace`. |
| CommonCheck.ScanPlatformNames | src/utils/commonCheck.ts:33-38 | The loop finds a name iff the upper-cased platform contains DARWIN, MAC, IPAD, IPHONE or IOS. |
| CommonCheck.IsMacOs | src/utils/commonCheck.ts:28-45 | A set cache answers true at once. Otherwise the answer is the scan of the upper-cased platform (`os.platform()`, else `navigator.platform`, else "ERROR"). The cache afterwards is `cached or answer`. |
| CommonCheck.IsMacOsStable | src/utils/commonCheck.ts:31-44 | Asking again with the updated cache gives the same answer and the same cache. |
| CommonCheck.IsMacOsCacheSticky | src/utils/commonCheck.ts:39-44 | Only a positive answer is cached. Once cached, every later call says macOS, whatever the platform. |
| CommonCheck.DarwinIsMac | src/utils/commonCheck.ts:29-38 | The platform `darwin` is macOS. |
| CommonCheck.WindowsIsNotMac | src/utils/commonCheck.ts:29-38 | The platform `windows` is not macOS. |
| CommonCheck.IsEventCtrlKey | src/utils/commonCheck.ts:47-52 | The control key of an event is `metaKey` on macOS and `ctrlKey` elsewhere, and it updates the macOS cache the same way. |
| CommonCheck.CtrlKeyByPlatform | src/utils/commonCheck.ts:22-52 | On `darwin` the control key is `metaKey` and the cache becomes true. On `windows` it is `ctrlKey` and the cache stays unset. Once the cache says macOS, it is `metaKey` on any platform. |
| Common.GetToken | src/utils/common.ts:8-10 | The token is always the empty string. |
| Common.EscapeHtml | src/utils/common.ts:12-18 | The chain of five global replaces, `&` first, equals escaping each character on its own. |
| Common.EscapeChainIsPerChar | src/utils/common.ts:12-18 | For every string, the replace chain and the per-character escape agree. This is the partner of the chain. |
| Common.EscapeHtmlWellEscaped | src/utils/common.ts:12-18 | The output contains none of `<`, `>`, `"` or `'`, and every `&` starts one of the five entities. |
| Common.EscapeHtmlIdentity | src/utils/common.ts:12-18 | A string without `&`, `<`, `>`, `"` or `'` is returned unchanged. |
| Common.ShortcutChainIsPerChar | src/utils/common.ts:286-291 | The five replaces equal rewriting each symbol on its own: ⌥ to "Alt ", ⌘ to "Ctrl ", ⇧ to "Shift ", ⇪ to "CapsLock ", ⌃ to "Ctrl ". |
| Common.ReplaceShortcutString | src/utils/common.ts:282-295 | On the `darwin` back end the shortcut is unchanged. On any other back end each symbol is rewritten. |
| Common.ShortcutEachRemovesSymbols | src/utils/common.ts:286-291 | No modifier symbol is left after the rewrite. |
| Common.GenerateUuid | src/utils/common.ts:251-271 | The output has length 36, with `-` at 8, 13, 18 and 23 and `4` at 14. Index 19 is one of 8, 9, a or b. Every other index is the lower-case hex digit of the next random draw. |
| Common.ParseDateString | src/utils/common.ts:228-232 | Any input whose length is not 14 gives null. |
| Common.ParseDateStringDigits | src/utils/common.ts:234-239 | A 14-digit stamp gives the fields of the slices [0,4), [4,6), [6,8), [8,10), [10,12) and [12,14), with the month made zero-based. |
| Common.IsAnyPluginExist | src/utils/common.ts:273-280 | True iff the loaded plugin list exists and some given name equals some loaded plugin's name. |
| StringUtils.HtmlTransferParser | src/utils/stringUtils.ts:1-9 | Null or "" gives "". The output is never longer than the input. |
| StringUtils.DecodeChainShrinks | src/utils/stringUtils.ts:3-7 | Each replace turns an entity into a single character, so the result is never longer. |
| StringUtils.HtmlTransferParserWithoutAmpersand | src/utils/stringUtils.ts:5-7 | A string without `&` is returned unchanged. |
| StringUtils.DecodesOneLevel | src/utils/stringUtils.ts:3-7 | `&amp;` is decoded last, so `&amp;lt;` becomes `&lt;`, not `<`. |
| StringUtils.EscapeRoundTrip | src/utils/stringUtils.ts:3-7 | For every string without an apostrophe, decoding the output of `escapeHTML` gives the string back. |
| SyCustom.TransfromAttrToIal | src/syapi/custom.ts:176-184 | Null exactly for an object without keys. Otherwise the result is `{:`, then ` key="value"` per key in order, then `}`. |
| SyCustom.SingleAttrIal | src/syapi/custom.ts:176-184 | A single attribute gives `{: key="value"}`. |
| SyCustom.IsValidIdFormat | src/syapi/custom.ts:226-229 | The scan accepts exactly 14 ASCII digits, a dash and 7 ASCII letters or digits. |
| SyCustom.CheckIdValid | src/syapi/custom.ts:231-235 | Throws exactly when the id is malformed. |
| SyCustom.SubDocIds | src/syapi/custom.ts:313-333 | The collected ids contain no duplicates and hold exactly the valid ids the walk meets. Each id appears at the position of its first occurrence. |
| SyCustom.AddToSetIsAddEach | src/syapi/custom.ts:314-330 | The recursive walk through arrays and `children` adds the ids in visiting order, parents before children. |
| SyCustom.VisitOnlyValid | src/syapi/custom.ts:319-324 | Null, undefined and empty ids never reach the set. |
| SyCustom.DuplicateIdsCollapse | src/syapi/custom.ts:313-333 | A tree with `a` at two places and a null entry gives `[a, b]`. |
| SyCustom.FormatTime | src/syapi/custom.ts:144-146 | Below ten the result is a string with a leading `0`. From ten on, the number is returned unchanged. |
| SyCustom.FormatTimeTwoDigits | src/syapi/custom.ts:140-146 | Every clock field from 0 to 99 renders as two digits that read back as the field. |
| SyCustom.IsValidDeck | src/syapi/custom.ts:338-342 | The quick deck is accepted without the deck list. Any other id is accepted iff the list holds it. A list that is not an array throws. |
| SyCustom.DeckCheckThroughFetch | src/syapi/custom.ts:338-342 | Through `getRiffDecks` the check never throws. After a failed fetch only the quick deck is valid. After a successful one, exactly the quick deck and the listed ids are valid. |
| SyCustom.QuickDeckIdWellFormed | src/syapi/custom.ts:336 | The quick deck's id has the block-id format. |
| SyApi.GetResponseData | src/syapi/index.ts:27-34 | Null iff the code is nonzero or the data is null; otherwise the data. |
| SyApi.CheckResponse | src/syapi/index.ts:41-47 | 0 iff the code is 0, otherwise -1. |
| SyApi.ResponseDataIsCheckedData | src/syapi/index.ts:27-47 | `getResponseData` gives the data of exactly the responses `checkResponse` calls successful, and null for the rest. The search result is read through the same check. |
| SyApi.QueryApi | src/syapi/index.ts:52-63 | A successful response returns its rows. Otherwise it throws `SQL ERROR: msg` iff the message is non-empty, and gives [] if not. |
| SyApi.QueryApiAgreesWithResponseData | src/syapi/index.ts:27-63 | Wherever `getResponseData` gives data, the query returns the same rows. It throws iff there is no data and the message is non-empty. When it does not throw, it gives the same list `listDocsByPath` and `getRiffDecks` read from that response. |
| SyApi.GetRiffDecks | src/syapi/index.ts:597-603 | The data of a successful response, else an empty list. |
| SyApi.ListDocsBody | src/syapi/index.ts:80-97 | The body always has `notebook` and `path`. It has `maxListCount` iff defined and ≥ 0, and `sort` iff defined and not 255 or 256. It has `ignoreMaxListHint` unless `ignore` is null, with `true` by default. It has `showHidden` iff that is not null. |
| SyApi.ListingBody | src/syapi/index.ts:82-91 | The listing part of the body holds only numeric optional fields, each under the same rule. |
| SyApi.ListDocsResult | src/syapi/index.ts:98-103 | The files of a successful response, else the empty list. The response's `data` stands for its `files` field. |
| SyApi.ListDocsDefaults | src/syapi/index.ts:80-97 | With every option left at its default, the body is `notebook`, `path` and `ignoreMaxListHint: true`. |
| SyApi.AnchorKey | src/syapi/index.ts:171-191 | parentID, PARENT and parentId map to `parentID`. nextID, NEXT and nextId map to `nextID`. Anything else maps to `previousID`. |
| SyApi.InsertBlockBody | src/syapi/index.ts:168-191 | The body has `dataType` (markdown by default), `data`, and exactly one anchor key, which holds the block id. |
| SyApi.InsertBlockResult | src/syapi/index.ts:192-205 | The first operation is returned iff the response is successful and that operation has a valid id. |
| SyApi.SelectAnchor | src/syapi/index.ts:228-242 | The first valid id in the order next, previous, parent is chosen. There is none iff no id is valid. |
| SyApi.InsertBlockOriginPayload | src/syapi/index.ts:220-250 | Throws on a data type other than markdown or dom, then on empty data, then when no anchor id is valid. It succeeds iff none of these holds, and the payload then carries all three ids as given. |
| SyApi.OriginPayloadHoldsInsertBody | src/syapi/index.ts:220-250 | An accepted payload holds the selected anchor under its own key. Key for key, it contains the body `insertBlockAPI` would send for the same text, type and anchor. |
| SyApi.InsertBlockOriginResult | src/syapi/index.ts:251-255 | The data is returned iff its first operation exists and has a valid id. Otherwise it throws. |
| SyApi.InsertResultsAgree | src/syapi/index.ts:192-255 | For a successful response the two insert functions accept the same answers. For a failed one `insertBlockAPI` gives null. |
| SyApi.AddRiffCards | src/syapi/index.ts:540-548 | With a size, the result is the size, or the size minus the old count. Without a size it is null. |
| SyApi.RemoveRiffCards | src/syapi/index.ts:574-585 | With a size, the result is the size, or the old count minus the size. With code 0 and no size it is the number of ids. Otherwise null. |
| SyApi.RiffCountsByShape | src/syapi/index.ts:533-586 | For every response shape: a failing code gives null from both counters. A success without a size gives null from the add and the number of ids from the remove. With a size and no old count, both give the size. With an old count, the two differences are opposite. |
| SyApi.SearchRequest | src/syapi/index.ts:945-961 | Absent options take their defaults. groupBy 0 with orderBy 5 sends orderBy 0. pageSize is always 10, and reqId is the clock. |
| SyApi.SearchRequestNormalised | src/syapi/index.ts:947-950 | The rejected combination is never sent, and normalising a sent body changes nothing. |
| SyApi.SearchResult | src/syapi/index.ts:962-967 | Code 0 returns the data. Any other code throws with the server's message. |
| Release.HeaderAt | scripts/.release.py:6 | A match is `### v`, a version of at least two dot-separated digit runs, and a newline. |
| Release.HeaderAtComplete | scripts/.release.py:6 | Every such header is recognised, with its version and the index where its body starts. |
| Release.SingleComponentIgnored | scripts/.release.py:6 | A header with a single-component version does not match. |
| Release.FindAll | scripts/.release.py:6 | Every entry found has a valid version. |
| Release.BodiesStopAtNextHeader | scripts/.release.py:6 | No body runs into the next entry. |
| Release.BodyHasNoHeader | scripts/.release.py:6 | The lazy body stops before the first `\n### `, so the text it takes holds none. |
| Release.LessIrreflexive | scripts/.release.py:9 | Tuple comparison is irreflexive. |
| Release.LessTransitive | scripts/.release.py:9 | Tuple comparison is transitive. |
| Release.LessTotal | scripts/.release.py:9 | Any two distinct tuples are ordered one way or the other. |
| Release.VersionOrderExamples | scripts/.release.py:9 | (1,9,9) < (1,10,0), and the proper prefix (1,2) < (1,2,0). |
| Release.TenBeatsNine | scripts/.release.py:9 | Version 1.10.0 is later than 1.9.9: components compare as integers, not as text. |
| Release.LatestIndex | scripts/.release.py:9 | The chosen entry has the greatest version, and every entry before it has a smaller one, so among equal versions the first wins. |
| Release.FirstMaxIsLatest | scripts/.release.py:9 | The loop's running maximum is the entry `max` returns. |
| Release.ReleaseNotes | scripts/.release.py:6-14 | The notes are the body of the latest entry, or "" when no header matches. |
| Registry.TableLookup | src/manager/editorHelper.ts:5-12 | The table holds exactly `filerbot` and `tui`, each naming its own instance. Inherited member names read as non-editors. |
| Registry.ChangeEditor | src/manager/editorHelper.ts:25-32 | It throws iff the slot holds no editor or the key is an inherited member name. On success, the last call is `init` on the selected instance and earlier calls are kept. |
| Registry.SelectAfter | src/manager/editorHelper.ts:30-31 | The looked-up instance, or `tui` for a missing key, is stored and its `init` called once. |
| Registry.ChangeEditorEffect | src/manager/editorHelper.ts:25-31 | The previous editor, if any, is destroyed, then `init` runs once on the selected instance. That instance is `filerbot` only for the key `filerbot`. |
| Registry.ReselectDestroysFirst | src/manager/editorHelper.ts:26-28 | Choosing the current editor again destroys it and initialises it anew. |
| Registry.InheritedKeyIsStuck | src/manager/editorHelper.ts:26-31 | After an inherited key, every later `changeEditor` throws without calling anything. |
| Registry.InitImageEditor | src/manager/editorHelper.ts:21-23 | Forwards `init` to the current editor. Throws when there is none. |
| Registry.ShowImageEditor | src/manager/editorHelper.ts:17-19 | Forwards the request unchanged to the current editor. Throws when there is none. |
| Registry.NothingBeforeChange | src/manager/editorHelper.ts:15-23 | Before the first `changeEditor`, both forwarders throw. |
| Registry.StartupSelects | src/manager/editorHelper.ts:25-31 | At start-up a valid key selects its own back end. The following `initImageEditor` initialises it a second time. |
| Settings.SettingFileName | src/manager/settingManager.ts:68-71 | `settings_` + the system id, or `main` when there is none, + `.json`. |
| Settings.SettingFileNameInjective | src/manager/settingManager.ts:68-71 | Two systems share a file exactly when their ids agree, with a missing id counted as `main`. |
| Settings.MainIdCollides | src/manager/settingManager.ts:69 | The id `main` and a missing id share `settings_main.json`. |
| Settings.TransferOldSettingAsWritten | src/manager/settingManager.ts:228-247 | As written, null or blank legacy data gives null. Legacy data with an own `toString` key throws a TypeError at the comparison with `""`. Otherwise the keys are the default keys plus the legacy keys that name `Object.prototype` members, and a legacy value wins over the default. |
| Settings.PrototypeKeySurvives | src/manager/settingManager.ts:239-243 | As written, a legacy key `constructor` survives the migration. |
| Settings.TransferOldSetting | src/manager/settingManager.ts:228-247 | Null or blank legacy data gives null, and an own `toString` key still throws. Otherwise the keys are exactly the default keys, and a legacy value wins over the default. |
| Settings.TransferAgreesWithoutPrototypeKeys | src/manager/settingManager.ts:239-243 | Both migrations agree on every legacy file that names no inherited member. |
| Settings.StampVersion | src/manager/settingManager.ts:95-104 | Missing, falsy or older versions become 20241219. `immediatelyUpdate` becomes false when the host lacks `getAllEditor`. Nothing else changes, and current versions are left alone. |
| Settings.StampVersionIdempotent | src/manager/settingManager.ts:95-98 | Stamping twice is stamping once. |
| Settings.NewerVersionKept | src/manager/settingManager.ts:96 | A version at or above 20241219 is kept. |
| Settings.CoerceSelect | src/manager/settingManager.ts:197-200 | A value outside the options becomes the default. An option is kept. |
| Settings.CoerceSwitch | src/manager/settingManager.ts:211-214 | Undefined or null becomes the default. Anything else is kept. |
| Settings.CheckSettingType | src/manager/settingManager.ts:194-222 | Afterwards `imageEditor` is one of the editor keys and `compatibilityMode` is set. A value that changed became its default, and every other key is untouched. |
| Settings.CheckSettingTypeIdempotent | src/manager/settingManager.ts:45 | The options contain the default `tui`, so checking twice changes nothing more. |
| Settings.DefaultsPassCheck | src/manager/settingManager.ts:21-28 | The defaults pass the type check unchanged. |
| Settings.LoadSettings | src/manager/settingManager.ts:80-117 | The load rejects with a TypeError exactly when the object compared with `""` has an own `toString`: the current file, or the legacy file when there is no current one. Otherwise every default key is present and the version is current. `imageEditor` is a valid key. The current file's values survive, except on the stamped and checked keys. A migrated legacy file installs the default keys, its keys that name `Object.prototype` members, the version and, without `getAllEditor`, `immediatelyUpdate`. The defaults object itself is stamped only when neither file holds data. A default key the current file lacks takes its default value. A migrated default key other than `imageEditor` and `compatibilityMode` takes the legacy value when the legacy file has it, and the default otherwise. The installed settings never hold an own `toString`. |
| Settings.Overlay | src/manager/settingManager.ts:95-116 | The stamp, the check and the overlay on the defaults keep the default and loaded keys and add at most the four keys they write. The version is current and both checked keys are valid. A default key the file lacks takes the default, and any other key keeps the file's value. |
| Settings.MigrationKeys | src/manager/settingManager.ts:86-104 | A migrated file has no version, so it is stamped, and the type check adds no key beyond the defaults. |
| Settings.MigrationKeepsOnlyPrototypeKeys | src/manager/settingManager.ts:80-117 | A legacy key that the defaults do not declare, other than the two the stamp writes, is installed iff it names an `Object.prototype` member. It keeps its legacy value. The load rejects exactly when the legacy file has an own `toString`. |
| Settings.FirstStart | src/manager/settingManager.ts:85-98 | With neither file present, the installed settings are the stamped defaults, with editor `tui`. |
| Settings.ReloadIsStable | src/manager/settingManager.ts:80-116 | Whenever a load succeeds, loading the settings it installed succeeds again and installs the same settings. |
| Settings.LoadSelectsConfiguredEditor | src/index.ts:45-53 | A rejected load selects and initialises no editor, binds no handler and shows the failure message. After a successful load, the installed `imageEditor` selects exactly that back end. `changeEditor` initialises it and `initImageEditor` initialises it again, the handlers are bound, and no failure is shown. |
| EditorSession.RefreshSrc | src/editor/tuiEditor.ts:263-265 | The new `src` keeps the text before the first `?`, and nothing else in the session changes. |
| EditorSession.RefreshSrcTwice | src/editor/tuiEditor.ts:263-265 | Refreshing again replaces the query string instead of stacking a second one. |
| TuiEditor.Show | src/editor/tuiEditor.ts:199-202 | Each show displays the editor, builds one more widget, and starts with the unsaved flag false. |
| TuiEditor.OnWidgetEvent | src/editor/tuiEditor.ts:203-230 | The five object and text events set the flag. `undoStackChanged` sets it only for a non-empty stack. No event clears it. |
| TuiEditor.OnWidgetEventsFlag | src/editor/tuiEditor.ts:203-230 | After any run of events, the flag is set iff it was set before or some event marks it. Nothing else changes. |
| TuiEditor.CloseEditor | src/editor/tuiEditor.ts:54-63 | The editor is hidden and the widget destroyed and dropped. The flag and the image stay. |
| TuiEditor.MaskClick | src/editor/tuiEditor.ts:117-145 | Without unsaved edits the editor closes and no dialog opens. With them, the dialog opens and the editor stays. |
| TuiEditor.DestroyDialog | src/editor/tuiEditor.ts:138-145 | Destroying the dialog runs `closeEditor`. |
| TuiEditor.DialogSave | src/editor/tuiEditor.ts:151-162 | A resolved save refreshes the image, and a thrown one shows the failure. Either way the editor closes and the flag is not cleared. |
| TuiEditor.DialogCancel | src/editor/tuiEditor.ts:164-167 | Cancel closes the editor without saving. |
| TuiEditor.EitherButtonCloses | src/editor/tuiEditor.ts:138-168 | Whichever button answers the dialog, the editor ends closed, without a widget and still flagged. |
| TuiEditor.SaveButtonAsWritten | src/editor/tuiEditor.ts:258-271 | As written, any resolved save clears the flag, reports success and refreshes the image `src`. A thrown save reports failure and changes nothing else. |
| TuiEditor.RefusedSaveReportedAsSuccess | src/editor/tuiEditor.ts:258-271 | As written, a save the storage refused clears the flag and reports success. |
| TuiEditor.SaveButton | src/editor/tuiEditor.ts:258-271 | Only a save that resolved true refreshes the image, clears the flag and reports success. The editor's visibility is unchanged. |
| TuiEditor.SaveButtonsAgreeUnlessRefused | src/editor/tuiEditor.ts:258-271 | The two save buttons differ exactly on a refused save. |
| TuiEditor.Destroy | src/editor/tuiEditor.ts:274-283 | The floating container is removed, so the editor is no longer shown. The widget reference is untouched. The mask is not removed, and the session record does not track it. |
| TuiEditor.ShowAfterCloseRebuilds | src/editor/tuiEditor.ts:54-63 | After a close, the next show builds a new widget and starts clean. |
| FilerbotEditor.Show | src/editor/filerbotEditor.ts:121-172 | A widget is built only when none is held. The flag starts false on every show. |
| FilerbotEditor.OnModify | src/editor/filerbotEditor.ts:163-166 | `onModify` sets the flag and changes nothing else. |
| FilerbotEditor.OnBeforeSave | src/editor/filerbotEditor.ts:160-162 | The widget's own save dialog is always suppressed. |
| FilerbotEditor.OnSave | src/editor/filerbotEditor.ts:178-190 | The image is refreshed and the flag cleared, even when the storage call threw. It returns 0. |
| FilerbotEditor.OnSaveIgnoresResult | src/editor/filerbotEditor.ts:180-189 | The save hook's effect does not depend on how the storage call ended. |
| FilerbotEditor.CloseEditor | src/editor/filerbotEditor.ts:193-197 | The editor is hidden. The widget is terminated, but its reference is kept. |
| FilerbotEditor.MaskMouseUp | src/editor/filerbotEditor.ts:65-73 | Without unsaved edits the editor closes. With them, the dialog opens and the editor stays. |
| FilerbotEditor.DialogReturn | src/editor/filerbotEditor.ts:99-103 | "Return" destroys only the dialog. The editor and the flag stay. |
| FilerbotEditor.DialogCancel | src/editor/filerbotEditor.ts:104-108 | "Cancel" destroys the dialog and closes the editor. |
| FilerbotEditor.Destroy | src/editor/filerbotEditor.ts:201-218 | Nothing is shown afterwards, and the widget is terminated and dropped. |
| FilerbotEditor.IsAvailable | src/editor/filerbotEditor.ts:198-200 | The back end is always available. |
| FilerbotEditor.WidgetBuiltOnce | src/editor/filerbotEditor.ts:121-171 | After a close, the next show builds nothing. After a destroy, it builds one widget. |
| FilerbotEditor.ReturnKeepsAsking | src/editor/filerbotEditor.ts:96-110 | After "return", the next mouse-up asks again. |
| Backends.ThrownSaveFlag | src/editor/filerbotEditor.ts:180-188 | A thrown save leaves the tui flag set but clears the Filerobot one. |
| Backends.DialogButtonsDiffer | src/editor/filerbotEditor.ts:96-110 | Both tui buttons close the editor. Filerobot's "return" keeps it open and only its "cancel" closes it. |
| Backends.WidgetReuseDiffers | src/editor/filerbotEditor.ts:121-171 | A show while a widget is held builds a new tui widget but reuses the Filerobot one. |
| Backends.CloseDiffers | src/editor/filerbotEditor.ts:193-197 | Closing drops the tui widget but keeps the Filerobot one. |
| LocalEditor.IsAvailable | src/editor/localEditor.ts:104-116 | Available iff neither the front end nor the back end is one of the listed ones. The front end is checked first, and at most one message names the first failed check. |
| LocalEditor.Substitution | src/editor/localEditor.ts:31 | A replacement string without `$` is inserted as it is. |
| LocalEditor.ReplacePattern | src/editor/localEditor.ts:31 | A string with no `%%PATH%%` comes back unchanged. |
| LocalEditor.ExpandLineAsWritten | src/editor/localEditor.ts:29-33 | As written, a line without `%%PATH%%` is unchanged. For an image path without `$`, a line with the token has every occurrence replaced by the path literally. |
| LocalEditor.ReplacePatternLiteral | src/editor/localEditor.ts:31 | With no `$` in the replacement, JavaScript's pattern replace is the literal replace. |
| LocalEditor.ExpandLine | src/editor/localEditor.ts:29-33 | A line with `%%PATH%%` has every occurrence replaced by the image path. Any other line is unchanged. |
| LocalEditor.ExpandLinesAgree | src/editor/localEditor.ts:29-34 | The as-written expansion equals the literal one whenever the image path has no `$`. |
| LocalEditor.DoubledDollarMangled | src/editor/localEditor.ts:29-34 | As written, a path with one `$$` loses a `$`. |
| LocalEditor.DollarPathMangled | src/editor/localEditor.ts:29-34 | As written, `/d/a$$b.png` reaches the program as `/d/a$b.png`. |
| LocalEditor.TokenLineIsPath | src/editor/localEditor.ts:29-33 | A line that is just `%%PATH%%` becomes the image path. |
| LocalEditor.ExpandLines | src/editor/localEditor.ts:29-34 | There is one argument per line, each its line expanded as the code does it, with the path read as a replacement pattern. For a path without `$` each is the literal expansion. |
| LocalEditor.LauncherArgs | src/editor/localEditor.ts:26-34 | A falsy setting gives just the image path. A string gives one argument per line, expanded as the code does it, and literally when the path has no `$`. Any other truthy value throws, because it has no `split`. |
| LocalEditor.OptionThenPath | src/editor/localEditor.ts:26-34 | `-edit\n%%PATH%%` gives `-edit` followed by the image path read as a replacement pattern. For a path without `$` that is `["-edit", imagePath]`. |
| LocalEditor.OptionThenMangledPath | src/editor/localEditor.ts:26-34 | The same setting with the path `/d/a$$b.png` hands the program `/d/a$b.png`. |
| LocalEditor.LaunchFor | src/editor/localEditor.ts:14-36 | Without a valid command nothing starts. Otherwise the command is started iff its arguments can be built, and it gets exactly the arguments the code builds for the data directory joined with the `src` before its first `?`. |
| LocalEditor.DefaultsLaunchNothing | src/editor/localEditor.ts:21-25 | With the default settings nothing is started. |
| LocalEditor.EmptyArgsGivePath | src/editor/localEditor.ts:26-34 | A configured command with empty arguments gets exactly the image path. |
| LocalEditor.OnChildClose | src/editor/localEditor.ts:49-100 | The waiting dialog opens iff the program exited within 3000 ms. The `src` is always refreshed. |
| LocalEditor.DialogRefresh | src/editor/localEditor.ts:83-88 | "Refresh" keeps the `src` before its `?`. |
| LocalEditor.DialogCancel | src/editor/localEditor.ts:90-100 | "Cancel" leaves the `src` as the exit refreshed it, because `closeEditor` does nothing. |
| LocalEditor.ExitThenRefresh | src/editor/localEditor.ts:82-100 | Whatever the user answers, the image keeps its base with a single query string. |
| LocalStorage.ParseDataUrl | src/storage/localStorage.ts:13-16 | A match gives a non-empty MIME type without `;` and a payload without line terminators, and the input is exactly `data:` + MIME + `;base64,` + payload. |
| LocalStorage.ParseDataUrlComplete | src/storage/localStorage.ts:13-16 | Every well-formed data URL is recognised, with both parts returned. |
| LocalStorage.ParseDataUrlNeedsPrefix | src/storage/localStorage.ts:13-14 | Text that does not begin with `data:` is rejected. |
| LocalStorage.Extension | src/storage/localStorage.ts:22-27 | `image/*` gives `.` + the segment after the first `/`. `application/pdf` gives `.pdf`. Anything else gives none. |
| LocalStorage.PngExtension | src/storage/localStorage.ts:22-24 | `image/png` gives `.png`. |
| LocalStorage.PdfExtension | src/storage/localStorage.ts:25-26 | `application/pdf` gives `.pdf`. |
| LocalStorage.TextHasNoExtension | src/storage/localStorage.ts:22-27 | `text/plain` gives none. |
| LocalStorage.FileName | src/storage/localStorage.ts:28-29 | The name is the last path segment, or `file` when that is empty. The extension is appended only to a name without a dot. |
| LocalStorage.FileNameOfPath | src/storage/localStorage.ts:28-29 | A path's final component is its file name. |
| LocalStorage.FileNameOfDirectory | src/storage/localStorage.ts:28-29 | A path ending in `/` gets the default name. |
| LocalStorage.Bytes | src/storage/localStorage.ts:17-21 | There is one byte per decoded character: its code unit truncated to 8 bits. |
| LocalStorage.BuildRequest | src/storage/localStorage.ts:13-41 | A malformed data URL throws before any request. The path is the argument unchanged, and `modTime` is floor(nowMs / 1000). The buffer has the decoded length and the authorization is `Token ` + the token. |
| LocalStorage.UploadFile | src/storage/localStorage.ts:9-49 | The result is true iff the code is 0. A nonzero code shows the server's message and gives false without throwing. |
| LocalStorage.AsSaveResult | src/storage/localStorage.ts:9-11 | The editor's awaited save resolves exactly when the upload did not throw, with the upload's boolean. |
| LocalStorage.RefusalResolvesFalse | src/storage/localStorage.ts:44-46 | A well-formed upload the server refuses resolves false instead of throwing. |
| EventHandler.BoundKeys | src/manager/eventHandler.ts:31-35 | A key is bound iff its related setting is null or that setting is truthy. |
| EventHandler.BindHandler | src/manager/eventHandler.ts:27-35 | Only handler keys are added, so `ws-main` is never bound. |
| EventHandler.BothHandlersAlwaysBound | src/manager/eventHandler.ts:9-18 | Both handlers depend on no setting, so both are bound whatever the settings say. |
| EventHandler.UnbindHandler | src/manager/eventHandler.ts:39-44 | Every handler key is removed, whether it was bound or not. |
| EventHandler.UnbindUndoesBind | src/manager/eventHandler.ts:27-44 | Unbinding after binding leaves what unbinding alone leaves. |
| EventHandler.FilePath | src/manager/eventHandler.ts:62 | `data/` + the `data-src` attribute, with a missing attribute read as `null`. |
| EventHandler.OpenMenuImage | src/manager/eventHandler.ts:50-67 | Without an `img` it throws, and without a `src` too. The entry is added iff the `src` starts with `asset`, and its click forwards the `src`, the file path and the image. |
| EventHandler.MissingDataSrc | src/manager/eventHandler.ts:62 | An asset image without `data-src` opens at `data/null`. |
| EventHandler.RemoteImageNoEntry | src/manager/eventHandler.ts:54 | A web image gets no menu entry. |
| EventHandler.MenuEntryDependsOnlyOnSrc | src/manager/eventHandler.ts:50-67 | Two images with the same `src` get the same decision whatever their `data-src`, and the request opens that `src`. |
| EventHandler.FilePathInjective | src/manager/eventHandler.ts:62 | Two images share a workspace path exactly when their `data-src` agree, with a missing attribute counted as the text `null`. |

## Left out

- The HTTP exchange itself is not modelled: `fetch`, `FormData`/`File` construction, and the other kernel API wrappers of `src/syapi/index.ts`. Each call that is modelled takes the server's answer as a record.
- DOM work is out: the shadow root, styles, the host `Dialog`, the widgets, timers, and the `svg use` rewrite. The editors see them as events and booleans.
- The recovery path in `showImageEditor` is not modelled for either widget editor. It destroys and re-initialises when the floating view is missing: tui at the start of its show, Filerobot when `editorContainer` is missing (src/editor/filerbotEditor.ts:41-45). `TuiEditor.Show` and `FilerbotEditor.Show` assume `init` has run.
- Mask and listener leaks are out. The tui mask is looked up in the shadow root but appended to the page, and Filerobot adds another `mouseup` listener on every show. These are resource leaks, not behaviour the session record can hold.
- The settings watch is out: the 1000 ms save debounce, `changeDebug` and `setStyle`. The outdated-settings dialog is out as well, since its key list is empty and it never opens.
- `checkSettingType`'s NUMBER rule (`parseFloat`) is out. No NUMBER property is registered, and floats are not modelled.
- Loaded settings that are not objects are out. JSON values are objects of scalars.
- A `__proto__` key in parsed JSON is out.
- `Common.ParseDateString`: lengths are counted in characters, while `.length` counts UTF-16 code units. A string of 13 characters that holds one character outside the Basic Multilingual Plane has length 14 in JavaScript and is parsed there. The model gives null for it.
- `Release.HeaderAt`: version digits are ASCII only. Python's `\d` in a text pattern and `int()` also accept every other Unicode decimal digit, such as `### v١.٢`.
- `Release.ReleaseNotes`: inherits the ASCII-only digits of `Release.HeaderAt`. A header whose version uses other Unicode decimal digits is not found.
- `Settings.BelowCurrent`: only strings of decimal digits compare numerically. Other numeric strings, such as ones with a sign or a fraction, count as NaN.
- `CommonCheck.ToUpper`: ASCII letters only. Full Unicode upper-casing is not modelled. The whitespace set is the one JavaScript's `\s` matches.
- `SyCustom.TransfromAttrToIal` takes the attributes as an ordered list in the object's key order. Values are strings, since the function's callers pass strings.
- Dates are out: the `Date` construction and validity check in `parseDateString`, `getUpdateString` beyond `formatTime`, and `generateBlockId`.
- Process launching is out: `spawn`, the child's output streams and `path.join`. The joined path is the result of a `join` parameter.
- `LocalEditor`'s `init`, `closeEditor` and `destroy` have empty bodies and need no model. The dialog's "cancel" leaves the `src` as the exit left it.
- The plugin entry point (`src/index.ts`) is not modelled, apart from start-up (`Settings.StartPlugin`). There `loadSettings` selects and initialises the editor, the handlers are bound and `initImageEditor` initialises it again; a rejected load only shows the failure message. The handlers are a flag there; `EventHandler` models which ones are bound.
- `setStyle`, the shortcut handler, the Vue settings UI, i18n and the logger are out.
- `imageStorageHelper` and `baseStorage` only forward to `LocalStorage`, so they are not modelled separately.
- `baseImageEditor` is not a separate module. Its `init`, show and `destroy` shape is the set of calls `Registry` logs.
- `atob` is a parameter. It returns nothing for a payload it rejects.

## Findings

The operations that use these pieces (`LocalEditor.LauncherArgs`, `LocalEditor.LaunchFor` and `Settings.LoadSettings`) follow the code as written. Each corrected definition stands beside them, with the intended property proved.

| source | as written | input that shows it | evidently intended | confidence | as-written member | corrected member |
|---|---|---|---|---|---|---|
| src/editor/tuiEditor.ts:258-271 | The toolbar save button awaits the storage call and treats any resolution as success. It refreshes the image, clears the unsaved flag and shows "save success", but the storage resolves false when the server refuses the file (src/storage/localStorage.ts:44-46). | An upload the server answers with code 1: the storage shows the failure, then the editor shows success and forgets the unsaved edits. | Only a save that stored the image clears the flag and reports success. | not executed | TuiEditor.SaveButtonAsWritten (TuiEditor.RefusedSaveReportedAsSuccess, LocalStorage.RefusalResolvesFalse) | TuiEditor.SaveButton (TuiEditor.SaveButtonsAgreeUnlessRefused) |
| src/editor/localEditor.ts:29-34 | `%%PATH%%` is replaced through `String.prototype.replace` with the image path as the replacement string, so `$$`, `$&`, `` $` `` and `$'` in the path are read as replacement patterns. | The image path `/d/a$$b.png` with the argument line `%%PATH%%` gives `/d/a$b.png`. | The program receives the image path as it is. | not executed | LocalEditor.ExpandLineAsWritten (LocalEditor.DollarPathMangled, LocalEditor.DoubledDollarMangled, LocalEditor.OptionThenMangledPath) | LocalEditor.ExpandLine (LocalEditor.ExpandLinesAgree) |
| src/manager/settingManager.ts:239-243 | Unknown legacy keys are dropped with `key in defaultSetting`. That test also holds for every member name the object inherits from `Object.prototype`. | A legacy `settings.json` of `{"constructor": 1}` keeps `constructor` in the migrated settings. | The result has exactly the default keys. | not executed | Settings.TransferOldSettingAsWritten (Settings.PrototypeKeySurvives, Settings.MigrationKeepsOnlyPrototypeKeys) | Settings.TransferOldSetting (Settings.TransferAgreesWithoutPrototypeKeys) |

=== FILE: api.dfy ===
/**
  The pure parts of `src/syapi/index.ts`: how request bodies are shaped from
  the caller's arguments and how the kernel's `{code, data, msg}` answers are
  read. `fetch` itself is not modelled; each operation receives the parsed
  response as an argument.
 */
module SyApi {
  import opened Js
  import CommonCheck

  /** The parsed JSON answer of a kernel API call; `data` is `None` for `null`/`undefined`. */
  datatype Response<D> = Response(code: int, data: Option<D>, msg: string)

  /** `getResponseData`: the data of a successful answer, `null` otherwise. */
  function GetResponseData<D>(response: Response<D>): (r: Option<D>)
    ensures r.Some? <==> response.code == 0 && response.data.Some?
    ensures r.Some? ==> r == response.data
  {
    if response.code != 0 || response.data.None? then None else response.data
  }

  /** `checkResponse`: 0 for success, -1 for any other code. */
  function CheckResponse<D>(response: Response<D>): (r: int)
    ensures r == 0 <==> response.code == 0
    ensures r == 0 || r == -1
  {
    if response.code == 0 then 0 else -1
  }

  /**
    The two readers of an answer agree: `getResponseData` gives the data of
    exactly the answers `checkResponse` calls a success, and the search reads
    its answer through the same check.
   */
  lemma ResponseDataIsCheckedData<D>(response: Response<D>)
    ensures GetResponseData(response) == (if CheckResponse(response) == 0 then response.data else None)
    ensures SearchResult(response).Ok? <==> CheckResponse(response) == 0
    ensures SearchResult(response).Ok? ==> SearchResult(response).value == GetResponseData(response)
  {
  }

  // ------------------------------------------------------------------ queryAPI

  /** `queryAPI`: rows on success; otherwise an error when the kernel gave a message, else no rows. */
  function QueryApi<Row>(response: Response<seq<Row>>): (r: Result<seq<Row>, string>)
    ensures response.code == 0 && response.data.Some? ==> r == Ok(response.data.value)
    ensures r.Throws? <==> !(response.code == 0 && response.data.Some?) && response.msg != ""
    ensures r.Throws? ==> r.error == "SQL ERROR: " + response.msg
  {
    if response.code == 0 && response.data.Some? then Ok(response.data.value)
    else if response.msg != "" then Throws("SQL ERROR: " + response.msg)
    else Ok([])
  }

  /**
    A query succeeds with data exactly where `getResponseData` does, and a
    silent failure reads as no rows; so wherever the query does not throw, it
    gives the list that `listDocsByPath` and `getRiffDecks` read from the same
    answer.
   */
  lemma QueryApiAgreesWithResponseData<Row>(response: Response<seq<Row>>)
    ensures GetResponseData(response).Some? ==> QueryApi(response) == Ok(GetResponseData(response).value)
    ensures GetResponseData(response).None? && response.msg == "" ==> QueryApi(response) == Ok([])
    ensures QueryApi(response).Throws? <==> GetResponseData(response).None? && response.msg != ""
    ensures QueryApi(response).Ok? ==>
      QueryApi(response).value == ListDocsResult(response) == GetRiffDecks(response)
    ensures QueryApi(response).Throws? ==> ListDocsResult(response) == GetRiffDecks(response) == []
  {
  }

  // ------------------------------------------------------------ listDocsByPathT

  const FOLLOW_DOC_TREE: int := 255
  const UNASSIGNED: int := 256

  /**
    The request body of `listDocsByPathT`. `maxListCount` and `sort` are `None`
    when left out (or `null`, which compares equal to `undefined`); `ignore` and
    `showHidden` are raw values whose defaults `true` and `null` replace
    `undefined` only.
   */
  function ListDocsBody(notebook: Value, path: Value, maxListCount: Option<int>, sort: Option<int>,
                        ignore: Value, showHidden: Value): (body: map<string, Value>)
    ensures body.Keys <= {"notebook", "path", "maxListCount", "sort", "ignoreMaxListHint", "showHidden"}
    ensures "notebook" in body && body["notebook"] == notebook && "path" in body && body["path"] == path
    ensures "maxListCount" in body <==> maxListCount.Some? && maxListCount.value >= 0
    ensures "sort" in body <==> sort.Some? && sort.value != FOLLOW_DOC_TREE && sort.value != UNASSIGNED
    ensures "ignoreMaxListHint" in body <==> !ignore.Null?
    ensures ignore.Undefined? ==> body["ignoreMaxListHint"] == Bool(true)
    ensures "showHidden" in body <==> !IsNullish(showHidden)
    ensures forall k :: k in body && k != "notebook" && k != "path" ==> !IsNullish(body[k])
  {
    var ignore' := if ignore.Undefined? then Bool(true) else ignore;
    var showHidden' := if showHidden.Undefined? then Null else showHidden;
    var b2 := ListingBody(notebook, path, maxListCount, sort);
    var b3 := if !IsNullish(ignore') then b2["ignoreMaxListHint" := ignore'] else b2;
    if !IsNullish(showHidden') then b3["showHidden" := showHidden'] else b3
  }

  /** The first half of the body: the notebook, the path, and the two numeric options that are kept. */
  function ListingBody(notebook: Value, path: Value, maxListCount: Option<int>, sort: Option<int>): (body: map<string, Value>)
    ensures body.Keys <= {"notebook", "path", "maxListCount", "sort"}
    ensures "notebook" in body && body["notebook"] == notebook && "path" in body && body["path"] == path
    ensures "maxListCount" in body <==> maxListCount.Some? && maxListCount.value >= 0
    ensures "sort" in body <==> sort.Some? && sort.value != FOLLOW_DOC_TREE && sort.value != UNASSIGNED
    ensures forall k :: k in body && k != "notebook" && k != "path" ==> body[k].Num?
  {
    var b0 := map["notebook" := notebook, "path" := path];
    var b1 := if maxListCount.Some? && maxListCount.value >= 0 then b0["maxListCount" := Num(maxListCount.value)] else b0;
    if sort.Some? && sort.value != FOLLOW_DOC_TREE && sort.value != UNASSIGNED then b1["sort" := Num(sort.value)] else b1
  }

  /**
    The answer of `listDocsByPath`: the listed files, or an empty list when the
    call failed. The response's `data` here stands for its `files` field, the
    part of the answer the function hands back.
   */
  function ListDocsResult<F>(response: Response<seq<F>>): (files: seq<F>)
    ensures GetResponseData(response).Some? ==> files == GetResponseData(response).value
    ensures GetResponseData(response).None? ==> files == []
  {
    if response.code != 0 || response.data.None? then [] else response.data.value
  }

  /** `getRiffDecks()`: the decks of a successful answer, or an empty list. */
  function GetRiffDecks<D>(response: Response<seq<D>>): (decks: seq<D>)
    ensures GetResponseData(response).Some? ==> decks == GetResponseData(response).value
    ensures GetResponseData(response).None? ==> decks == []
  {
    if response.code == 0 && response.data.Some? then response.data.value else []
  }

  /** A call with only the notebook and path asks for the hint to be ignored and nothing else. */
  lemma ListDocsDefaults(notebook: Value, path: Value)
    ensures ListDocsBody(notebook, path, None, None, Undefined, Undefined)
      == map["notebook" := notebook, "path" := path, "ignoreMaxListHint" := Bool(true)]
  {
  }

  // ------------------------------------------------------------ insertBlockAPI

  /** The body key the `addType` switch chooses: parent, next, or (by default) previous. */
  function AnchorKey(addType: Value): (k: string)
    ensures k == "parentID" <==> addType in {Str("parentID"), Str("PARENT"), Str("parentId")}
    ensures k == "nextID" <==> addType in {Str("nextID"), Str("NEXT"), Str("nextId")}
    ensures k == "parentID" || k == "nextID" || k == "previousID"
  {
    match addType
    case Str(s) =>
      if s == "parentID" || s == "PARENT" || s == "parentId" then "parentID"
      else if s == "nextID" || s == "NEXT" || s == "nextId" then "nextID"
      else "previousID"
    case _ => "previousID"
  }

  /**
    The request body of `insertBlockAPI(text, blockid, addType, textType)`:
    the text, its type (`markdown` unless given), and the block id under exactly
    one anchor key.
   */
  function InsertBlockBody(text: Value, blockId: Value, addType: Value, textType: Value): (body: map<string, Value>)
    ensures body.Keys == {"dataType", "data", AnchorKey(addType)}
    ensures body["data"] == text && body[AnchorKey(addType)] == blockId
    ensures body["dataType"] == if textType.Undefined? then Str("markdown") else textType
    ensures |body.Keys * {"parentID", "nextID", "previousID"}| == 1
  {
    var dataType := if textType.Undefined? then Str("markdown") else textType;
    var k := AnchorKey(addType);
    assert {"dataType", "data", k} * {"parentID", "nextID", "previousID"} == {k};
    map["dataType" := dataType, "data" := text][k := blockId]
  }

  /** One entry of `doOperations`; only its `id` is examined. */
  datatype Operation = Operation(id: Value)

  /** One transaction of the answer; `None` stands for a `null` entry. */
  datatype Transaction = Transaction(doOperations: Option<seq<Option<Operation>>>)

  /** What reading `data[0].doOperations[0]` can run into besides a value. */
  datatype AccessError = ReadOfNullOrUndefined

  /**
    `response.data[0].doOperations[0]` read step by step: each property read
    on `null` or `undefined` (a missing element included) throws a TypeError.
   */
  function FirstOperation(data: seq<Option<Transaction>>): (r: Result<Option<Operation>, AccessError>)
    ensures r.Ok? <==> |data| > 0 && data[0].Some? && data[0].value.doOperations.Some?
    ensures r.Ok? ==> r.value == (var ops := data[0].value.doOperations.value; if |ops| > 0 then ops[0] else None)
  {
    if |data| == 0 || data[0].None? then Throws(ReadOfNullOrUndefined)
    else match data[0].value.doOperations
      case None => Throws(ReadOfNullOrUndefined)
      case Some(ops) => Ok(if |ops| == 0 then None else ops[0])
  }

  /** The chain of checks under which `insertBlockAPI` hands back the first operation. */
  predicate InsertedOperation(response: Response<seq<Option<Transaction>>>, op: Operation) {
    && response.code == 0
    && response.data.Some?
    && |response.data.value| > 0
    && response.data.value[0].Some?
    && response.data.value[0].value.doOperations.Some?
    && |response.data.value[0].value.doOperations.value| > 0
    && response.data.value[0].value.doOperations.value[0] == Some(op)
    && CommonCheck.IsValidStr(op.id)
  }

  /**
    The answer of `insertBlockAPI`: the first operation when the call succeeded
    and it carries a valid id; `null` in every other case, including the
    TypeErrors the `try` block catches.
   */
  function InsertBlockResult(response: Response<seq<Option<Transaction>>>): (r: Option<Operation>)
    ensures r.Some? ==> InsertedOperation(response, r.value)
    ensures forall op :: InsertedOperation(response, op) ==> r == Some(op)
  {
    if response.code == 0 && response.data.Some? then
      match FirstOperation(response.data.value)
      case Throws(_) => None
      case Ok(first) =>
        match first
        case None => None
        case Some(op) => if CommonCheck.IsValidStr(op.id) then Some(op) else None
    else None
  }

  // ------------------------------------------------------ insertBlockOriginAPI

  datatype InsertError = InvalidDataType | EmptyData | NoAnchor | NoOperations | ReadOfNull

  /** The anchor the priority next > previous > parent selects, if any id is valid. */
  function SelectAnchor(nextId: Value, previousId: Value, parentId: Value): (a: Option<(string, Value)>)
    ensures a.None? <==> !CommonCheck.IsValidStr(nextId) && !CommonCheck.IsValidStr(previousId) && !CommonCheck.IsValidStr(parentId)
    ensures a.Some? ==> CommonCheck.IsValidStr(a.value.1)
    ensures CommonCheck.IsValidStr(nextId) ==> a == Some(("nextID", nextId))
  {
    if CommonCheck.IsValidStr(nextId) then Some(("nextID", nextId))
    else if CommonCheck.IsValidStr(previousId) then Some(("previousID", previousId))
    else if CommonCheck.IsValidStr(parentId) then Some(("parentID", parentId))
    else None
  }

  /**
    The validation and payload of `insertBlockOriginAPI`: the data type must be
    `markdown` or `dom`, the data a valid string, and at least one anchor id
    valid. The chosen anchor is computed only to be checked; the payload sends
    all three ids as given.
   */
  function InsertBlockOriginPayload(dataType: Value, data: Value, nextId: Value, previousId: Value, parentId: Value)
    : (r: Result<map<string, Value>, InsertError>)
    ensures r == Throws(InvalidDataType) <==> dataType != Str("markdown") && dataType != Str("dom")
    ensures r == Throws(EmptyData) <==> (dataType == Str("markdown") || dataType == Str("dom")) && !CommonCheck.IsValidStr(data)
    ensures r == Throws(NoAnchor) <==>
      ((dataType == Str("markdown") || dataType == Str("dom"))
       && CommonCheck.IsValidStr(data) && SelectAnchor(nextId, previousId, parentId).None?)
    ensures r.Ok? <==> ((dataType == Str("markdown") || dataType == Str("dom"))
                        && CommonCheck.IsValidStr(data) && SelectAnchor(nextId, previousId, parentId).Some?)
    ensures r.Ok? ==> r.value == map["dataType" := dataType, "data" := data, "nextID" := nextId,
                                     "previousID" := previousId, "parentID" := parentId]
  {
    if !CommonCheck.IsValidStr(dataType) || (dataType != Str("markdown") && dataType != Str("dom")) then Throws(InvalidDataType)
    else if !CommonCheck.IsValidStr(data) then Throws(EmptyData)
    else if SelectAnchor(nextId, previousId, parentId).None? then Throws(NoAnchor)
    else Ok(map["dataType" := dataType, "data" := data, "nextID" := nextId,
                "previousID" := previousId, "parentID" := parentId])
  }

  /**
    An accepted origin payload holds, key for key, the body `insertBlockAPI`
    would send for the same text and type with the anchor the priority selects.
   */
  lemma OriginPayloadHoldsInsertBody(dataType: Value, data: Value, nextId: Value, previousId: Value, parentId: Value)
    ensures var r := InsertBlockOriginPayload(dataType, data, nextId, previousId, parentId);
      r.Ok? ==>
        var a := SelectAnchor(nextId, previousId, parentId).value;
        var body := InsertBlockBody(data, a.1, Str(a.0), dataType);
        && a.0 in r.value && r.value[a.0] == a.1
        && forall k :: k in body ==> k in r.value && r.value[k] == body[k]
  {
    var r := InsertBlockOriginPayload(dataType, data, nextId, previousId, parentId);
    if r.Ok? {
      var a := SelectAnchor(nextId, previousId, parentId).value;
      assert AnchorKey(Str(a.0)) == a.0;
      var body := InsertBlockBody(data, a.1, Str(a.0), dataType);
      assert body.Keys == {"dataType", "data", a.0};
    }
  }

  /**
    The answer check of `insertBlockOriginAPI`: the whole `data` when its first
    transaction has a first operation with a valid id, an error otherwise. The
    response code is not consulted.
   */
  function InsertBlockOriginResult(response: Response<seq<Option<Transaction>>>): (r: Result<seq<Option<Transaction>>, InsertError>)
    ensures r.Ok? <==> exists op :: InsertedOperation(response.(code := 0), op)
    ensures r.Ok? ==> response.data == Some(r.value)
  {
    match response.data
    case None => Throws(NoOperations)
    case Some(data) =>
      if |data| == 0 then Throws(NoOperations)
      else if data[0].None? then Throws(ReadOfNull)
      else match data[0].value.doOperations
        case None => Throws(NoOperations)
        case Some(ops) =>
          if |ops| == 0 || ops[0].None? || !CommonCheck.IsValidStr(ops[0].value.id) then Throws(NoOperations)
          else
            assert InsertedOperation(response.(code := 0), ops[0].value);
            Ok(data)
  }

  /** On a successful code the two insert calls accept the same answers; on a failing code only the origin call can. */
  lemma InsertResultsAgree(response: Response<seq<Option<Transaction>>>)
    ensures response.code == 0 ==> (InsertBlockOriginResult(response).Ok? <==> InsertBlockResult(response).Some?)
    ensures response.code != 0 ==> InsertBlockResult(response).None?
  {
    if response.code == 0 {
      assert response.(code := 0) == response;
      if InsertBlockOriginResult(response).Ok? {
        var op :| InsertedOperation(response, op);
      }
    }
  }

  // --------------------------------------------------------- riff card counts

  /** The `data` of a riff-card answer; `size` is `None` when the key is missing. */
  datatype RiffData = RiffData(size: Option<nat>)

  /**
    `addRiffCards(ids, deckId, oldCardsNum)`: the deck size after the call when
    no previous count was given (any negative count, -1 by default), the number
    added otherwise; `null` unless the answer carries a size.
   */
  function AddRiffCards(oldCardsNum: int, response: Response<RiffData>): (r: Option<int>)
    ensures r.Some? <==> response.code == 0 && response.data.Some? && response.data.value.size.Some?
    ensures r.Some? && oldCardsNum >= 0 ==> oldCardsNum + r.value == response.data.value.size.value
    ensures r.Some? && oldCardsNum < 0 ==> r.value == response.data.value.size.value
  {
    if response.code == 0 && response.data.Some? && response.data.value.size.Some? then
      var size := response.data.value.size.value;
      Some(if oldCardsNum < 0 then size else size - oldCardsNum)
    else None
  }

  /**
    `removeRiffCards(ids, deckId, oldCardsNum)`: like `addRiffCards` with the
    difference taken the other way, and a successful answer without a size
    counts every requested id as removed.
   */
  function RemoveRiffCards<Id>(ids: seq<Id>, oldCardsNum: int, response: Response<RiffData>): (r: Option<int>)
    ensures r.Some? <==> response.code == 0
    ensures r.Some? && (response.data.None? || response.data.value.size.None?) ==> r.value == |ids|
    ensures r.Some? && response.data.Some? && response.data.value.size.Some? ==>
      (if oldCardsNum < 0 then r.value == response.data.value.size.value
       else r.value + response.data.value.size.value == oldCardsNum)
  {
    if response.code == 0 && response.data.Some? && response.data.value.size.Some? then
      var size := response.data.value.size.value;
      Some(if oldCardsNum < 0 then size else oldCardsNum - size)
    else if response.code == 0 then Some(|ids|)
    else None
  }

  /**
    The two riff counters read one answer alike, by its shape: a failing code
    gives null from both; a success without a size gives null from the add and
    the number of ids from the remove; a reported size gives the same count
    from both without an old count, and opposite differences with one.
   */
  lemma RiffCountsByShape<Id>(ids: seq<Id>, oldCardsNum: int, response: Response<RiffData>)
    ensures CheckResponse(response) != 0 ==>
      AddRiffCards(oldCardsNum, response).None? && RemoveRiffCards(ids, oldCardsNum, response).None?
    ensures CheckResponse(response) == 0 && (GetResponseData(response).None? || response.data.value.size.None?) ==>
      AddRiffCards(oldCardsNum, response).None? && RemoveRiffCards(ids, oldCardsNum, response) == Some(|ids|)
    ensures GetResponseData(response).Some? && response.data.value.size.Some? && oldCardsNum < 0 ==>
      AddRiffCards(oldCardsNum, response) == RemoveRiffCards(ids, oldCardsNum, response)
        == Some(response.data.value.size.value)
    ensures GetResponseData(response).Some? && response.data.value.size.Some? && oldCardsNum >= 0 ==>
      AddRiffCards(oldCardsNum, response).value + RemoveRiffCards(ids, oldCardsNum, response).value == 0
  {
  }

  // ------------------------------------------------------- fullTextSearchBlock

  /** The block-type filter sent when the caller gives none. */
  const DEFAULT_FILTER: map<string, bool> := map[
    "audioBlock" := false, "blockquote" := false, "codeBlock" := true, "databaseBlock" := false,
    "document" := true, "embedBlock" := false, "heading" := true, "htmlBlock" := true,
    "iframeBlock" := false, "list" := false, "listItem" := false, "mathBlock" := true,
    "paragraph" := true, "superBlock" := false, "table" := true, "videoBlock" := false,
    "widgetBlock" := false]

  datatype SearchBody = SearchBody(
    query: Value, searchMethod: int, page: int, paths: seq<string>, groupBy: int, orderBy: int,
    types: map<string, bool>, pageSize: int, reqId: int)

  function OrDefault<T>(o: Option<T>, d: T): T {
    if o.Some? then o.value else d
  }

  /**
    The request body of `fullTextSearchBlock`: defaults for the parameters left
    out, ordering 5 reset to 0 when results are not grouped, ten results per
    page, and the clock as request id.
   */
  function SearchRequest(query: Value, searchMethod: Option<int>, paths: Option<seq<string>>, groupBy: Option<int>,
                         orderBy: Option<int>, page: Option<int>, types: Option<map<string, bool>>, now: int)
    : (b: SearchBody)
    ensures b.pageSize == 10 && b.reqId == now && b.query == query
    ensures b.searchMethod == OrDefault(searchMethod, 0) && b.page == OrDefault(page, 1)
    ensures b.paths == OrDefault(paths, []) && b.types == OrDefault(types, DEFAULT_FILTER)
    ensures b.groupBy == OrDefault(groupBy, 1)
    ensures b.orderBy == if b.groupBy == 0 && OrDefault(orderBy, 0) == 5 then 0 else OrDefault(orderBy, 0)
  {
    var g := OrDefault(groupBy, 1);
    var o := OrDefault(orderBy, 0);
    var o' := if g == 0 && o == 5 then 0 else o;
    SearchBody(query, OrDefault(searchMethod, 0), OrDefault(page, 1), OrDefault(paths, []), g, o',
               OrDefault(types, DEFAULT_FILTER), 10, now)
  }

  /** The combination the kernel rejects never leaves the client, and a body sent again is sent unchanged. */
  lemma SearchRequestNormalised(query: Value, searchMethod: Option<int>, paths: Option<seq<string>>, groupBy: Option<int>,
                                orderBy: Option<int>, page: Option<int>, types: Option<map<string, bool>>, now: int)
    ensures var b := SearchRequest(query, searchMethod, paths, groupBy, orderBy, page, types, now);
      && !(b.groupBy == 0 && b.orderBy == 5)
      && SearchRequest(b.query, Some(b.searchMethod), Some(b.paths), Some(b.groupBy), Some(b.orderBy),
                       Some(b.page), Some(b.types), b.reqId) == b
  {
  }

  /** The answer of `fullTextSearchBlock`: the data on success, an error carrying the kernel's message otherwise. */
  function SearchResult<D>(response: Response<D>): (r: Result<Option<D>, string>)
    ensures r.Ok? <==> response.code == 0
    ensures r.Ok? ==> r.value == response.data
    ensures r.Throws? ==> r.error == "fullTextSearchBlock Failed: " + response.msg
  {
    if response.code == 0 then Ok(response.data) else Throws("fullTextSearchBlock Failed: " + response.msg)
  }
}

=== FILE: backends.dfy ===
/**
  The two embedded back ends side by side: the places where their session
  logic differs although the user-facing flow looks the same.
 */
module Backends {
  import opened Js
  import opened EditorSession
  import TuiEditor
  import FilerbotEditor

  /** A thrown save leaves the tui flag set but clears the Filerobot one. */
  lemma ThrownSaveFlag(s: Session, now: nat)
    requires s.unsavedModify
    ensures TuiEditor.SaveButton(s, Rejected, now).unsavedModify
    ensures !FilerbotEditor.OnSave(s, Rejected, now).0.unsavedModify
  {
  }

  /**
    In the tui dialog both buttons close the editor; in the Filerobot dialog
    the "return" button keeps it open and only "cancel" closes it.
   */
  lemma DialogButtonsDiffer(s: Session)
    requires s.unsavedModify && s.visible
    ensures !TuiEditor.DialogCancel(TuiEditor.MaskClick(s)).visible
    ensures FilerbotEditor.DialogReturn(FilerbotEditor.MaskMouseUp(s)).visible
    ensures !FilerbotEditor.DialogCancel(FilerbotEditor.MaskMouseUp(s)).visible
  {
  }

  /** Showing while a widget is held builds another tui widget but reuses the Filerobot one. */
  lemma WidgetReuseDiffers(s: Session, src: Option<string>)
    requires s.widgetPresent
    ensures TuiEditor.Show(s, src).widgetsBuilt == s.widgetsBuilt + 1
    ensures FilerbotEditor.Show(s, src).widgetsBuilt == s.widgetsBuilt
  {
  }

  /** Closing drops the tui widget but keeps the Filerobot one. */
  lemma CloseDiffers(s: Session)
    requires s.widgetPresent
    ensures !TuiEditor.CloseEditor(s).widgetPresent
    ensures FilerbotEditor.CloseEditor(s).widgetPresent
  {
  }
}

=== FILE: common.dfy ===
/**
  The general helpers of `src/utils/common.ts`: HTML escaping, shortcut-symbol
  rewriting, the random UUID, the fixed-width date-string split, plugin lookup
  and the (empty) API token.
 */
module Common {
  import opened Js
  import opened Text

  /** The API token: the plugin always sends an empty one. */
  function GetToken(): (token: string)
    ensures |token| == 0
  {
    ""
  }

  // ---------------------------------------------------------------- escapeHTML

  /** The escape of one character, as the replacement chain produces it. */
  function EscapeChar(c: char): string {
    if c == '&' then "&amp;"
    else if c == '<' then "&lt;"
    else if c == '>' then "&gt;"
    else if c == '"' then "&quot;"
    else if c == '\'' then "&#039;"
    else [c]
  }

  /** Reference definition: escape every character on its own. */
  function EscapeEach(s: string): string {
    if |s| == 0 then "" else EscapeChar(s[0]) + EscapeEach(s[1..])
  }

  /** The five global replacements of `escapeHTML`, in source order, `&` first. */
  function EscapeChain(s: string): string {
    ReplaceAll(ReplaceAll(ReplaceAll(ReplaceAll(ReplaceAll(
      s, "&", "&amp;"), "<", "&lt;"), ">", "&gt;"), "\"", "&quot;"), "'", "&#039;")
  }

  lemma {:induction false} ReplaceCharAbsent(s: string, c: char, r: string)
    requires c !in s
    ensures ReplaceAll(s, [c], r) == s
  {
    if |s| > 0 {
      assert s[..1] == [s[0]];
      ReplaceCharAbsent(s[1..], c, r);
      assert s == [s[0]] + s[1..];
    }
  }

  lemma EscapeChainAppend(a: string, b: string)
    ensures EscapeChain(a + b) == EscapeChain(a) + EscapeChain(b)
  {
    var a1, b1 := ReplaceAll(a, "&", "&amp;"), ReplaceAll(b, "&", "&amp;");
    ReplaceCharAppend(a, b, '&', "&amp;");
    var a2, b2 := ReplaceAll(a1, "<", "&lt;"), ReplaceAll(b1, "<", "&lt;");
    ReplaceCharAppend(a1, b1, '<', "&lt;");
    var a3, b3 := ReplaceAll(a2, ">", "&gt;"), ReplaceAll(b2, ">", "&gt;");
    ReplaceCharAppend(a2, b2, '>', "&gt;");
    var a4, b4 := ReplaceAll(a3, "\"", "&quot;"), ReplaceAll(b3, "\"", "&quot;");
    ReplaceCharAppend(a3, b3, '"', "&quot;");
    ReplaceCharAppend(a4, b4, '\'', "&#039;");
  }

  /** One replacement stage on a one-character string, or on a string lacking the pattern. */
  lemma ReplaceCharKnown(s: string, d: char, r: string)
    ensures |s| == 1 ==> ReplaceAll(s, [d], r) == (if s[0] == d then r else s)
    ensures d !in s ==> ReplaceAll(s, [d], r) == s
  {
    if |s| == 1 {
      assert s[..1] == s;
      assert s[1..] == "";
    }
    if d !in s {
      ReplaceCharAbsent(s, d, r);
    }
  }

  lemma EscapeChainChar(c: char)
    ensures EscapeChain([c]) == EscapeChar(c)
  {
    if c == '&' {
      EscapeChainAmp();
    } else if c == '<' {
      EscapeChainLt();
    } else if c == '>' {
      EscapeChainGt();
    } else if c == '"' {
      EscapeChainQuot();
    } else if c == '\'' {
      EscapeChainApos();
    } else {
      ReplaceCharKnown([c], '&', "&amp;");
      ReplaceCharKnown([c], '<', "&lt;");
      ReplaceCharKnown([c], '>', "&gt;");
      ReplaceCharKnown([c], '"', "&quot;");
      ReplaceCharKnown([c], '\'', "&#039;");
    }
  }

  /** A special character is turned into its entity by its own stage; the later stages find nothing in it. */
  lemma EscapeChainAmp()
    ensures EscapeChain("&") == "&amp;"
  {
    ReplaceCharKnown("&", '&', "&amp;");
    ReplaceCharAbsent("&amp;", '<', "&lt;");
    ReplaceCharAbsent("&amp;", '>', "&gt;");
    ReplaceCharAbsent("&amp;", '"', "&quot;");
    ReplaceCharAbsent("&amp;", '\'', "&#039;");
  }

  lemma EscapeChainLt()
    ensures EscapeChain("<") == "&lt;"
  {
    ReplaceCharAbsent("<", '&', "&amp;");
    ReplaceCharKnown("<", '<', "&lt;");
    ReplaceCharAbsent("&lt;", '>', "&gt;");
    ReplaceCharAbsent("&lt;", '"', "&quot;");
    ReplaceCharAbsent("&lt;", '\'', "&#039;");
  }

  lemma EscapeChainGt()
    ensures EscapeChain(">") == "&gt;"
  {
    ReplaceCharAbsent(">", '&', "&amp;");
    ReplaceCharAbsent(">", '<', "&lt;");
    ReplaceCharKnown(">", '>', "&gt;");
    ReplaceCharAbsent("&gt;", '"', "&quot;");
    ReplaceCharAbsent("&gt;", '\'', "&#039;");
  }

  lemma EscapeChainQuot()
    ensures EscapeChain("\"") == "&quot;"
  {
    ReplaceCharAbsent("\"", '&', "&amp;");
    ReplaceCharAbsent("\"", '<', "&lt;");
    ReplaceCharAbsent("\"", '>', "&gt;");
    ReplaceCharKnown("\"", '"', "&quot;");
    ReplaceCharAbsent("&quot;", '\'', "&#039;");
  }

  lemma EscapeChainApos()
    ensures EscapeChain("'") == "&#039;"
  {
    ReplaceCharAbsent("'", '&', "&amp;");
    ReplaceCharAbsent("'", '<', "&lt;");
    ReplaceCharAbsent("'", '>', "&gt;");
    ReplaceCharAbsent("'", '"', "&quot;");
    ReplaceCharKnown("'", '\'', "&#039;");
  }

  /**
    `escapeHTML(str)`: the replacement chain agrees with escaping each character
    independently, because `&` is replaced before the entities that contain it
    are introduced.
   */
  function EscapeHtml(s: string): (r: string)
    ensures r == EscapeEach(s)
  {
    EscapeChainIsPerChar(s);
    EscapeChain(s)
  }

  lemma {:induction false} EscapeChainIsPerChar(s: string)
    ensures EscapeChain(s) == EscapeEach(s)
  {
    if |s| > 0 {
      assert s == [s[0]] + s[1..];
      EscapeChainAppend([s[0]], s[1..]);
      EscapeChainChar(s[0]);
      EscapeChainIsPerChar(s[1..]);
    }
  }

  /** The five entities `escapeHTML` introduces. */
  predicate IsEscapeEntity(e: string) {
    e == "&amp;" || e == "&lt;" || e == "&gt;" || e == "&quot;" || e == "&#039;"
  }

  predicate IsHtmlSpecial(c: char) {
    c == '<' || c == '>' || c == '"' || c == '\''
  }

  /** Escaped text holds no markup character and every `&` in it opens an entity. */
  predicate WellEscaped(r: string) {
    && (forall i :: 0 <= i < |r| ==> !IsHtmlSpecial(r[i]))
    && (forall i :: 0 <= i < |r| && r[i] == '&' ==>
          MatchAt(r, "&amp;", i) || MatchAt(r, "&lt;", i) || MatchAt(r, "&gt;", i)
          || MatchAt(r, "&quot;", i) || MatchAt(r, "&#039;", i))
  }

  lemma MatchAtShift(x: string, u: string, p: string, i: nat)
    requires MatchAt(u, p, i)
    ensures MatchAt(x + u, p, |x| + i)
  {
    assert (x + u)[|x| + i..|x| + i + |p|] == u[i..i + |p|];
  }

  lemma MatchAtFront(x: string, u: string)
    requires IsEscapeEntity(x)
    ensures MatchAt(x + u, x, 0)
  {
    assert (x + u)[..|x|] == x;
  }

  /** The output of `escapeHTML` contains none of `< > " '`, and each `&` begins one of the five entities. */
  lemma {:induction false} EscapeHtmlWellEscaped(s: string)
    ensures WellEscaped(EscapeHtml(s))
  {
    EscapeEachWellEscaped(s);
  }

  lemma {:induction false} EscapeEachWellEscaped(s: string)
    ensures WellEscaped(EscapeEach(s))
  {
    if |s| > 0 {
      EscapeEachWellEscaped(s[1..]);
      var x, u := EscapeChar(s[0]), EscapeEach(s[1..]);
      assert (|x| == 1 && x[0] != '&' && !IsHtmlSpecial(x[0])) || IsEscapeEntity(x);
      NoMarkupAppend(x, u);
      EntitiesAppend(x, u);
    }
  }

  /** A piece of escaped text followed by escaped text has no markup character. */
  lemma NoMarkupAppend(x: string, u: string)
    requires (|x| == 1 && x[0] != '&' && !IsHtmlSpecial(x[0])) || IsEscapeEntity(x)
    requires WellEscaped(u)
    ensures forall i :: 0 <= i < |x + u| ==> !IsHtmlSpecial((x + u)[i])
  {
    var r := x + u;
    forall i | 0 <= i < |r|
      ensures !IsHtmlSpecial(r[i])
    {
      if i >= |x| { assert r[i] == u[i - |x|]; }
    }
  }

  /** A piece of escaped text followed by escaped text opens an entity at every `&`. */
  lemma EntitiesAppend(x: string, u: string)
    requires (|x| == 1 && x[0] != '&' && !IsHtmlSpecial(x[0])) || IsEscapeEntity(x)
    requires WellEscaped(u)
    ensures WellEscaped(x + u)
  {
    NoMarkupAppend(x, u);
    var r := x + u;
    forall i | 0 <= i < |r| && r[i] == '&'
      ensures MatchAt(r, "&amp;", i) || MatchAt(r, "&lt;", i) || MatchAt(r, "&gt;", i)
        || MatchAt(r, "&quot;", i) || MatchAt(r, "&#039;", i)
    {
      if i < |x| {
        assert i == 0 && IsEscapeEntity(x);
        MatchAtFront(x, u);
      } else {
        var j := i - |x|;
        assert u[j] == '&';
        if MatchAt(u, "&amp;", j) { MatchAtShift(x, u, "&amp;", j); }
        else if MatchAt(u, "&lt;", j) { MatchAtShift(x, u, "&lt;", j); }
        else if MatchAt(u, "&gt;", j) { MatchAtShift(x, u, "&gt;", j); }
        else if MatchAt(u, "&quot;", j) { MatchAtShift(x, u, "&quot;", j); }
        else { MatchAtShift(x, u, "&#039;", j); }
      }
    }
  }

  /** `escapeHTML` leaves text without `& < > " '` untouched. */
  lemma {:induction false} EscapeHtmlIdentity(s: string)
    requires forall i :: 0 <= i < |s| ==> s[i] != '&' && !IsHtmlSpecial(s[i])
    ensures EscapeHtml(s) == s
  {
    EscapeEachIdentity(s);
  }

  lemma {:induction false} EscapeEachIdentity(s: string)
    requires forall i :: 0 <= i < |s| ==> s[i] != '&' && !IsHtmlSpecial(s[i])
    ensures EscapeEach(s) == s
  {
    if |s| > 0 {
      EscapeEachIdentity(s[1..]);
      assert s == [s[0]] + s[1..];
    }
  }

  // ---------------------------------------------------- replaceShortcutString

  const OPTION: char := '\U{2325}'
  const COMMAND: char := '\U{2318}'
  const SHIFT: char := '\U{21E7}'
  const CAPS_LOCK: char := '\U{21EA}'
  const CONTROL: char := '\U{2303}'

  /** The text one symbol becomes off macOS. */
  function ShortcutChar(c: char): string {
    if c == OPTION then "Alt "
    else if c == COMMAND then "Ctrl "
    else if c == SHIFT then "Shift "
    else if c == CAPS_LOCK then "CapsLock "
    else if c == CONTROL then "Ctrl "
    else [c]
  }

  /** Reference definition: rewrite every symbol on its own. */
  function ShortcutEach(s: string): string {
    if |s| == 0 then "" else ShortcutChar(s[0]) + ShortcutEach(s[1..])
  }

  function ShortcutChain(s: string): string {
    ReplaceAll(ReplaceAll(ReplaceAll(ReplaceAll(ReplaceAll(
      s, [OPTION], "Alt "), [COMMAND], "Ctrl "), [SHIFT], "Shift "), [CAPS_LOCK], "CapsLock "), [CONTROL], "Ctrl ")
  }

  lemma ShortcutChainAppend(a: string, b: string)
    ensures ShortcutChain(a + b) == ShortcutChain(a) + ShortcutChain(b)
  {
    var a1, b1 := ReplaceAll(a, [OPTION], "Alt "), ReplaceAll(b, [OPTION], "Alt ");
    ReplaceCharAppend(a, b, OPTION, "Alt ");
    var a2, b2 := ReplaceAll(a1, [COMMAND], "Ctrl "), ReplaceAll(b1, [COMMAND], "Ctrl ");
    ReplaceCharAppend(a1, b1, COMMAND, "Ctrl ");
    var a3, b3 := ReplaceAll(a2, [SHIFT], "Shift "), ReplaceAll(b2, [SHIFT], "Shift ");
    ReplaceCharAppend(a2, b2, SHIFT, "Shift ");
    var a4, b4 := ReplaceAll(a3, [CAPS_LOCK], "CapsLock "), ReplaceAll(b3, [CAPS_LOCK], "CapsLock ");
    ReplaceCharAppend(a3, b3, CAPS_LOCK, "CapsLock ");
    ReplaceCharAppend(a4, b4, CONTROL, "Ctrl ");
  }

  lemma ShortcutChainChar(c: char)
    ensures ShortcutChain([c]) == ShortcutChar(c)
  {
    if c == OPTION {
      ShortcutChainOption();
    } else if c == COMMAND {
      ShortcutChainCommand();
    } else if c == SHIFT {
      ShortcutChainShift();
    } else if c == CAPS_LOCK {
      ShortcutChainCapsLock();
    } else if c == CONTROL {
      ShortcutChainControl();
    } else {
      ReplaceCharKnown([c], OPTION, "Alt ");
      ReplaceCharKnown([c], COMMAND, "Ctrl ");
      ReplaceCharKnown([c], SHIFT, "Shift ");
      ReplaceCharKnown([c], CAPS_LOCK, "CapsLock ");
      ReplaceCharKnown([c], CONTROL, "Ctrl ");
    }
  }

  /** A symbol is rewritten by its own stage; the later stages find no symbol in the text it became. */
  lemma ShortcutChainOption()
    ensures ShortcutChain([OPTION]) == "Alt "
  {
    ReplaceCharKnown([OPTION], OPTION, "Alt ");
    ReplaceCharAbsent("Alt ", COMMAND, "Ctrl ");
    ReplaceCharAbsent("Alt ", SHIFT, "Shift ");
    ReplaceCharAbsent("Alt ", CAPS_LOCK, "CapsLock ");
    ReplaceCharAbsent("Alt ", CONTROL, "Ctrl ");
  }

  lemma ShortcutChainCommand()
    ensures ShortcutChain([COMMAND]) == "Ctrl "
  {
    ReplaceCharAbsent([COMMAND], OPTION, "Alt ");
    ReplaceCharKnown([COMMAND], COMMAND, "Ctrl ");
    ReplaceCharAbsent("Ctrl ", SHIFT, "Shift ");
    ReplaceCharAbsent("Ctrl ", CAPS_LOCK, "CapsLock ");
    ReplaceCharAbsent("Ctrl ", CONTROL, "Ctrl ");
  }

  lemma ShortcutChainShift()
    ensures ShortcutChain([SHIFT]) == "Shift "
  {
    ReplaceCharAbsent([SHIFT], OPTION, "Alt ");
    ReplaceCharAbsent([SHIFT], COMMAND, "Ctrl ");
    ReplaceCharKnown([SHIFT], SHIFT, "Shift ");
    ReplaceCharAbsent("Shift ", CAPS_LOCK, "CapsLock ");
    ReplaceCharAbsent("Shift ", CONTROL, "Ctrl ");
  }

  lemma ShortcutChainCapsLock()
    ensures ShortcutChain([CAPS_LOCK]) == "CapsLock "
  {
    ReplaceCharAbsent([CAPS_LOCK], OPTION, "Alt ");
    ReplaceCharAbsent([CAPS_LOCK], COMMAND, "Ctrl ");
    ReplaceCharAbsent([CAPS_LOCK], SHIFT, "Shift ");
    ReplaceCharKnown([CAPS_LOCK], CAPS_LOCK, "CapsLock ");
    ReplaceCharAbsent("CapsLock ", CONTROL, "Ctrl ");
  }

  lemma ShortcutChainControl()
    ensures ShortcutChain([CONTROL]) == "Ctrl "
  {
    ReplaceCharAbsent([CONTROL], OPTION, "Alt ");
    ReplaceCharAbsent([CONTROL], COMMAND, "Ctrl ");
    ReplaceCharAbsent([CONTROL], SHIFT, "Shift ");
    ReplaceCharAbsent([CONTROL], CAPS_LOCK, "CapsLock ");
    ReplaceCharKnown([CONTROL], CONTROL, "Ctrl ");
  }

  lemma {:induction false} ShortcutChainIsPerChar(s: string)
    ensures ShortcutChain(s) == ShortcutEach(s)
  {
    if |s| > 0 {
      assert s == [s[0]] + s[1..];
      ShortcutChainAppend([s[0]], s[1..]);
      ShortcutChainChar(s[0]);
      ShortcutChainIsPerChar(s[1..]);
    }
  }

  /**
    `replaceShortcutString(shortcut)` on host backend `backend`: unchanged on
    macOS (`darwin`), otherwise every modifier symbol is spelled out.
   */
  function ReplaceShortcutString(shortcut: string, backend: string): (r: string)
    ensures backend == "darwin" ==> r == shortcut
    ensures backend != "darwin" ==> r == ShortcutEach(shortcut)
  {
    if backend != "darwin" then
      ShortcutChainIsPerChar(shortcut);
      ShortcutChain(shortcut)
    else shortcut
  }

  predicate IsModifierSymbol(c: char) {
    c == OPTION || c == COMMAND || c == SHIFT || c == CAPS_LOCK || c == CONTROL
  }

  /** Off macOS the rewritten shortcut holds no modifier symbol. */
  lemma {:induction false} ShortcutEachRemovesSymbols(s: string)
    ensures forall i :: 0 <= i < |ShortcutEach(s)| ==> !IsModifierSymbol(ShortcutEach(s)[i])
  {
    if |s| > 0 {
      ShortcutEachRemovesSymbols(s[1..]);
      var x, u := ShortcutChar(s[0]), ShortcutEach(s[1..]);
      forall i | 0 <= i < |x + u|
        ensures !IsModifierSymbol((x + u)[i])
      {
        if i >= |x| { assert (x + u)[i] == u[i - |x|]; }
      }
    }
  }

  // ------------------------------------------------------------- generateUUID

  predicate IsLowerHex(c: char) {
    '0' <= c <= '9' || 'a' <= c <= 'f'
  }

  /** `d.toString(16)` for `0 <= d < 16`. */
  function HexDigit(d: nat): (c: char)
    requires d < 16
    ensures IsLowerHex(c)
  {
    if d < 10 then DigitChar(d) else ('a' as int + d - 10) as char
  }

  /** Positions of the UUID that hold a fixed character rather than a random digit. */
  predicate FixedPosition(i: int) {
    i == 8 || i == 13 || i == 14 || i == 18 || i == 23
  }

  /** Number of random draws made before position `i`. */
  function DrawIndex(i: nat): nat
    requires i <= 36
  {
    i - (if i > 8 then 1 else 0) - (if i > 13 then 1 else 0) - (if i > 14 then 1 else 0)
      - (if i > 18 then 1 else 0) - (if i > 23 then 1 else 0)
  }

  /** `(random & 0x3) | 0x8`: the variant digit of position 19. */
  function VariantNibble(random: nat): (v: nat)
    requires random < 16
    ensures 8 <= v < 12
  {
    ((random as bv8 & 3) | 8) as nat
  }

  /** The version-4 UUID layout. */
  predicate UuidShape(u: string) {
    && |u| == 36
    && u[8] == '-' && u[13] == '-' && u[18] == '-' && u[23] == '-'
    && u[14] == '4'
    && (u[19] == '8' || u[19] == '9' || u[19] == 'a' || u[19] == 'b')
    && forall i :: 0 <= i < 36 && !FixedPosition(i) ==> IsLowerHex(u[i])
  }

  /**
    `generateUUID()`, with `Math.random() * 16 | 0` supplied by the oracle `draws`
    (31 values in `[0, 16)`, consumed in order).
   */
  method GenerateUuid(draws: seq<nat>) returns (uuid: string)
    requires |draws| == 31
    requires forall k :: 0 <= k < |draws| ==> draws[k] < 16
    ensures UuidShape(uuid)
    ensures forall i :: 0 <= i < 36 && !FixedPosition(i) && i != 19 ==>
      uuid[i] == HexDigit(draws[DrawIndex(i)])
    ensures uuid[19] == HexDigit(VariantNibble(draws[DrawIndex(19)]))
  {
    uuid := "";
    var i := 0;
    var next := 0;
    while i < 36
      invariant 0 <= i <= 36 && |uuid| == i
      invariant next == DrawIndex(i)
      invariant forall j :: 0 <= j < i && (j == 8 || j == 13 || j == 18 || j == 23) ==> uuid[j] == '-'
      invariant forall j :: 0 <= j < i && j == 14 ==> uuid[j] == '4'
      invariant forall j :: 0 <= j < i && !FixedPosition(j) && j != 19 ==> uuid[j] == HexDigit(draws[DrawIndex(j)])
      invariant 19 < i ==> uuid[19] == HexDigit(VariantNibble(draws[DrawIndex(19)]))
    {
      if i == 8 || i == 13 || i == 18 || i == 23 {
        uuid := uuid + "-";
      } else if i == 14 {
        uuid := uuid + "4";
      } else {
        var random := draws[next];
        if i == 19 {
          random := VariantNibble(random);
        }
        uuid := uuid + [HexDigit(random)];
        next := next + 1;
      }
      i := i + 1;
    }
    assert uuid[19] == HexDigit(VariantNibble(draws[DrawIndex(19)]));
    assert IsLowerHex(uuid[19]);
  }

  // ---------------------------------------------------------- parseDateString

  /** Length of the longest all-digit prefix. */
  function DigitRun(s: string): (n: nat)
    ensures n <= |s| && AllDigits(s[..n])
    ensures n < |s| ==> !IsDigit(s[n])
  {
    if |s| == 0 || !IsDigit(s[0]) then 0
    else
      var n := 1 + DigitRun(s[1..]);
      assert s[..n] == [s[0]] + s[1..][..n - 1];
      n
  }

  /**
    `parseInt(s, 10)`: leading white space is skipped, an optional sign is read,
    then the longest run of decimal digits; with no digit the result is `NaN`
    (here `None`).
   */
  function ParseInt10(s: string): Option<int> {
    if |s| > 0 && IsJsWhitespace(s[0]) then ParseInt10(s[1..])
    else
      var neg := |s| > 0 && s[0] == '-';
      var body := if |s| > 0 && (s[0] == '-' || s[0] == '+') then s[1..] else s;
      var n := DigitRun(body);
      if n == 0 then None
      else
        var v: int := DecimalValue(body[..n]);
        Some(if neg then -v else v)
  }

  /** The six numbers `parseDateString` hands to `new Date`; the month is zero-based. */
  datatype DateParts = DateParts(year: int, month: int, day: int, hours: int, minutes: int, seconds: int)

  /**
    `parseDateString(s)` up to the `Date` construction: `null` unless `s` has 14
    characters, fields from the fixed slices, month decremented; a field that is
    not a number makes the date invalid and the result `null`.
   */
  function ParseDateString(s: string): (r: Option<DateParts>)
    ensures |s| != 14 ==> r.None?
  {
    if |s| != 14 then None
    else DateOf(ParseInt10(s[0..4]), ParseInt10(s[4..6]), ParseInt10(s[6..8]),
                ParseInt10(s[8..10]), ParseInt10(s[10..12]), ParseInt10(s[12..14]))
  }

  /** The date of six parsed fields; any `NaN` field makes it invalid. */
  function DateOf(y: Option<int>, mo: Option<int>, d: Option<int>,
                  h: Option<int>, mi: Option<int>, se: Option<int>): Option<DateParts> {
    if y.Some? && mo.Some? && d.Some? && h.Some? && mi.Some? && se.Some? then
      Some(DateParts(y.value, mo.value - 1, d.value, h.value, mi.value, se.value))
    else None
  }

  lemma ParseInt10Digits(s: string)
    requires |s| > 0 && AllDigits(s)
    ensures ParseInt10(s) == Some(DecimalValue(s))
  {
    assert !IsJsWhitespace(s[0]);
    assert s[..DigitRun(s)] == s;
  }

  /** A 14-digit stamp `YYYYMMDDHHmmss` splits into its fields, the month made zero-based. */
  lemma ParseDateStringDigits(s: string)
    requires |s| == 14 && AllDigits(s)
    ensures ParseDateString(s) == Some(DateParts(
      DecimalValue(s[0..4]), DecimalValue(s[4..6]) - 1, DecimalValue(s[6..8]),
      DecimalValue(s[8..10]), DecimalValue(s[10..12]), DecimalValue(s[12..14])))
  {
    DigitField(s, 0, 4);
    DigitField(s, 4, 6);
    DigitField(s, 6, 8);
    DigitField(s, 8, 10);
    DigitField(s, 10, 12);
    DigitField(s, 12, 14);
    DateOfFields(DecimalValue(s[0..4]), DecimalValue(s[4..6]), DecimalValue(s[6..8]),
      DecimalValue(s[8..10]), DecimalValue(s[10..12]), DecimalValue(s[12..14]));
  }

  lemma DateOfFields(y: int, mo: int, d: int, h: int, mi: int, se: int)
    ensures DateOf(Some(y), Some(mo), Some(d), Some(h), Some(mi), Some(se)) == Some(DateParts(y, mo - 1, d, h, mi, se))
  {
  }

  /** A non-empty slice of a digit string parses as its decimal value. */
  lemma DigitField(s: string, i: nat, j: nat)
    requires i < j <= |s| && AllDigits(s)
    ensures AllDigits(s[i..j]) && ParseInt10(s[i..j]) == Some(DecimalValue(s[i..j]))
  {
    assert forall k :: 0 <= k < j - i ==> s[i..j][k] == s[i + k];
    ParseInt10Digits(s[i..j]);
  }

  // ---------------------------------------------------------- isAnyPluginExist

  /**
    `isAnyPluginExist(names)` against the loaded plugin names (`None` when the
    host has no plugin list): true exactly when some name is loaded.
   */
  function IsAnyPluginExist(names: seq<string>, loaded: Option<seq<string>>): (r: bool)
    ensures r <==> loaded.Some? && exists i, j :: 0 <= i < |names| && 0 <= j < |loaded.value| && names[i] == loaded.value[j]
  {
    if |names| == 0 then false
    else if loaded.Some? && names[0] in loaded.value then true
    else
      var rest := IsAnyPluginExist(names[1..], loaded);
      assert rest ==> exists i, j :: 0 <= i < |names| && 0 <= j < |loaded.value| && names[i] == loaded.value[j] by {
        if rest {
          var i, j :| 0 <= i < |names[1..]| && 0 <= j < |loaded.value| && names[1..][i] == loaded.value[j];
          assert names[i + 1] == loaded.value[j];
        }
      }
      rest
  }
}

=== FILE: common_check.dfy ===
/**
  `src/utils/commonCheck.ts`: string validity checks and the cached macOS test
  that decides which modifier key counts as "Ctrl".
 */
module CommonCheck {
  import opened Js
  import opened Text

  /**
    `isValidStr(s)`: false exactly for `undefined`, `null` and the empty string;
    every other value, strings or not, counts as valid.
   */
  function IsValidStr(v: Value): (r: bool)
    ensures r <==> !(v.Undefined? || v.Null? || v == Str(""))
  {
    !(IsNullish(v) || v == Str(""))
  }

  /** On strings, validity is truthiness; on other values the two part ways. */
  lemma ValidStrIsTruthyOnStrings(v: Value)
    ensures v.Str? ==> (IsValidStr(v) <==> Truthy(v))
    ensures IsValidStr(Bool(false)) && !Truthy(Bool(false))
    ensures IsValidStr(Num(0)) && !Truthy(Num(0))
  {
  }

  /** `s.replace(/\s+/g, '')`: the string with every white-space character removed. */
  function StripWhitespace(s: string): (t: string)
    ensures |t| <= |s|
    ensures forall i :: 0 <= i < |t| ==> !IsJsWhitespace(t[i])
  {
    if |s| == 0 then ""
    else if IsJsWhitespace(s[0]) then StripWhitespace(s[1..])
    else [s[0]] + StripWhitespace(s[1..])
  }

  predicate AllWhitespace(s: string) {
    forall i :: 0 <= i < |s| ==> IsJsWhitespace(s[i])
  }

  /** Stripping leaves nothing exactly when every character is white space. */
  lemma {:induction false} StripEmptyIff(s: string)
    ensures StripWhitespace(s) == "" <==> AllWhitespace(s)
  {
    if |s| > 0 {
      StripEmptyIff(s[1..]);
      if AllWhitespace(s[1..]) && IsJsWhitespace(s[0]) {
        forall i | 0 <= i < |s|
          ensures IsJsWhitespace(s[i])
        {
          if i > 0 { assert s[i] == s[1..][i - 1]; }
        }
      }
      if AllWhitespace(s) {
        forall i | 0 <= i < |s| - 1
          ensures IsJsWhitespace(s[1..][i])
        {
          assert s[1..][i] == s[i + 1];
        }
      }
    }
  }

  /**
    The TypeErrors the model raises: a string method called on a value that is
    not a string, and an object that cannot be converted to a primitive.
   */
  datatype TypeError = ReplaceIsNotAFunction | SplitIsNotAFunction | CannotConvertToPrimitive

  /**
    `isBlankStr(s)`: invalid values are blank; a string is blank when it is all
    white space; any other valid value (a number, a boolean) has no `replace`
    method, so the call throws.
   */
  function IsBlankStr(v: Value): (r: Result<bool, TypeError>)
    ensures !IsValidStr(v) ==> r == Ok(true)
    ensures v.Str? ==> r == Ok(AllWhitespace(v.s))
    ensures r.Throws? <==> IsValidStr(v) && !v.Str?
  {
    if !IsValidStr(v) then Ok(true)
    else if v.Str? then
      StripEmptyIff(v.s);
      Ok(StripWhitespace(v.s) == "")
    else Throws(ReplaceIsNotAFunction)
  }

  // ------------------------------------------------------------------ isMacOs

  /** The platform names whose presence marks an Apple system. */
  const MAC_NAMES: seq<string> := ["DARWIN", "MAC", "IPAD", "IPHONE", "IOS"]

  function UpperChar(c: char): char {
    if 'a' <= c <= 'z' then (c as int - 32) as char else c
  }

  /** `toUpperCase`, on the ASCII letters. */
  function ToUpper(s: string): (u: string)
    ensures |u| == |s|
    ensures forall i :: 0 <= i < |s| ==> u[i] == UpperChar(s[i])
  {
    if |s| == 0 then "" else [UpperChar(s[0])] + ToUpper(s[1..])
  }

  /** `os ?? navigator.platform ?? "ERROR"`. */
  function PlatformOf(os: Option<string>, navigatorPlatform: Option<string>): (p: string)
    ensures os.Some? ==> p == os.value
    ensures os.None? && navigatorPlatform.None? ==> p == "ERROR"
  {
    match os
    case Some(o) => o
    case None => if navigatorPlatform.Some? then navigatorPlatform.value else "ERROR"
  }

  /** Some Apple platform name occurs in the upper-cased platform string. */
  predicate MacPlatform(upper: string) {
    exists k :: 0 <= k < |MAC_NAMES| && Contains(upper, MAC_NAMES[k])
  }

  /**
    The `for … of` loop with `break` over the platform names: it reports
    whether any of them occurs in `upper`.
   */
  method ScanPlatformNames(upper: string) returns (found: bool)
    ensures found <==> MacPlatform(upper)
  {
    found := false;
    var k := 0;
    while k < |MAC_NAMES|
      invariant 0 <= k <= |MAC_NAMES|
      invariant !found
      invariant forall j :: 0 <= j < k ==> !Contains(upper, MAC_NAMES[j])
    {
      if Contains(upper, MAC_NAMES[k]) {
        found := true;
        return;
      }
      k := k + 1;
    }
  }

  /**
    One call of `isMacOs()`. The module-level cache holds `true` once a call has
    recognised an Apple platform and stays `undefined` (here `false`) otherwise,
    so a negative answer is recomputed on every call. Returns the answer and the
    new cache.
   */
  function IsMacOs(cached: bool, os: Option<string>, navigatorPlatform: Option<string>): (r: (bool, bool))
    ensures cached ==> r == (true, true)
    ensures !cached ==> (r.0 <==> MacPlatform(ToUpper(PlatformOf(os, navigatorPlatform))))
    ensures r.1 == (cached || r.0)
  {
    if cached then (true, true)
    else
      var mac := MacPlatform(ToUpper(PlatformOf(os, navigatorPlatform)));
      (mac, mac)
  }

  /** Calling `isMacOs` again on the same system, with the cache it left, gives the same answer. */
  lemma IsMacOsStable(cached: bool, os: Option<string>, navigatorPlatform: Option<string>)
    ensures var (a, c) := IsMacOs(cached, os, navigatorPlatform);
      IsMacOs(c, os, navigatorPlatform) == (a, c)
  {
  }

  /** The cache is never reset: once it says macOS, every later call says macOS whatever the platform. */
  lemma IsMacOsCacheSticky(os: Option<string>, navigatorPlatform: Option<string>, os2: Option<string>, nav2: Option<string>)
    requires IsMacOs(false, os, navigatorPlatform).0
    ensures IsMacOs(IsMacOs(false, os, navigatorPlatform).1, os2, nav2).0
  {
  }

  /** The platform string Electron reports on a Mac is recognised, whatever its case. */
  lemma DarwinIsMac()
    ensures IsMacOs(false, Some("darwin"), None).0
  {
    assert ToUpper("darwin") == "DARWIN";
    assert MatchAt("DARWIN", MAC_NAMES[0], 0);
  }

  /** None of the names occurs in `WINDOWS`: no pair of adjacent characters in it begins one. */
  lemma WindowsIsNotMac()
    ensures !IsMacOs(false, Some("windows"), None).0
  {
    var w := ToUpper("windows");
    assert w == "WINDOWS";
    forall k | 0 <= k < |MAC_NAMES|
      ensures !Contains(w, MAC_NAMES[k])
    {
      NotContainsByPrefix(w, MAC_NAMES[k]);
    }
  }

  /** `p` occurs nowhere in `s` when no index of `s` carries the first two characters of `p`. */
  lemma NotContainsByPrefix(s: string, p: string)
    requires |p| >= 2
    requires forall i :: 0 <= i < |s| - 1 ==> !(s[i] == p[0] && s[i + 1] == p[1])
    ensures !Contains(s, p)
  {
    forall i: nat | i <= |s|
      ensures !MatchAt(s, p, i)
    {
      if i + |p| <= |s| {
        assert s[i..i + |p|][0] == s[i];
        assert s[i..i + |p|][1] == s[i + 1];
      }
    }
  }

  /**
    `isEventCtrlKey(event)`: on Apple systems the Command key (`metaKey`) plays
    the role of Ctrl. Returns the answer and the new `isMacOs` cache.
   */
  function IsEventCtrlKey(metaKey: bool, ctrlKey: bool, cached: bool, os: Option<string>, navigatorPlatform: Option<string>): (r: (bool, bool))
    ensures r.1 == IsMacOs(cached, os, navigatorPlatform).1
    ensures r.0 == if IsMacOs(cached, os, navigatorPlatform).0 then metaKey else ctrlKey
  {
    var (mac, c) := IsMacOs(cached, os, navigatorPlatform);
    (if mac then metaKey else ctrlKey, c)
  }

  /**
    What the control key of an event is, platform by platform: `metaKey` on a
    Mac, `ctrlKey` on Windows, and `metaKey` wherever the cache already says
    macOS; the cache is left as `isMacOs` leaves it.
   */
  lemma CtrlKeyByPlatform(metaKey: bool, ctrlKey: bool, os: Option<string>, navigatorPlatform: Option<string>)
    ensures IsEventCtrlKey(metaKey, ctrlKey, false, Some("darwin"), None) == (metaKey, true)
    ensures IsEventCtrlKey(metaKey, ctrlKey, false, Some("windows"), None) == (ctrlKey, false)
    ensures IsEventCtrlKey(metaKey, ctrlKey, true, os, navigatorPlatform) == (metaKey, true)
  {
    DarwinIsMac();
    WindowsIsNotMac();
  }
}

=== FILE: custom.dfy ===
/**
  The pure helpers of `src/syapi/custom.ts`: inline-attribute (IAL) strings,
  the block-id format, the id flattening inside `getSubDocIds`, the two-digit
  time fields, and the quick-deck short cut of `isValidDeck`.
 */
module SyCustom {
  import opened Js
  import opened Text
  import CommonCheck
  import SyApi

  // ------------------------------------------------------- transfromAttrToIAL

  /** ` key="value"` for one attribute. */
  function AttrText(key: string, value: string): string {
    " " + key + "=\"" + value + "\""
  }

  /** The attribute texts of `attrs`, in the object's key order. */
  function AttrsText(attrs: seq<(string, string)>): string {
    if |attrs| == 0 then "" else AttrText(attrs[0].0, attrs[0].1) + AttrsText(attrs[1..])
  }

  /**
    `transfromAttrToIAL(attrData)`: `{:` and the attribute texts and `}`, or
    `null` when that comes out as `{:}`, which happens exactly for an object
    without keys.
   */
  function TransfromAttrToIal(attrs: seq<(string, string)>): (r: Option<string>)
    ensures r.None? <==> |attrs| == 0
    ensures r.Some? ==> r.value == "{:" + AttrsText(attrs) + "}"
  {
    var result := "{:" + AttrsText(attrs) + "}";
    AttrsTextLength(attrs);
    if result == "{:}" then None else Some(result)
  }

  /** Each attribute contributes at least ` =""`, four characters. */
  lemma {:induction false} AttrsTextLength(attrs: seq<(string, string)>)
    ensures |AttrsText(attrs)| >= 4 * |attrs|
  {
    if |attrs| > 0 {
      AttrsTextLength(attrs[1..]);
      assert |AttrText(attrs[0].0, attrs[0].1)| == |attrs[0].0| + |attrs[0].1| + 4;
    }
  }

  /** The attribute texts of two attribute lists, one after the other, concatenate. */
  lemma {:induction false} AttrsTextAppend(a: seq<(string, string)>, b: seq<(string, string)>)
    ensures AttrsText(a + b) == AttrsText(a) + AttrsText(b)
  {
    if |a| == 0 {
      assert a + b == b;
    } else {
      assert (a + b)[1..] == a[1..] + b;
      AttrsTextAppend(a[1..], b);
    }
  }

  /** A single attribute gives `{: key="value"}`. */
  lemma SingleAttrIal(key: string, value: string)
    ensures TransfromAttrToIal([(key, value)]) == Some("{: " + key + "=\"" + value + "\"}")
  {
    assert [(key, value)][1..] == [];
    assert AttrsText([(key, value)]) == AttrText(key, value) + AttrsText([]);
    assert AttrsText([(key, value)]) == AttrText(key, value);
    assert "{:" + AttrText(key, value) + "}" == "{: " + key + "=\"" + value + "\"}";
  }

  // --------------------------------------------------------- isValidIdFormat

  predicate IsAsciiAlnum(c: char) {
    IsDigit(c) || ('a' <= c <= 'z') || ('A' <= c <= 'Z')
  }

  /** `/^\d{14}-[a-zA-Z0-9]{7}$/`: fourteen digits, a dash, seven letters or digits. */
  predicate IdFormat(id: string) {
    && |id| == 22
    && (forall i :: 0 <= i < 14 ==> IsDigit(id[i]))
    && id[14] == '-'
    && (forall i :: 15 <= i < 22 ==> IsAsciiAlnum(id[i]))
  }

  /** `isValidIdFormat(id)`: a left-to-right scan of the pattern, anchored at both ends. */
  method IsValidIdFormat(id: string) returns (ok: bool)
    ensures ok <==> IdFormat(id)
  {
    if |id| != 22 {
      return false;
    }
    var i := 0;
    while i < 22
      invariant 0 <= i <= 22
      invariant forall j :: 0 <= j < i && j < 14 ==> IsDigit(id[j])
      invariant 14 < i ==> id[14] == '-'
      invariant forall j :: 15 <= j < i ==> IsAsciiAlnum(id[j])
    {
      var good := if i < 14 then IsDigit(id[i]) else if i == 14 then id[i] == '-' else IsAsciiAlnum(id[i]);
      if !good {
        return false;
      }
      i := i + 1;
    }
    return true;
  }

  datatype IdError = IdFormatIncorrect

  /** `checkIdValid(id)`: throws exactly when the id is malformed. */
  method CheckIdValid(id: string) returns (r: Result<(), IdError>)
    ensures r.Throws? <==> !IdFormat(id)
  {
    var ok := IsValidIdFormat(id);
    if !ok {
      return Throws(IdFormatIncorrect);
    }
    return Ok(());
  }

  // ---------------------------------------------- addToSet inside getSubDocIds

  /**
    What `listDocTree` returns, as far as `addToSet` looks at it: an array,
    `null`/`undefined`, or an object with an `id` and perhaps `children`.
   */
  datatype Tree = Absent | Array(items: seq<Tree>) | Object(id: Value, children: Children)

  /** An object's `children` field: missing (`undefined` or `null`) or an array. */
  datatype Children = NoChildren | Listed(kids: seq<Tree>)

  /** Every valid-string `id` in visiting order, repetitions included. */
  function Visit(t: Tree): seq<Value>
    decreases t, 1
  {
    match t
    case Absent => []
    case Array(items) => VisitAll(items)
    case Object(id, children) =>
      var own: seq<Value> := if CommonCheck.IsValidStr(id) then [id] else [];
      match children
      case NoChildren => own
      case Listed(kids) => own + VisitAll(kids)
  }

  function VisitAll(ts: seq<Tree>): seq<Value>
    decreases ts, 0
  {
    if |ts| == 0 then [] else Visit(ts[0]) + VisitAll(ts[1..])
  }

  /** Insertion into a JavaScript `Set` kept as its iteration order. */
  function SetAdd(acc: seq<Value>, v: Value): seq<Value> {
    if v in acc then acc else acc + [v]
  }

  /** Adding a sequence of values one by one. */
  function AddEach(acc: seq<Value>, vs: seq<Value>): seq<Value>
    decreases |vs|
  {
    if |vs| == 0 then acc else AddEach(SetAdd(acc, vs[0]), vs[1..])
  }

  /**
    `addToSet(obj)` against the set built so far: arrays and `children` are
    walked in order, `null`/`undefined` is skipped, and an object's valid `id`
    is added before its children are visited.
   */
  function AddToSet(acc: seq<Value>, t: Tree): seq<Value>
    decreases t, 1
  {
    match t
    case Absent => acc
    case Array(items) => AddAllToSet(acc, items)
    case Object(id, children) =>
      var acc' := if CommonCheck.IsValidStr(id) then SetAdd(acc, id) else acc;
      match children
      case NoChildren => acc'
      case Listed(kids) => AddAllToSet(acc', kids)
  }

  function AddAllToSet(acc: seq<Value>, ts: seq<Tree>): seq<Value>
    decreases ts, 0
  {
    if |ts| == 0 then acc else AddAllToSet(AddToSet(acc, ts[0]), ts[1..])
  }

  predicate NoDuplicates(s: seq<Value>) {
    forall i, j :: 0 <= i < j < |s| ==> s[i] != s[j]
  }

  lemma {:induction false} AddEachAppend(acc: seq<Value>, xs: seq<Value>, ys: seq<Value>)
    ensures AddEach(acc, xs + ys) == AddEach(AddEach(acc, xs), ys)
    decreases |xs|
  {
    if |xs| == 0 {
      assert xs + ys == ys;
    } else {
      assert (xs + ys)[1..] == xs[1..] + ys;
      AddEachAppend(SetAdd(acc, xs[0]), xs[1..], ys);
    }
  }

  /** The walk adds exactly the values the visit lists, in visiting order. */
  lemma {:induction false} AddToSetIsAddEach(acc: seq<Value>, t: Tree)
    ensures AddToSet(acc, t) == AddEach(acc, Visit(t))
    decreases t, 1
  {
    match t
    case Absent =>
    case Array(items) =>
      AddAllToSetIsAddEach(acc, items);
    case Object(id, children) =>
      var head: seq<Value> := if CommonCheck.IsValidStr(id) then [id] else [];
      var acc' := if CommonCheck.IsValidStr(id) then SetAdd(acc, id) else acc;
      assert AddEach(acc, head) == acc';
      match children
      case NoChildren =>
      case Listed(kids) =>
        AddAllToSetIsAddEach(acc', kids);
        AddEachAppend(acc, head, VisitAll(kids));
  }

  lemma {:induction false} AddAllToSetIsAddEach(acc: seq<Value>, ts: seq<Tree>)
    ensures AddAllToSet(acc, ts) == AddEach(acc, VisitAll(ts))
    decreases ts, 0
  {
    if |ts| > 0 {
      AddToSetIsAddEach(acc, ts[0]);
      AddAllToSetIsAddEach(AddToSet(acc, ts[0]), ts[1..]);
      AddEachAppend(acc, Visit(ts[0]), VisitAll(ts[1..]));
    }
  }

  /**
    Adding values one by one keeps what was there as a prefix, never repeats a
    value, and holds exactly the old and the new values.
   */
  lemma {:induction false} AddEachProperties(acc: seq<Value>, vs: seq<Value>)
    requires NoDuplicates(acc)
    ensures var r := AddEach(acc, vs);
      && acc <= r
      && NoDuplicates(r)
      && (forall v :: v in r <==> v in acc || v in vs)
    decreases |vs|
  {
    if |vs| > 0 {
      var acc' := SetAdd(acc, vs[0]);
      if vs[0] !in acc {
        forall i, j | 0 <= i < j < |acc'|
          ensures acc'[i] != acc'[j]
        {
          if j == |acc| { assert acc'[i] == acc[i]; }
        }
      }
      AddEachProperties(acc', vs[1..]);
      var r := AddEach(acc, vs);
      forall v
        ensures v in r <==> v in acc || v in vs
      {
        assert v in vs <==> v == vs[0] || v in vs[1..];
      }
    }
  }

  /** The values of `vs` with every repetition after the first dropped. */
  function FirstOccurrences(vs: seq<Value>): seq<Value> {
    AddEach([], vs)
  }

  /**
    `getSubDocIds` after the document lookup: `Array.from(subIdsSet)` for the
    tree `listDocTree` returned.
   */
  function SubDocIds(tree: Tree): (ids: seq<Value>)
    ensures NoDuplicates(ids)
    ensures forall v :: v in ids <==> v in Visit(tree)
    ensures ids == FirstOccurrences(Visit(tree))
  {
    AddToSetIsAddEach([], tree);
    AddEachProperties([], Visit(tree));
    AddToSet([], tree)
  }

  /** Only valid strings are collected: no `null`, `undefined` or empty id ever reaches the set. */
  lemma {:induction false} VisitOnlyValid(t: Tree)
    ensures forall v :: v in Visit(t) ==> CommonCheck.IsValidStr(v)
    decreases t, 1
  {
    match t
    case Absent =>
    case Array(items) => VisitAllOnlyValid(items);
    case Object(id, children) =>
      match children
      case NoChildren =>
      case Listed(kids) => VisitAllOnlyValid(kids);
  }

  lemma {:induction false} VisitAllOnlyValid(ts: seq<Tree>)
    ensures forall v :: v in VisitAll(ts) ==> CommonCheck.IsValidStr(v)
    decreases ts, 0
  {
    if |ts| > 0 {
      VisitOnlyValid(ts[0]);
      VisitAllOnlyValid(ts[1..]);
    }
  }

  /** A document listed twice, once nested in the other, is reported once and at its first position. */
  lemma DuplicateIdsCollapse()
    ensures SubDocIds(Array([Object(Str("a"), Listed([Object(Str("b"), NoChildren), Object(Str("a"), NoChildren)])), Absent]))
      == [Str("a"), Str("b")]
  {
    var t := Array([Object(Str("a"), Listed([Object(Str("b"), NoChildren), Object(Str("a"), NoChildren)])), Absent]);
    assert Visit(t) == [Str("a"), Str("b"), Str("a")] by {
      assert Visit(Object(Str("b"), NoChildren)) == [Str("b")];
      assert Visit(Object(Str("a"), NoChildren)) == [Str("a")];
      assert VisitAll([Object(Str("b"), NoChildren), Object(Str("a"), NoChildren)]) == [Str("b"), Str("a")];
      assert Visit(Object(Str("a"), Listed([Object(Str("b"), NoChildren), Object(Str("a"), NoChildren)])))
        == [Str("a"), Str("b"), Str("a")];
      assert VisitAll([Absent]) == [];
    }
  }

  // --------------------------------------------------------------- formatTime

  /** `formatTime(num)` inside `getUpdateString`: a string with a leading `0` below ten, else the number itself. */
  function FormatTime(n: int): (v: Value)
    ensures n < 10 ==> v.Str? && |v.s| >= 2 && v.s[0] == '0'
    ensures n >= 10 ==> v == Num(n)
  {
    if n < 10 then Str("0" + IntToString(n)) else Num(n)
  }

  /** The text a value contributes when concatenated onto a string. */
  function Render(v: Value): string {
    match v
    case Undefined => "undefined"
    case Null => "null"
    case Bool(b) => if b then "true" else "false"
    case Num(n) => IntToString(n)
    case Str(s) => s
  }

  /** Every clock field (0 to 99) renders as exactly two digits that read back as the field. */
  lemma FormatTimeTwoDigits(n: int)
    requires 0 <= n < 100
    ensures var t := Render(FormatTime(n));
      |t| == 2 && AllDigits(t) && DecimalValue(t) == n
  {
    var t := Render(FormatTime(n));
    if n < 10 {
      assert t == "0" + [DigitChar(n)];
      assert t[..1] == "0";
    } else {
      assert NatToString(n / 10) == [DigitChar(n / 10)];
      DecimalOfNatToString(n);
    }
  }

  // --------------------------------------------------------------- isValidDeck

  const QUICK_DECK_ID: string := "20230218211946-2kw8jgx"

  datatype DeckError = FindIsNotAFunction

  /**
    `isValidDeck(deckId)`: the built-in quick deck is accepted before the deck
    list is fetched; otherwise the id must be one of the listed decks' ids.
    `decks` is `None` when the kernel's data is not an array, which has no
    `find` method, so the call throws.
   */
  function IsValidDeck(deckId: string, decks: Option<seq<string>>): (r: Result<bool, DeckError>)
    ensures deckId == QUICK_DECK_ID ==> r == Ok(true)
    ensures deckId != QUICK_DECK_ID ==>
      (r.Throws? <==> decks.None?) && (r == Ok(true) <==> decks.Some? && deckId in decks.value)
  {
    if deckId == QUICK_DECK_ID then Ok(true)
    else if decks.None? then Throws(FindIsNotAFunction)
    else Ok(exists k :: 0 <= k < |decks.value| && decks.value[k] == deckId)
  }

  /**
    Through `getRiffDecks`, whose answer is always a list, the check never
    throws: a failed fetch leaves only the quick deck valid, and a successful
    one accepts exactly the quick deck and the listed ids.
   */
  lemma DeckCheckThroughFetch(deckId: string, response: SyApi.Response<seq<string>>)
    ensures var r := IsValidDeck(deckId, Some(SyApi.GetRiffDecks(response)));
      && r.Ok?
      && (r.value <==> (deckId == QUICK_DECK_ID
                        || (SyApi.GetResponseData(response).Some? && deckId in SyApi.GetResponseData(response).value)))
  {
  }

  /** The quick deck's id is itself a well-formed block id. */
  lemma QuickDeckIdWellFormed()
    ensures IdFormat(QUICK_DECK_ID)
  {
  }
}

=== FILE: editor_session.dfy ===
/**
  The state both embedded editors keep about one editing session, with the DOM
  and the third-party widget abstracted away: whether the floating editor is
  shown, whether a widget instance is held, the unsaved-changes flag, the `src`
  attribute of the image being edited, whether the "leave without saving"
  dialog is open, how many widgets have been constructed, and the messages
  shown to the user.
 */
module EditorSession {
  import opened Js
  import opened Text

  /** A message an editor shows about a save. */
  datatype Notice = SaveSucceeded | SaveFailed

  /**
    How the awaited storage call ended: it resolved with the storage's boolean
    (false when the server answered with a nonzero code), or it threw.
   */
  datatype SaveResult = Resolved(stored: bool) | Rejected

  datatype Session = Session(
    visible: bool,
    widgetPresent: bool,
    unsavedModify: bool,
    imgSrc: Option<string>,
    dialogOpen: bool,
    widgetsBuilt: nat,
    notices: seq<Notice>)

  /** An editor instance as the module builds it: nothing shown, no widget, nothing modified. */
  const INITIAL: Session := Session(false, false, false, None, false, 0, [])

  /** `element.getAttribute('src') || ''`. */
  function SrcOrEmpty(src: Option<string>): string {
    if src.Some? then src.value else ""
  }

  /**
    The cache-busting rewrite of the image's `src` after a save. The new `src`
    keeps the base of the old one (its text before the first `?`), and nothing
    else in the session changes.
   */
  function RefreshSrc(s: Session, now: nat): (t: Session)
    ensures t.imgSrc.Some? && BaseOf(t.imgSrc.value) == BaseOf(SrcOrEmpty(s.imgSrc))
    ensures StartsWith(t.imgSrc.value, BaseOf(SrcOrEmpty(s.imgSrc)))
    ensures t.(imgSrc := s.imgSrc) == s
  {
    RefreshKeepsBase(SrcOrEmpty(s.imgSrc), now);
    s.(imgSrc := Some(Refresh(SrcOrEmpty(s.imgSrc), now)))
  }

  /** Refreshing again replaces the previous query string instead of adding a second one. */
  lemma RefreshSrcTwice(s: Session, a: nat, b: nat)
    ensures RefreshSrc(RefreshSrc(s, a), b) == RefreshSrc(s, b)
  {
    RefreshNeverStacks(SrcOrEmpty(s.imgSrc), a, b);
  }
}

=== FILE: event_handler.dfy ===
/**
  `src/manager/eventHandler.ts`: which host event-bus events the plugin
  listens to, and the image context-menu entry that opens the editor.
 */
module EventHandler {
  import opened Js
  import opened Text

  /** The keys of `handlerBindList`, in declaration order. */
  const HANDLER_KEYS: seq<string> := ["loaded-protyle-static", "open-menu-image"]

  /**
    `relateGsettingKeyStr`: the setting each event depends on, `None` for none.
    `ws-main` has an entry but no handler.
   */
  const RELATED_SETTING: map<string, Option<string>> := map[
    "loaded-protyle-static" := None,
    "open-menu-image" := None,
    "ws-main" := Some("immediatelyUpdate")
  ]

  /** A handler is bound when it depends on no setting or its setting is truthy. */
  predicate ShouldBind(key: string, settings: map<string, Value>) {
    var related := if key in RELATED_SETTING then RELATED_SETTING[key] else None;
    related.None? || Truthy(Lookup(settings, related.value))
  }

  function BoundKeys(keys: seq<string>, settings: map<string, Value>): (bound: seq<string>)
    ensures forall k :: k in bound <==> k in keys && ShouldBind(k, settings)
  {
    if |keys| == 0 then []
    else (if ShouldBind(keys[0], settings) then [keys[0]] else []) + BoundKeys(keys[1..], settings)
  }

  /**
    `bindHandler()`: subscribes the handlers of `handlerBindList` whose rule
    allows it. Only those keys are ever considered, so `ws-main` is never bound.
   */
  function BindHandler(bus: set<string>, settings: map<string, Value>): (after: set<string>)
    ensures forall k :: k in after <==> k in bus || (k in HANDLER_KEYS && ShouldBind(k, settings))
    ensures "ws-main" in after <==> "ws-main" in bus
  {
    bus + set k | k in BoundKeys(HANDLER_KEYS, settings)
  }

  /** Both handlers depend on no setting, so both are bound whatever the settings say. */
  lemma BothHandlersAlwaysBound(settings: map<string, Value>)
    ensures BindHandler({}, settings) == {"loaded-protyle-static", "open-menu-image"}
  {
    assert ShouldBind(HANDLER_KEYS[0], settings) && ShouldBind(HANDLER_KEYS[1], settings);
  }

  /** `unbindHandler()`: unsubscribes every key of `handlerBindList`, bound or not. */
  function UnbindHandler(bus: set<string>): (after: set<string>)
    ensures forall k :: k in after <==> k in bus && k !in HANDLER_KEYS
  {
    bus - set k | k in HANDLER_KEYS
  }

  /** Unloading after loading leaves none of the plugin's handlers subscribed. */
  lemma UnbindUndoesBind(bus: set<string>, settings: map<string, Value>)
    ensures UnbindHandler(BindHandler(bus, settings)) == UnbindHandler(bus)
  {
  }

  /** The attributes of the `img` inside the block the menu opened on; `None` for an absent attribute. */
  datatype Img = Img(src: Option<string>, dataSrc: Option<string>)

  /** What `openMenuImage` throws on: no `img` in the block, or an `img` without `src`. */
  datatype MenuError = NoImage | NoSrc

  /** The arguments the menu entry's click passes to `showImageEditor`. */
  datatype OpenRequest = OpenRequest(source: string, filePath: string, element: Img)

  /** `"data/" + img.getAttribute("data-src")`, where a missing attribute is the text `null`. */
  function FilePath(dataSrc: Option<string>): (p: string)
    ensures StartsWith(p, "data/")
    ensures p[5..] == if dataSrc.Some? then dataSrc.value else "null"
  {
    "data/" + (if dataSrc.Some? then dataSrc.value else "null")
  }

  /**
    `openMenuImage(event)`: the entry is added exactly when the image's `src`
    starts with `asset`; its click opens the editor on that `src`, the
    workspace path built from `data-src`, and the image itself. `None` inside
    means no entry.
   */
  function OpenMenuImage(img: Option<Img>): (r: Result<Option<OpenRequest>, MenuError>)
    ensures img.None? <==> r == Throws(NoImage)
    ensures img.Some? && img.value.src.None? <==> r == Throws(NoSrc)
    ensures r.Ok? && r.value.Some? <==> img.Some? && img.value.src.Some? && StartsWith(img.value.src.value, "asset")
    ensures r.Ok? && r.value.Some? ==> r.value.value == OpenRequest(img.value.src.value, FilePath(img.value.dataSrc), img.value)
  {
    match img
    case None => Throws(NoImage)
    case Some(i) =>
      match i.src
      case None => Throws(NoSrc)
      case Some(src) =>
        if StartsWith(src, "asset") then Ok(Some(OpenRequest(src, FilePath(i.dataSrc), i))) else Ok(None)
  }

  /** An asset image without `data-src` is opened at `data/null`. */
  lemma MissingDataSrc(src: string)
    requires StartsWith(src, "asset")
    ensures OpenMenuImage(Some(Img(Some(src), None))) == Ok(Some(OpenRequest(src, "data/null", Img(Some(src), None))))
  {
    var p := FilePath(None);
    assert p == "data/" + "null";
    assert |p| == 9 && p[..5] == "data/" && p[5..] == "null";
    assert p == "data/null";
  }

  /** Images from the web get no menu entry. */
  lemma RemoteImageNoEntry()
    ensures OpenMenuImage(Some(Img(Some("https://x/a.png"), None))) == Ok(None)
  {
    assert "https://x/a.png"[..5][0] == 'h';
  }

  /**
    Whether an image gets the entry depends on its `src` alone: two images
    with the same `src` are treated alike whatever their `data-src`, and the
    request opens that `src`.
   */
  lemma MenuEntryDependsOnlyOnSrc(src: string, d1: Option<string>, d2: Option<string>)
    ensures var r1 := OpenMenuImage(Some(Img(Some(src), d1)));
      var r2 := OpenMenuImage(Some(Img(Some(src), d2)));
      && r1.Ok? && r2.Ok?
      && (r1.value.Some? <==> r2.value.Some?)
      && (r1.value.Some? ==> r1.value.value.source == r2.value.value.source == src)
  {
  }

  /**
    Two images share a workspace path exactly when their `data-src` agree,
    counting a missing attribute as the text `null`.
   */
  lemma FilePathInjective(a: Option<string>, b: Option<string>)
    ensures FilePath(a) == FilePath(b) <==>
      (if a.Some? then a.value else "null") == (if b.Some? then b.value else "null")
  {
    if FilePath(a) == FilePath(b) {
      assert FilePath(a)[5..] == FilePath(b)[5..];
    }
  }
}

=== FILE: filerbot_editor.dfy ===
/**
  `src/editor/filerbotEditor.ts`: the session logic of the Filerobot back end.
  The widget is built once and reused; its save hook always refreshes the
  image and clears the flag; a mouse-up on the mask closes at once or, with
  unsaved edits, offers "return" and "cancel".
 */
module FilerbotEditor {
  import opened Js
  import opened Text
  import opened EditorSession

  /**
    `showImageEditor(...)` once the editor is initialised: a widget is built
    only when none is held, otherwise the held one gets the new source; the
    flag starts false either way.
   */
  function Show(s: Session, elementSrc: Option<string>): (t: Session)
    ensures t.visible && t.widgetPresent && !t.unsavedModify
    ensures t.widgetsBuilt == s.widgetsBuilt + (if s.widgetPresent then 0 else 1)
    ensures t.imgSrc == elementSrc
    ensures t.dialogOpen == s.dialogOpen && t.notices == s.notices
  {
    s.(visible := true, widgetPresent := true, unsavedModify := false, imgSrc := elementSrc,
       widgetsBuilt := if s.widgetPresent then s.widgetsBuilt else s.widgetsBuilt + 1)
  }

  /** The widget's `onModify` hook. */
  function OnModify(s: Session): (t: Session)
    ensures t.unsavedModify
    ensures t.(unsavedModify := s.unsavedModify) == s
  {
    s.(unsavedModify := true)
  }

  /** The widget's `onBeforeSave` hook, which suppresses the widget's own save dialog. */
  function OnBeforeSave(): (proceed: bool)
    ensures !proceed
  {
    false
  }

  /**
    The widget's `onSave` hook. A thrown storage call is only logged; in every
    case the image is refreshed, the flag cleared, and 0 returned.
   */
  function OnSave(s: Session, result: SaveResult, now: nat): (r: (Session, int))
    ensures r.1 == 0
    ensures !r.0.unsavedModify && r.0.imgSrc == RefreshSrc(s, now).imgSrc
    ensures r.0.notices == s.notices && r.0.visible == s.visible && r.0.widgetPresent == s.widgetPresent
  {
    (RefreshSrc(s, now).(unsavedModify := false), 0)
  }

  /** What the save hook does does not depend on how the storage call ended. */
  lemma OnSaveIgnoresResult(s: Session, a: SaveResult, b: SaveResult, now: nat)
    ensures OnSave(s, a, now) == OnSave(s, b, now)
  {
  }

  /**
    `closeEditor()`, also the widget's `onClose` hook: the container and the
    mask are hidden and the widget terminated, but its reference is kept.
   */
  function CloseEditor(s: Session): (t: Session)
    ensures !t.visible && t.widgetPresent == s.widgetPresent
    ensures t.(visible := s.visible) == s
  {
    s.(visible := false)
  }

  /**
    The mask's `mouseup` listener: without unsaved edits the editor closes;
    otherwise the dialog opens and the editor stays.
   */
  function MaskMouseUp(s: Session): (t: Session)
    ensures !s.unsavedModify ==> t == CloseEditor(s)
    ensures s.unsavedModify ==> t.dialogOpen && t.visible == s.visible
    ensures t.unsavedModify == s.unsavedModify && t.widgetPresent == s.widgetPresent
  {
    if !s.unsavedModify then CloseEditor(s) else s.(dialogOpen := true)
  }

  /** The dialog's "return" button: only the dialog goes away; the editor and the flag stay. */
  function DialogReturn(s: Session): (t: Session)
    ensures !t.dialogOpen
    ensures t.(dialogOpen := s.dialogOpen) == s
  {
    s.(dialogOpen := false)
  }

  /** The dialog's "cancel" button: the dialog goes away and the editor closes, keeping the flag. */
  function DialogCancel(s: Session): (t: Session)
    ensures !t.dialogOpen && !t.visible
    ensures t.unsavedModify == s.unsavedModify && t.widgetPresent == s.widgetPresent && t.imgSrc == s.imgSrc
  {
    CloseEditor(s.(dialogOpen := false))
  }

  /**
    `destroy()`: the script, the mask and every floating container are removed,
    and the widget is terminated and dropped; it is safe when none of them
    exists.
   */
  function Destroy(s: Session): (t: Session)
    ensures !t.visible && !t.widgetPresent
    ensures t.(visible := s.visible, widgetPresent := s.widgetPresent) == s
  {
    s.(visible := false, widgetPresent := false)
  }

  /** `isAvailable()`: this back end runs everywhere. */
  function IsAvailable(): (available: bool)
    ensures available
  {
    true
  }

  /** A close keeps the widget, so the next show builds nothing; after a destroy it builds one again. */
  lemma WidgetBuiltOnce(s: Session, a: Option<string>, b: Option<string>)
    ensures var t := Show(CloseEditor(Show(s, a)), b);
      t.widgetsBuilt == Show(s, a).widgetsBuilt
    ensures var t := Show(Destroy(Show(s, a)), b);
      t.widgetsBuilt == Show(s, a).widgetsBuilt + 1
  {
  }

  /** "Return" then another mouse-up opens the dialog again: the flag survives the dialog. */
  lemma ReturnKeepsAsking(s: Session)
    requires s.unsavedModify
    ensures MaskMouseUp(DialogReturn(MaskMouseUp(s))).dialogOpen
  {
  }
}

=== FILE: js.dfy ===
/**
  The few JavaScript notions the plugin relies on: optional values, thrown
  errors, and the scalar values that settings, attributes and API payloads hold.
 */
module Js {

  /** `null`/`undefined` versus a present value. */
  datatype Option<+T> = None | Some(value: T)

  /** A call that either returns a value or throws an error of kind `E`. */
  datatype Result<+T, +E> = Ok(value: T) | Throws(error: E)

  /**
    A scalar JavaScript value. Numbers are modelled as integers: every number the
    modelled code compares or stores is an integer (versions, counts, sort codes).
   */
  datatype Value = Undefined | Null | Bool(b: bool) | Num(n: int) | Str(s: string)

  /** `v == null` with loose equality: true for `null` and `undefined` only. */
  predicate IsNullish(v: Value) {
    v.Undefined? || v.Null?
  }

  /** JavaScript truthiness of a scalar value. */
  predicate Truthy(v: Value) {
    match v
    case Undefined => false
    case Null => false
    case Bool(b) => b
    case Num(n) => n != 0
    case Str(s) => s != ""
  }

  /** The value a missing key of a plain object reads as. */
  function Lookup(m: map<string, Value>, key: string): Value {
    if key in m then m[key] else Undefined
  }

  /**
    The properties every plain object inherits from `Object.prototype`. The
    `in` operator and bracket reads see them on any object literal, even one
    that never declared them.
   */
  const OBJECT_PROTOTYPE_MEMBERS: set<string> := {
    "constructor", "hasOwnProperty", "isPrototypeOf", "propertyIsEnumerable",
    "toLocaleString", "toString", "valueOf", "__defineGetter__",
    "__defineSetter__", "__lookupGetter__", "__lookupSetter__", "__proto__"
  }

  /** `key in obj` for a plain object whose own keys are `own`. */
  predicate InObject(own: set<string>, key: string) {
    key in own || key in OBJECT_PROTOTYPE_MEMBERS
  }

  /**
    Whether `obj == ""` throws for a plain object whose own keys are `own`. The
    loose comparison converts the object to a primitive, calling `valueOf` and
    then `toString`, skipping one that cannot be called and one that returns
    an object. The inherited `valueOf` returns the object itself; an own member
    holds a JSON value, which cannot be called. So an own `toString` leaves no
    conversion and the comparison throws a TypeError; otherwise the inherited
    `toString` gives `"[object Object]"`, which is not `""`.
   */
  predicate LooseEqualsStringThrows(own: set<string>) {
    "toString" in own
  }
}

=== FILE: local_editor.dfy ===
/**
  `src/editor/localEditor.ts`: the back end that opens the image in an external
  program. The platform check, the command line built from the settings, and
  what happens when the program exits are modelled; starting the process,
  `path.join` and the host's platform queries are inputs.
 */
module LocalEditor {
  import opened Js
  import opened Text
  import opened CommonCheck
  import opened EditorSession
  import Settings

  // -------------------------------------------------------------- isAvailable

  const UNSUPPORTED_FRONTENDS: seq<string> := ["browser-desktop", "browser-mobile", "mobile"]
  const UNSUPPORTED_BACKENDS: seq<string> := ["docker", "android", "ios", "harmony"]

  /** The message `isAvailable` shows when it refuses. */
  datatype AvailabilityNotice = FrontendError | BackendError

  /**
    `isAvailable()` for the host's `getFrontend()` and `getBackend()`: the
    external editor needs a desktop front end and a desktop back end. The front
    end is checked first, and at most one message is shown, naming the first
    check that failed.
   */
  function IsAvailable(frontend: string, backend: string): (r: (bool, seq<AvailabilityNotice>))
    ensures r.0 <==> frontend !in UNSUPPORTED_FRONTENDS && backend !in UNSUPPORTED_BACKENDS
    ensures r.0 <==> r.1 == []
    ensures frontend in UNSUPPORTED_FRONTENDS ==> r.1 == [FrontendError]
    ensures frontend !in UNSUPPORTED_FRONTENDS && backend in UNSUPPORTED_BACKENDS ==> r.1 == [BackendError]
  {
    if frontend in UNSUPPORTED_FRONTENDS then (false, [FrontendError])
    else if backend in UNSUPPORTED_BACKENDS then (false, [BackendError])
    else (true, [])
  }

  // ------------------------------------------------------ argument templates

  const PATH_TOKEN: string := "%%PATH%%"

  /**
    The replacement text JavaScript's `String.prototype.replace` produces from
    a replacement string `t` for one match (the GetSubstitution operation of
    ECMAScript, with no capture groups): `$$` is `$`, `$&` the matched text,
    `` $` `` the text before the match, `$'` the text after it; any other `$`
    is kept.
   */
  function Substitution(t: string, matched: string, before: string, after: string): (r: string)
    ensures '$' !in t ==> r == t
    decreases |t|
  {
    if |t| == 0 then ""
    else if t[0] == '$' && |t| >= 2 && t[1] == '$' then "$" + Substitution(t[2..], matched, before, after)
    else if t[0] == '$' && |t| >= 2 && t[1] == '&' then matched + Substitution(t[2..], matched, before, after)
    else if t[0] == '$' && |t| >= 2 && t[1] == '`' then before + Substitution(t[2..], matched, before, after)
    else if t[0] == '$' && |t| >= 2 && t[1] == '\'' then after + Substitution(t[2..], matched, before, after)
    else [t[0]] + Substitution(t[1..], matched, before, after)
  }

  /**
    `s.replace(/p/g, t)` with `t` read as a replacement pattern; `done` is the
    part of the original string already scanned, which `` $` `` refers to.
   */
  function ReplacePattern(s: string, p: string, t: string, done: string): (r: string)
    requires |p| > 0
    ensures !Contains(s, p) ==> r == s
    decreases |s|
  {
    if |s| == 0 then ""
    else if StartsWith(s, p) then
      assert MatchAt(s, p, 0);
      Substitution(t, p, done, s[|p|..]) + ReplacePattern(s[|p|..], p, t, done + p)
    else
      assert s == [s[0]] + s[1..];
      assert !Contains(s, p) ==> !Contains(s[1..], p) by {
        if Contains(s[1..], p) {
          var i: nat :| i <= |s[1..]| && MatchAt(s[1..], p, i);
          assert s[i + 1..i + 1 + |p|] == s[1..][i..i + |p|];
          assert MatchAt(s, p, i + 1);
        }
      }
      [s[0]] + ReplacePattern(s[1..], p, t, done + [s[0]])
  }

  /** Without `$` in the replacement, the pattern replacement is the literal one. */
  lemma {:induction false} ReplacePatternLiteral(s: string, p: string, t: string, done: string)
    requires |p| > 0 && '$' !in t
    ensures ReplacePattern(s, p, t, done) == ReplaceAll(s, p, t)
    decreases |s|
  {
    if |s| > 0 {
      if StartsWith(s, p) {
        ReplacePatternLiteral(s[|p|..], p, t, done + p);
      } else {
        ReplacePatternLiteral(s[1..], p, t, done + [s[0]]);
      }
    }
  }

  /**
    One line of `localEditorArgs` as written: a line holding `%%PATH%%` has
    every occurrence replaced with `imagePath`, read as a replacement pattern.
   */
  function ExpandLineAsWritten(line: string, imagePath: string): (r: string)
    ensures !Contains(line, PATH_TOKEN) ==> r == line
    ensures '$' !in imagePath && Contains(line, PATH_TOKEN) ==> r == ReplaceAll(line, PATH_TOKEN, imagePath)
  {
    if Contains(line, PATH_TOKEN) then
      assert '$' !in imagePath ==> ReplacePattern(line, PATH_TOKEN, imagePath, "") == ReplaceAll(line, PATH_TOKEN, imagePath) by {
        if '$' !in imagePath { ReplacePatternLiteral(line, PATH_TOKEN, imagePath, ""); }
      }
      ReplacePattern(line, PATH_TOKEN, imagePath, "")
    else line
  }

  /**
    One line of `localEditorArgs`, with `imagePath` inserted literally at every
    `%%PATH%%`; a line without the token is passed on unchanged.
   */
  function ExpandLine(line: string, imagePath: string): (r: string)
    ensures !Contains(line, PATH_TOKEN) ==> r == line
    ensures Contains(line, PATH_TOKEN) ==> r == ReplaceAll(line, PATH_TOKEN, imagePath)
  {
    if Contains(line, PATH_TOKEN) then ReplaceAll(line, PATH_TOKEN, imagePath) else line
  }

  /** The two expansions agree whenever the image path holds no `$`. */
  lemma ExpandLinesAgree(line: string, imagePath: string)
    requires '$' !in imagePath
    ensures ExpandLineAsWritten(line, imagePath) == ExpandLine(line, imagePath)
  {
    if Contains(line, PATH_TOKEN) {
      ReplacePatternLiteral(line, PATH_TOKEN, imagePath, "");
    }
  }

  /** A line that is just the token becomes the image path. */
  lemma TokenLineIsPath(imagePath: string)
    ensures ExpandLine(PATH_TOKEN, imagePath) == imagePath
  {
    assert MatchAt(PATH_TOKEN, PATH_TOKEN, 0);
    assert StartsWith(PATH_TOKEN, PATH_TOKEN);
    assert PATH_TOKEN[|PATH_TOKEN|..] == "";
  }

  /** A `$$` in the image path collapses to one `$` as written. */
  lemma DollarPathMangled()
    ensures ExpandLineAsWritten(PATH_TOKEN, "/d/a$$b.png") == "/d/a$b.png"
  {
    var x, y := "/d/a", "b.png";
    assert x + "$$" + y == "/d/a$$b.png";
    assert x + "$" + y == "/d/a$b.png";
    DoubledDollarMangled(x, y);
  }

  /** Any image path with one `$$` and no other `$` loses a `$` as written. */
  lemma DoubledDollarMangled(x: string, y: string)
    requires '$' !in x && '$' !in y
    ensures ExpandLineAsWritten(PATH_TOKEN, x + "$$" + y) == x + "$" + y
  {
    TokenLineAsWritten(x + "$$" + y);
    DollarsCollapse(x, y, PATH_TOKEN, "", "");
  }

  /** A line that is just the token becomes the substitution of the image path. */
  lemma TokenLineAsWritten(imagePath: string)
    ensures ExpandLineAsWritten(PATH_TOKEN, imagePath) == Substitution(imagePath, PATH_TOKEN, "", "")
  {
    assert MatchAt(PATH_TOKEN, PATH_TOKEN, 0);
    assert StartsWith(PATH_TOKEN, PATH_TOKEN);
    assert PATH_TOKEN[|PATH_TOKEN|..] == "";
  }

  /** `$$` between two `$`-free texts becomes a single `$`. */
  lemma DollarsCollapse(x: string, y: string, m: string, b: string, a: string)
    requires '$' !in x && '$' !in y
    ensures Substitution(x + "$$" + y, m, b, a) == x + "$" + y
  {
    assert x + "$$" + y == x + ("$$" + y);
    SubstitutionAppendLiteral(x, "$$" + y, m, b, a);
    assert ("$$" + y)[2..] == y;
    assert Substitution(y, m, b, a) == y;
  }

  /** A `$`-free head is copied through and the rest is substituted on its own. */
  lemma {:induction false} SubstitutionAppendLiteral(x: string, y: string, m: string, b: string, a: string)
    requires '$' !in x
    ensures Substitution(x + y, m, b, a) == x + Substitution(y, m, b, a)
    decreases |x|
  {
    if |x| > 0 {
      assert (x + y)[0] == x[0];
      assert (x + y)[1..] == x[1..] + y;
      assert '$' !in x[1..];
      SubstitutionAppendLiteral(x[1..], y, m, b, a);
      assert x == [x[0]] + x[1..];
    } else {
      assert x + y == y;
    }
  }

  /**
    `args.map(...)` as the code runs it: every line expanded as written. For an
    image path without `$` this is the literal expansion.
   */
  function ExpandLines(lines: seq<string>, imagePath: string): (r: seq<string>)
    ensures |r| == |lines|
    ensures forall i :: 0 <= i < |lines| ==> r[i] == ExpandLineAsWritten(lines[i], imagePath)
    ensures '$' !in imagePath ==> forall i :: 0 <= i < |lines| ==> r[i] == ExpandLine(lines[i], imagePath)
  {
    if |lines| == 0 then []
    else
      assert '$' !in imagePath ==> ExpandLineAsWritten(lines[0], imagePath) == ExpandLine(lines[0], imagePath) by {
        if '$' !in imagePath { ExpandLinesAgree(lines[0], imagePath); }
      }
      [ExpandLineAsWritten(lines[0], imagePath)] + ExpandLines(lines[1..], imagePath)
  }

  /**
    The argument list built from the `localEditorArgs` setting: a falsy setting
    gives just the image path; a string gives one argument per line, with the
    token expanded as the code does it; any other truthy value has no `split`
    method, so the call throws.
   */
  function LauncherArgs(argsSetting: Value, imagePath: string): (r: Result<seq<string>, TypeError>)
    ensures !Truthy(argsSetting) ==> r == Ok([imagePath])
    ensures argsSetting.Str? && Truthy(argsSetting) ==> (r.Ok?
      && |r.value| == |Split(argsSetting.s, '\n')|
      && forall i :: 0 <= i < |r.value| ==>
        r.value[i] == ExpandLineAsWritten(Split(argsSetting.s, '\n')[i], imagePath))
    ensures argsSetting.Str? && Truthy(argsSetting) && '$' !in imagePath ==> (r.Ok?
      && forall i :: 0 <= i < |r.value| ==>
        r.value[i] == ExpandLine(Split(argsSetting.s, '\n')[i], imagePath))
    ensures r.Throws? <==> Truthy(argsSetting) && !argsSetting.Str?
    ensures r.Throws? ==> r.error == SplitIsNotAFunction
  {
    if !Truthy(argsSetting) then Ok([imagePath])
    else if argsSetting.Str? then Ok(ExpandLines(Split(argsSetting.s, '\n'), imagePath))
    else Throws(SplitIsNotAFunction)
  }

  /**
    An option line and a path line give the option followed by the image path
    read as a replacement pattern; an image path without `$` arrives as it is.
   */
  lemma OptionThenPath(imagePath: string)
    ensures LauncherArgs(Str("-edit\n" + PATH_TOKEN), imagePath)
      == Ok(["-edit", Substitution(imagePath, PATH_TOKEN, "", "")])
    ensures '$' !in imagePath ==> LauncherArgs(Str("-edit\n" + PATH_TOKEN), imagePath) == Ok(["-edit", imagePath])
  {
    var lines := ["-edit", PATH_TOKEN];
    assert '\n' !in lines[0] && '\n' !in lines[1];
    assert Join(lines[1..], '\n') == PATH_TOKEN;
    assert Join(lines, '\n') == "-edit\n" + PATH_TOKEN;
    SplitJoin(lines, '\n');
    NoTokenInEdit();
    TokenLineAsWritten(imagePath);
    var r := ExpandLines(lines, imagePath);
    assert r[0] == "-edit" && r[1] == Substitution(imagePath, PATH_TOKEN, "", "");
    assert r == ["-edit", Substitution(imagePath, PATH_TOKEN, "", "")];
    if '$' !in imagePath {
      assert Substitution(imagePath, PATH_TOKEN, "", "") == imagePath;
    }
  }

  /** The same two lines with `/d/a$$b.png` hand the program `/d/a$b.png`. */
  lemma OptionThenMangledPath()
    ensures LauncherArgs(Str("-edit\n" + PATH_TOKEN), "/d/a$$b.png") == Ok(["-edit", "/d/a$b.png"])
  {
    OptionThenPath("/d/a$$b.png");
    TokenLineAsWritten("/d/a$$b.png");
    DollarPathMangled();
  }

  lemma NoTokenInEdit()
    ensures !Contains("-edit", PATH_TOKEN)
  {
    forall i: nat | i <= 5
      ensures !MatchAt("-edit", PATH_TOKEN, i)
    {
    }
  }

  // ------------------------------------------------------------------- launch

  /** What `showImageEditor` does before the process runs. */
  datatype Launch =
    | NotConfigured
    | Spawned(command: Value, args: seq<string>)

  /**
    `showImageEditor(...)` up to the `spawn` call. The image path is the data
    directory joined (by the host's `path.join`) with the image's `src` up to
    its first `?`. Without a valid `localEditorPath` a message is shown and
    nothing is started.
   */
  function LaunchFor(settings: Settings.Settings, src: Option<string>, dataDir: string,
                     join: (string, string) -> string): (r: Result<Launch, TypeError>)
    ensures !IsValidStr(Lookup(settings, "localEditorPath")) ==> r == Ok(NotConfigured)
    ensures IsValidStr(Lookup(settings, "localEditorPath")) ==>
      var args := LauncherArgs(Lookup(settings, "localEditorArgs"), join(dataDir, BaseOf(SrcOrEmpty(src))));
      && (r.Ok? <==> args.Ok?)
      && (r.Ok? ==> r.value == Spawned(Lookup(settings, "localEditorPath"), args.value))
    ensures r.Ok? && r.value.Spawned? ==> (r.value.command == Lookup(settings, "localEditorPath")
      && LauncherArgs(Lookup(settings, "localEditorArgs"), join(dataDir, BaseOf(SrcOrEmpty(src))))
         == Ok(r.value.args))
  {
    var command := Lookup(settings, "localEditorPath");
    if !IsValidStr(command) then Ok(NotConfigured)
    else
      var imagePath := join(dataDir, BaseOf(SrcOrEmpty(src)));
      match LauncherArgs(Lookup(settings, "localEditorArgs"), imagePath)
      case Ok(args) => Ok(Spawned(command, args))
      case Throws(e) => Throws(e)
  }

  /** With the default settings nothing is started: the command path is empty. */
  lemma DefaultsLaunchNothing(src: Option<string>, dataDir: string, join: (string, string) -> string)
    ensures LaunchFor(Settings.DEFAULTS, src, dataDir, join) == Ok(NotConfigured)
  {
  }

  /** A configured command without arguments is handed exactly the image path. */
  lemma EmptyArgsGivePath(settings: Settings.Settings, src: Option<string>, dataDir: string,
                          join: (string, string) -> string)
    requires IsValidStr(Lookup(settings, "localEditorPath"))
    requires Lookup(settings, "localEditorArgs") == Str("")
    ensures LaunchFor(settings, src, dataDir, join)
      == Ok(Spawned(Lookup(settings, "localEditorPath"), [join(dataDir, BaseOf(SrcOrEmpty(src)))]))
  {
  }

  // ------------------------------------------------------------ process exit

  /** The exit time below which the editor asks whether the program really finished. */
  const QUICK_EXIT_MS: int := 3000

  datatype ExitOutcome = ExitOutcome(src: string, dialogShown: bool)

  /**
    The child's `close` handler: the image's `src` is always refreshed, and the
    waiting dialog opens exactly when the program exited within 3000 ms (it
    probably handed the file to an already running instance).
   */
  function OnChildClose(srcAtClose: Option<string>, elapsedMs: int, now: nat): (o: ExitOutcome)
    ensures o.dialogShown <==> elapsedMs < QUICK_EXIT_MS
    ensures BaseOf(o.src) == BaseOf(SrcOrEmpty(srcAtClose))
    ensures Some(o.src) == RefreshSrc(INITIAL.(imgSrc := srcAtClose), now).imgSrc
  {
    RefreshKeepsBase(SrcOrEmpty(srcAtClose), now);
    ExitOutcome(Refresh(SrcOrEmpty(srcAtClose), now), elapsedMs < QUICK_EXIT_MS)
  }

  /**
    The waiting dialog's "refresh" button: refreshes once more; since the
    query string is replaced, the `src` is what a single refresh at that time
    gives.
   */
  function DialogRefresh(src: string, now: nat): (r: string)
    ensures BaseOf(r) == BaseOf(src)
  {
    RefreshKeepsBase(src, now);
    Refresh(src, now)
  }

  /** The dialog's "cancel" button: `closeEditor` does nothing, so the `src` stays as the exit left it. */
  function DialogCancel(src: string): (r: string)
    ensures r == src
  {
    src
  }

  /** Whatever the user answers, the image shows the base it had before, with one query string. */
  lemma ExitThenRefresh(srcAtClose: Option<string>, elapsedMs: int, now: nat, later: nat)
    ensures var o := OnChildClose(srcAtClose, elapsedMs, now);
      && DialogRefresh(o.src, later) == Refresh(SrcOrEmpty(srcAtClose), later)
      && BaseOf(DialogCancel(o.src)) == BaseOf(SrcOrEmpty(srcAtClose))
  {
    RefreshNeverStacks(SrcOrEmpty(srcAtClose), now, later);
  }
}

=== FILE: registry.dfy ===
/**
  `src/manager/editorHelper.ts`: the table of the two embedded editor back ends,
  each built once when the module loads, and the `currentEditor` slot that
  `changeEditor` fills. Every instance is named by its key, so "the same
  instance" is "the same key"; the calls the registry makes on the instances
  are recorded in a log.
 */
module Registry {
  import opened Js

  /** The two back ends of `IMAGE_EDITOR_KEY`; no other editor is reachable through the table. */
  datatype EditorKey = Filerbot | Tui

  const FILERBOT: string := "filerbot"
  const TUI: string := "tui"

  /** `Object.values(IMAGE_EDITOR_KEY)`, in declaration order. */
  const IMAGE_EDITOR_KEYS: seq<string> := [FILERBOT, TUI]

  const DEFAULT_EDITOR: EditorKey := Tui

  function KeyName(k: EditorKey): (name: string)
    ensures name in IMAGE_EDITOR_KEYS
  {
    match k
    case Filerbot => FILERBOT
    case Tui => TUI
  }

  /** What `EDITOR[key]` reads: one of the two instances, something inherited from `Object.prototype`, or `undefined`. */
  datatype TableEntry = Own(editor: EditorKey) | Inherited | Missing

  function TableLookup(key: string): (e: TableEntry)
    ensures e.Own? <==> key in IMAGE_EDITOR_KEYS
    ensures e.Own? ==> KeyName(e.editor) == key
    ensures e.Inherited? <==> key in OBJECT_PROTOTYPE_MEMBERS
  {
    if key == FILERBOT then Own(Filerbot)
    else if key == TUI then Own(Tui)
    else if key in OBJECT_PROTOTYPE_MEMBERS then Inherited
    else Missing
  }

  /** The `currentEditor` slot: unset at load, an instance, or an inherited non-editor value. */
  datatype Slot = Unset | Current(editor: EditorKey) | NotAnEditor

  /** A call the registry forwards to an editor instance. */
  datatype Call = Init(editor: EditorKey) | Destroy(editor: EditorKey) | Show(editor: EditorKey, source: string, filePath: string)

  datatype State = State(current: Slot, calls: seq<Call>)

  /** A registry operation either completes or throws a `TypeError`; the state is what it left behind. */
  datatype Outcome = Outcome(state: State, threw: bool)

  const LOADED: State := State(Unset, [])

  /**
    `changeEditor(editorKey)`. The previous editor, if any, is destroyed first,
    also when the same key is chosen again; a key the table lacks falls back to
    the `tui` instance, which is then initialised. A key naming an inherited
    member is truthy, so it is stored, and calling its missing `init` throws;
    from then on `currentEditor.destroy` is not a function either.
   */
  function ChangeEditor(st: State, editorKey: string): (o: Outcome)
    ensures o.threw <==> st.current.NotAnEditor? || editorKey in OBJECT_PROTOTYPE_MEMBERS
    ensures !o.threw ==> o.state.current.Current? && |o.state.calls| > |st.calls|
    ensures !o.threw ==> o.state.calls[|o.state.calls| - 1] == Init(o.state.current.editor)
    ensures |st.calls| <= |o.state.calls| && o.state.calls[..|st.calls|] == st.calls
  {
    match st.current
    case NotAnEditor => Outcome(st, true)
    case Unset => SelectAfter(st.calls, editorKey)
    case Current(previous) => SelectAfter(st.calls + [Destroy(previous)], editorKey)
  }

  /** The second half of `changeEditor`: store the looked-up value and call its `init`. */
  function SelectAfter(calls: seq<Call>, editorKey: string): (o: Outcome)
    ensures o.threw <==> o.state.current.NotAnEditor?
    ensures o.state.calls == calls + (if o.state.current.Current? then [Init(o.state.current.editor)] else [])
  {
    match TableLookup(editorKey)
    case Own(k) => Outcome(State(Current(k), calls + [Init(k)]), false)
    case Missing => Outcome(State(Current(DEFAULT_EDITOR), calls + [Init(DEFAULT_EDITOR)]), false)
    case Inherited => Outcome(State(NotAnEditor, calls), true)
  }

  /** The instance `changeEditor` selects for a key that is not an inherited member. */
  function Selected(editorKey: string): EditorKey {
    match TableLookup(editorKey)
    case Own(k) => k
    case _ => DEFAULT_EDITOR
  }

  /**
    From a usable slot and for every key but the inherited ones, `changeEditor`
    succeeds, destroys exactly the previous editor, then calls `init` once on the
    selected instance, which is the named one or else `tui`.
   */
  lemma ChangeEditorEffect(st: State, editorKey: string)
    requires !st.current.NotAnEditor?
    requires editorKey !in OBJECT_PROTOTYPE_MEMBERS
    ensures var o := ChangeEditor(st, editorKey);
      && !o.threw
      && o.state.current == Current(Selected(editorKey))
      && o.state.calls == st.calls
           + (if st.current.Current? then [Destroy(st.current.editor)] else [])
           + [Init(Selected(editorKey))]
    ensures Selected(editorKey) == Filerbot <==> editorKey == FILERBOT
  {
  }

  /** Choosing the current editor again still destroys it and initialises it anew. */
  lemma ReselectDestroysFirst(k: EditorKey, calls: seq<Call>)
    ensures ChangeEditor(State(Current(k), calls), KeyName(k))
      == Outcome(State(Current(k), calls + [Destroy(k), Init(k)]), false)
  {
  }

  /** After an inherited key, the slot holds no editor and every later `changeEditor` throws without calling anything. */
  lemma InheritedKeyIsStuck(st: State, editorKey: string, later: string)
    requires !st.current.NotAnEditor? && editorKey in OBJECT_PROTOTYPE_MEMBERS
    ensures var o := ChangeEditor(st, editorKey);
      && o.threw && o.state.current == NotAnEditor
      && ChangeEditor(o.state, later) == Outcome(o.state, true)
  {
  }

  /** `initImageEditor()`: forwards `init` to the current editor; throws when there is none. */
  function InitImageEditor(st: State): (o: Outcome)
    ensures o.threw <==> !st.current.Current?
    ensures o.state.current == st.current
    ensures !o.threw ==> o.state.calls == st.calls + [Init(st.current.editor)]
    ensures o.threw ==> o.state == st
  {
    if st.current.Current? then Outcome(State(st.current, st.calls + [Init(st.current.editor)]), false)
    else Outcome(st, true)
  }

  /** `showImageEditor(...)`: forwards the request unchanged to the current editor; throws when there is none. */
  function ShowImageEditor(st: State, source: string, filePath: string): (o: Outcome)
    ensures o.threw <==> !st.current.Current?
    ensures o.state.current == st.current
    ensures !o.threw ==> o.state.calls == st.calls + [Show(st.current.editor, source, filePath)]
    ensures o.threw ==> o.state == st
  {
    if st.current.Current? then Outcome(State(st.current, st.calls + [Show(st.current.editor, source, filePath)]), false)
    else Outcome(st, true)
  }

  /** Before any `changeEditor`, both forwarding functions throw. */
  lemma NothingBeforeChange(source: string, filePath: string)
    ensures InitImageEditor(LOADED).threw && ShowImageEditor(LOADED, source, filePath).threw
  {
  }

  /**
    At start-up, with nothing selected yet, a valid key selects its own back end
    and initialises it once; forwarding `init` afterwards initialises it again.
   */
  lemma StartupSelects(key: string)
    requires key in IMAGE_EDITOR_KEYS
    ensures var o := ChangeEditor(LOADED, key);
      && !o.threw
      && KeyName(o.state.current.editor) == key
      && InitImageEditor(o.state)
           == Outcome(State(o.state.current, [Init(o.state.current.editor), Init(o.state.current.editor)]), false)
  {
    ChangeEditorEffect(LOADED, key);
  }
}

=== FILE: release.dfy ===
/**
  `scripts/.release.py`: the release notes are the body of the change-log
  entry with the highest version. Entries are found with the pattern
  `### v(\d+(?:\.\d+)+)\n(.*?)(?=\n### |\Z)` (dot matching newlines), scanned
  left to right without overlap, and compared as tuples of integers.
 */
module Release {
  import opened Js
  import opened Text

  const HEADER: string := "### v"
  const NEXT_HEADER: string := "\n### "

  predicate IsVersionChar(c: char) {
    IsDigit(c) || c == '.'
  }

  /** `\d+(?:\.\d+)+`: at least two dot-separated runs of digits. */
  predicate ValidVersion(v: string) {
    var parts := Split(v, '.');
    |parts| >= 2 && forall k :: 0 <= k < |parts| ==> |parts[k]| > 0 && AllDigits(parts[k])
  }

  /** The number of version characters at `s[j..]`. */
  function RunLength(s: string, j: nat): (n: nat)
    requires j <= |s|
    ensures j + n <= |s|
    ensures forall m :: j <= m < j + n ==> IsVersionChar(s[m])
    ensures j + n == |s| || !IsVersionChar(s[j + n])
    decreases |s| - j
  {
    if j < |s| && IsVersionChar(s[j]) then 1 + RunLength(s, j + 1) else 0
  }

  /**
    A header at index `i`: its version and the index where the body starts. The
    version must be followed by a newline, so (no newline being a version
    character) it is the whole run of digits and dots after `### v`.
   */
  function HeaderAt(s: string, i: nat): (r: Option<(string, nat)>)
    requires i <= |s|
    ensures r.Some? ==> i < r.value.1 <= |s|
    ensures r.Some? ==> ValidVersion(r.value.0) && s[i..r.value.1] == HEADER + r.value.0 + "\n"
  {
    if StartsWith(s[i..], HEADER) then
      var n := RunLength(s, i + 5);
      var v := s[i + 5..i + 5 + n];
      if i + 5 + n < |s| && s[i + 5 + n] == '\n' && ValidVersion(v) then
        assert s[i..i + 5] == s[i..][..5];
        assert s[i..i + 5 + n + 1] == s[i..i + 5] + v + "\n";
        Some((v, i + 5 + n + 1))
      else None
    else None
  }

  /** The run of version characters at `j` is exactly `n` long when a non-version character follows it. */
  lemma {:induction false} RunLengthExact(s: string, j: nat, n: nat)
    requires j + n < |s|
    requires forall m :: j <= m < j + n ==> IsVersionChar(s[m])
    requires !IsVersionChar(s[j + n])
    ensures RunLength(s, j) == n
    decreases n
  {
    if n > 0 {
      RunLengthExact(s, j + 1, n - 1);
    }
  }

  /** The characters of `s` from `i` on, when it begins with `h`. */
  lemma PrefixChars(s: string, i: nat, h: string)
    requires i <= |s| && StartsWith(s[i..], h)
    ensures i + |h| <= |s| && s[i..i + |h|] == h
    ensures forall m :: 0 <= m < |h| ==> s[i + m] == h[m]
  {
    assert s[i..][..|h|] == s[i..i + |h|];
  }

  /** Reading `### v`, a run of version characters `v` and a newline at index `i`. */
  lemma HeaderChars(s: string, i: nat, v: string)
    requires i <= |s|
    requires forall m :: 0 <= m < |v| ==> IsVersionChar(v[m])
    requires StartsWith(s[i..], HEADER + v + "\n")
    ensures StartsWith(s[i..], HEADER)
    ensures i + 5 + |v| < |s| && s[i + 5 + |v|] == '\n'
    ensures RunLength(s, i + 5) == |v|
    ensures s[i + 5..i + 5 + |v|] == v
  {
    var h := HEADER + v + "\n";
    PrefixChars(s, i, h);
    assert s[i..][..5] == h[..5];
    forall m | i + 5 <= m < i + 5 + |v|
      ensures IsVersionChar(s[m])
    {
      assert s[m] == h[m - i] == v[m - i - 5];
    }
    assert s[i + 5 + |v|] == h[5 + |v|] == '\n';
    RunLengthExact(s, i + 5, |v|);
    assert s[i + 5..i + 5 + |v|] == h[5..5 + |v|] == v;
  }

  /** Whenever the text at `i` reads `### v`, a valid version and a newline, that header is found. */
  lemma HeaderAtComplete(s: string, i: nat, v: string)
    requires i <= |s|
    requires ValidVersion(v) && forall m :: 0 <= m < |v| ==> IsVersionChar(v[m])
    requires StartsWith(s[i..], HEADER + v + "\n")
    ensures HeaderAt(s, i) == Some((v, i + |v| + 6))
  {
    HeaderChars(s, i, v);
  }

  /** A header with a single version component, such as `### v1`, is not a header. */
  lemma SingleComponentIgnored(s: string, i: nat, digits: string)
    requires i <= |s| && |digits| > 0 && AllDigits(digits)
    requires StartsWith(s[i..], HEADER + digits + "\n")
    ensures HeaderAt(s, i).None?
  {
    assert '.' !in digits by {
      forall m | 0 <= m < |digits| ensures digits[m] != '.' {
        assert IsDigit(digits[m]);
      }
    }
    HeaderChars(s, i, digits);
    assert Split(digits, '.') == [digits];
  }

  /** The lazy body: from `j` up to the first `\n### `, or to the end of the text. */
  function BodyEnd(s: string, j: nat): (k: nat)
    requires j <= |s|
    ensures j <= k <= |s|
    ensures k == |s| || StartsWith(s[k..], NEXT_HEADER)
    ensures forall m :: j <= m < k ==> !StartsWith(s[m..], NEXT_HEADER)
    decreases |s| - j
  {
    if j == |s| || StartsWith(s[j..], NEXT_HEADER) then j else BodyEnd(s, j + 1)
  }

  /** One match: the version text and the body text. */
  datatype Entry = Entry(version: string, body: string)

  /** `re.findall` from index `pos`: a failed match moves on one character, a match resumes where its body ends. */
  function FindAll(s: string, pos: nat): (es: seq<Entry>)
    requires pos <= |s|
    ensures forall e :: e in es ==> ValidVersion(e.version)
    decreases |s| - pos
  {
    if pos == |s| then []
    else match HeaderAt(s, pos)
      case None => FindAll(s, pos + 1)
      case Some((v, j)) =>
        var k := BodyEnd(s, j);
        [Entry(v, s[j..k])] + FindAll(s, k)
  }

  /** No body runs into the next entry: none contains `\n### `. */
  lemma {:induction false} BodiesStopAtNextHeader(s: string, pos: nat)
    requires pos <= |s|
    ensures forall e :: e in FindAll(s, pos) ==> !Contains(e.body, NEXT_HEADER)
    decreases |s| - pos
  {
    if pos < |s| {
      match HeaderAt(s, pos)
      case None => BodiesStopAtNextHeader(s, pos + 1);
      case Some((v, j)) =>
        BodiesStopAtNextHeader(s, BodyEnd(s, j));
        BodyHasNoHeader(s, j);
    }
  }

  /** The text from `j` to its body end holds no `\n### `. */
  lemma BodyHasNoHeader(s: string, j: nat)
    requires j <= |s|
    ensures !Contains(s[j..BodyEnd(s, j)], NEXT_HEADER)
  {
    var b := s[j..BodyEnd(s, j)];
    forall m: nat | m <= |b|
      ensures !MatchAt(b, NEXT_HEADER, m)
    {
      if m + 5 <= |b| {
        assert b[m..m + 5] == s[j + m..][..5];
      }
    }
  }

  // ---------------------------------------------------------- version order

  /** `map(int, parts)`. */
  function Numbers(parts: seq<string>): (t: seq<nat>)
    requires forall k :: 0 <= k < |parts| ==> AllDigits(parts[k])
    ensures |t| == |parts|
  {
    if |parts| == 0 then [] else [DecimalValue(parts[0])] + Numbers(parts[1..])
  }

  /** `tuple(map(int, v.split('.')))`. */
  function VersionTuple(v: string): (t: seq<nat>)
    requires ValidVersion(v)
    ensures |t| >= 2
  {
    Numbers(Split(v, '.'))
  }

  /** Python's tuple `<`: the first differing component decides; a proper prefix is smaller. */
  predicate Less(a: seq<nat>, b: seq<nat>)
    decreases |a|
  {
    if |a| == 0 then |b| > 0
    else if |b| == 0 then false
    else a[0] < b[0] || (a[0] == b[0] && Less(a[1..], b[1..]))
  }

  lemma {:induction false} LessIrreflexive(a: seq<nat>)
    ensures !Less(a, a)
    decreases |a|
  {
    if |a| > 0 { LessIrreflexive(a[1..]); }
  }

  lemma {:induction false} LessTransitive(a: seq<nat>, b: seq<nat>, c: seq<nat>)
    requires Less(a, b) && Less(b, c)
    ensures Less(a, c)
    decreases |a|
  {
    if |a| > 0 && |b| > 0 && |c| > 0 && a[0] == b[0] == c[0] {
      LessTransitive(a[1..], b[1..], c[1..]);
    }
  }

  lemma {:induction false} LessTotal(a: seq<nat>, b: seq<nat>)
    ensures a == b || Less(a, b) || Less(b, a)
    decreases |a|
  {
    if |a| > 0 && |b| > 0 && a[0] == b[0] {
      LessTotal(a[1..], b[1..]);
      if a[1..] == b[1..] {
        assert a == [a[0]] + a[1..] && b == [b[0]] + b[1..];
      }
    }
  }

  /** `v1.10.0` is later than `v1.9.9`, and `(1, 2)` comes before `(1, 2, 0)`. */
  lemma VersionOrderExamples()
    ensures Less([1, 9, 9], [1, 10, 0])
    ensures Less([1, 2], [1, 2, 0])
  {
    assert [1, 2][1..] == [2];
    assert [1, 2, 0][1..] == [2, 0];
    assert [2][1..] == [];
    assert [2, 0][1..] == [0];
  }

  /** A three-component version reads as the three numbers. */
  lemma ThreeComponents(v: string, a: string, b: string, c: string)
    requires Split(v, '.') == [a, b, c]
    requires |a| > 0 && |b| > 0 && |c| > 0 && AllDigits(a) && AllDigits(b) && AllDigits(c)
    ensures ValidVersion(v) && VersionTuple(v) == [DecimalValue(a), DecimalValue(b), DecimalValue(c)]
  {
    var parts := Split(v, '.');
    forall k | 0 <= k < |parts|
      ensures |parts[k]| > 0 && AllDigits(parts[k])
    {
      if k == 0 { assert parts[k] == a; } else if k == 1 { assert parts[k] == b; } else { assert parts[k] == c; }
    }
    assert ValidVersion(v);
    NumbersThree(a, b, c);
    assert VersionTuple(v) == Numbers([a, b, c]);
  }

  lemma NumbersThree(a: string, b: string, c: string)
    requires AllDigits(a) && AllDigits(b) && AllDigits(c)
    ensures Numbers([a, b, c]) == [DecimalValue(a), DecimalValue(b), DecimalValue(c)]
  {
    assert [a, b, c][1..] == [b, c];
    assert [b, c][1..] == [c];
    assert [c][1..] == [];
    assert Numbers([c]) == [DecimalValue(c)];
    assert Numbers([b, c]) == [DecimalValue(b), DecimalValue(c)];
  }

  lemma SplitTen()
    ensures Split("1.10.0", '.') == ["1", "10", "0"]
  {
    var parts := ["1", "10", "0"];
    assert Join(parts[2..], '.') == "0";
    assert Join(parts[1..], '.') == "10" + "." + "0";
    assert Join(parts, '.') == "1.10.0";
    SplitJoin(parts, '.');
  }

  lemma SplitNine()
    ensures Split("1.9.9", '.') == ["1", "9", "9"]
  {
    var parts := ["1", "9", "9"];
    assert Join(parts[2..], '.') == "9";
    assert Join(parts[1..], '.') == "9" + "." + "9";
    assert Join(parts, '.') == "1.9.9";
    SplitJoin(parts, '.');
  }

  lemma TupleTen()
    ensures ValidVersion("1.10.0") && VersionTuple("1.10.0") == [1, 10, 0]
  {
    assert DecimalValue("1") == 1 && DecimalValue("10") == 10 && DecimalValue("0") == 0 by {
      OneDigit("1");
      OneDigit("0");
      assert "10"[..1] == "1";
    }
    SplitTen();
    ThreeComponents("1.10.0", "1", "10", "0");
  }

  lemma TupleNine()
    ensures ValidVersion("1.9.9") && VersionTuple("1.9.9") == [1, 9, 9]
  {
    assert DecimalValue("1") == 1 && DecimalValue("9") == 9 by {
      OneDigit("1");
      OneDigit("9");
    }
    SplitNine();
    ThreeComponents("1.9.9", "1", "9", "9");
  }

  lemma OneDigit(s: string)
    requires |s| == 1 && AllDigits(s)
    ensures DecimalValue(s) == s[0] as int - '0' as int
  {
    assert s[..0] == "";
  }

  /** `v1.10.0` reads as `(1, 10, 0)` and `v1.9.9` as `(1, 9, 9)`, so the former is the later release. */
  lemma TenBeatsNine()
    ensures ValidVersion("1.10.0") && ValidVersion("1.9.9")
    ensures Less(VersionTuple("1.9.9"), VersionTuple("1.10.0"))
  {
    TupleTen();
    TupleNine();
    VersionOrderExamples();
  }

  /** Entry `i` is what `max` returns: no entry is later, and every entry before it is earlier. */
  predicate IsLatest(es: seq<Entry>, i: nat)
    requires forall e :: e in es ==> ValidVersion(e.version)
  {
    && i < |es|
    && (forall j :: 0 <= j < |es| ==> !Less(VersionTuple(es[i].version), VersionTuple(es[j].version)))
    && (forall j :: 0 <= j < i ==> Less(VersionTuple(es[j].version), VersionTuple(es[i].version)))
  }

  /** The version tuples of the entries, in order. */
  function Tuples(es: seq<Entry>): (ts: seq<seq<nat>>)
    requires forall e :: e in es ==> ValidVersion(e.version)
    ensures |ts| == |es|
    ensures forall j :: 0 <= j < |es| ==> ts[j] == VersionTuple(es[j].version)
  {
    if |es| == 0 then [] else [VersionTuple(es[0].version)] + Tuples(es[1..])
  }

  /** Among `ts[..k]`, `best` is not exceeded and is the first such index. */
  predicate FirstMaxSoFar(ts: seq<seq<nat>>, best: nat, k: nat) {
    && best < k <= |ts|
    && (forall j :: 0 <= j < k ==> !Less(ts[best], ts[j]))
    && (forall j :: 0 <= j < best ==> Less(ts[j], ts[best]))
  }

  /** A candidate that exceeds the best so far exceeds everything before it. */
  lemma {:induction false} NewBest(ts: seq<seq<nat>>, best: nat, k: nat)
    requires FirstMaxSoFar(ts, best, k) && k < |ts| && Less(ts[best], ts[k])
    ensures FirstMaxSoFar(ts, k, k + 1)
  {
    var top, cand := ts[best], ts[k];
    forall j | 0 <= j < k
      ensures Less(ts[j], cand)
    {
      LessTotal(ts[j], top);
      if ts[j] != top { LessTransitive(ts[j], top, cand); }
    }
    forall j | 0 <= j < k + 1
      ensures !Less(cand, ts[j])
    {
      if j == k { LessIrreflexive(cand); }
      else if Less(cand, ts[j]) { LessTransitive(cand, ts[j], cand); LessIrreflexive(cand); }
    }
  }

  /** A candidate that does not exceed the best so far leaves it in place. */
  lemma KeepBest(ts: seq<seq<nat>>, best: nat, k: nat)
    requires FirstMaxSoFar(ts, best, k) && k < |ts| && !Less(ts[best], ts[k])
    ensures FirstMaxSoFar(ts, best, k + 1)
  {
  }

  /**
    `max(entries, key=VersionTuple)`: the index of the first entry whose version
    no other entry exceeds.
   */
  method LatestIndex(es: seq<Entry>) returns (best: nat)
    requires |es| > 0
    requires forall e :: e in es ==> ValidVersion(e.version)
    ensures IsLatest(es, best)
  {
    var ts := Tuples(es);
    best := 0;
    var k := 1;
    LessIrreflexive(ts[0]);
    while k < |es|
      invariant FirstMaxSoFar(ts, best, k)
    {
      if Less(ts[best], ts[k]) {
        NewBest(ts, best, k);
        best := k;
      } else {
        KeepBest(ts, best, k);
      }
      k := k + 1;
    }
    FirstMaxIsLatest(es, best);
  }

  lemma FirstMaxIsLatest(es: seq<Entry>, best: nat)
    requires forall e :: e in es ==> ValidVersion(e.version)
    requires FirstMaxSoFar(Tuples(es), best, |es|)
    ensures IsLatest(es, best)
  {
    var ts := Tuples(es);
    assert forall j :: 0 <= j < |es| ==> ts[j] == VersionTuple(es[j].version);
  }

  /** The text written to `result.txt`: the latest entry's body, or "" when no header matches. */
  method ReleaseNotes(changelog: string) returns (notes: string)
    ensures FindAll(changelog, 0) == [] ==> notes == ""
    ensures FindAll(changelog, 0) != [] ==>
      exists i: nat :: IsLatest(FindAll(changelog, 0), i) && notes == FindAll(changelog, 0)[i].body
  {
    var es := FindAll(changelog, 0);
    if |es| == 0 {
      return "";
    }
    var best := LatestIndex(es);
    return es[best].body;
  }
}

=== FILE: settings.dfy ===
/**
  `src/manager/settingManager.ts`: the default settings, the migration of the
  legacy `settings.json`, the `@version` stamp, the SELECT/SWITCH type check and
  the final overlay of the loaded values on the defaults. Settings objects are
  maps from key to scalar value; a key missing from the map reads as
  `undefined`.
 */
module Settings {
  import opened Js
  import opened Text
  import Registry
  import CommonCheck

  type Settings = map<string, Value>

  const IMAGE_EDITOR: string := "imageEditor"
  const COMPATIBILITY_MODE: string := "compatibilityMode"
  const VERSION_KEY: string := "@version"
  const IMMEDIATELY_UPDATE: string := "immediatelyUpdate"

  /** `defaultSetting`. */
  const DEFAULTS: Settings := map[
    IMAGE_EDITOR := Str(Registry.TUI),
    "saveType" := Str("local"),
    "localEditorPath" := Str(""),
    "localEditorArgs" := Str(""),
    "localEditorWaitingDialog" := Bool(false),
    COMPATIBILITY_MODE := Bool(true)
  ]

  /** The version `loadSettings` stamps on older or unversioned settings. */
  const CURRENT_VERSION: int := 20241219

  /** What `loadData` hands back: nothing, an empty string, or a parsed JSON object. */
  datatype Loaded = Nullish | Blank | Record(fields: Settings)

  // ---------------------------------------------------------------- file name

  /** `getSettingFileName()`, with `None` for a null or undefined system id. */
  function SettingFileName(systemId: Option<string>): (name: string)
    ensures StartsWith(name, "settings_")
    ensures |name| == |"settings_"| + |IdOrMain(systemId)| + |".json"|
    ensures name[|"settings_"|..|name| - |".json"|] == IdOrMain(systemId)
    ensures name[|name| - |".json"|..] == ".json"
  {
    "settings_" + IdOrMain(systemId) + ".json"
  }

  function IdOrMain(systemId: Option<string>): string {
    if systemId.Some? then systemId.value else "main"
  }

  /**
    Two systems share a settings file exactly when their ids agree, counting a
    missing id as `"main"`.
   */
  lemma SettingFileNameInjective(a: Option<string>, b: Option<string>)
    ensures SettingFileName(a) == SettingFileName(b) <==> IdOrMain(a) == IdOrMain(b)
  {
    var x, y := IdOrMain(a), IdOrMain(b);
    if SettingFileName(a) == SettingFileName(b) {
      assert |x| == |y|;
      assert x == SettingFileName(a)[9..9 + |x|];
      assert y == SettingFileName(b)[9..9 + |y|];
    }
  }

  /** A machine whose id is the literal `main` shares its file with one that has no id. */
  lemma MainIdCollides()
    ensures SettingFileName(Some("main")) == SettingFileName(None) == "settings_main.json"
  {
  }

  // -------------------------------------------------------- legacy migration

  /**
    `transferOldSetting()` as written. Null or blank legacy data gives null, and
    legacy data with an own `toString` key throws at `oldSettings == ""`. The
    filter `key in defaultSetting` also holds for every key `Object.prototype`
    provides, so legacy keys such as `constructor` survive the migration.
   */
  function TransferOldSettingAsWritten(legacy: Loaded): (r: Result<Option<Settings>, CommonCheck.TypeError>)
    ensures r.Throws? <==> legacy.Record? && LooseEqualsStringThrows(legacy.fields.Keys)
    ensures r.Throws? ==> r.error == CommonCheck.CannotConvertToPrimitive
    ensures r == Ok(None) <==> !legacy.Record?
    ensures r.Ok? && r.value.Some? ==>
      r.value.value.Keys == DEFAULTS.Keys + (legacy.fields.Keys * OBJECT_PROTOTYPE_MEMBERS)
    ensures r.Ok? && r.value.Some? ==> forall k :: k in r.value.value ==>
      r.value.value[k] == (if k in legacy.fields then legacy.fields[k] else DEFAULTS[k])
  {
    match legacy
    case Record(m) =>
      if LooseEqualsStringThrows(m.Keys) then Throws(CommonCheck.CannotConvertToPrimitive)
      else
        var kept := map k | k in m && InObject(DEFAULTS.Keys, k) :: m[k];
        Ok(Some(DEFAULTS + kept))
    case _ => Ok(None)
  }

  /** A legacy file holding only `constructor` keeps it through the as-written migration. */
  lemma PrototypeKeySurvives()
    ensures var r := TransferOldSettingAsWritten(Record(map["constructor" := Num(1)]));
      r.Ok? && r.value.Some? && "constructor" in r.value.value && r.value.value.Keys != DEFAULTS.Keys
  {
    var r := TransferOldSettingAsWritten(Record(map["constructor" := Num(1)]));
    assert !LooseEqualsStringThrows(map["constructor" := Num(1)].Keys);
    assert "constructor" in r.value.value;
    assert "constructor" !in DEFAULTS.Keys;
  }

  /**
    `transferOldSetting()`, keeping only the keys `defaultSetting` itself
    declares. Null or blank legacy data gives null, and an own `toString` key
    still throws at the comparison. Otherwise the result has exactly the
    default keys, a legacy value wins wherever one exists, and the default
    fills every other key.
   */
  function TransferOldSetting(legacy: Loaded): (r: Result<Option<Settings>, CommonCheck.TypeError>)
    ensures r.Throws? <==> legacy.Record? && LooseEqualsStringThrows(legacy.fields.Keys)
    ensures r.Throws? ==> r.error == CommonCheck.CannotConvertToPrimitive
    ensures r == Ok(None) <==> !legacy.Record?
    ensures r.Ok? && r.value.Some? ==> r.value.value.Keys == DEFAULTS.Keys
    ensures r.Ok? && r.value.Some? ==> forall k :: k in DEFAULTS ==>
      r.value.value[k] == (if k in legacy.fields then legacy.fields[k] else DEFAULTS[k])
  {
    match legacy
    case Record(m) =>
      if LooseEqualsStringThrows(m.Keys) then Throws(CommonCheck.CannotConvertToPrimitive)
      else
        var kept := map k | k in m && k in DEFAULTS :: m[k];
        Ok(Some(DEFAULTS + kept))
    case _ => Ok(None)
  }

  /** The two filters agree on every legacy file that names no inherited member. */
  lemma TransferAgreesWithoutPrototypeKeys(legacy: Loaded)
    requires legacy.Record? ==> legacy.fields.Keys !! OBJECT_PROTOTYPE_MEMBERS
    ensures TransferOldSettingAsWritten(legacy) == TransferOldSetting(legacy)
  {
    if legacy.Record? {
      var m := legacy.fields;
      assert "toString" in OBJECT_PROTOTYPE_MEMBERS;
      var a := map k | k in m && InObject(DEFAULTS.Keys, k) :: m[k];
      var b := map k | k in m && k in DEFAULTS :: m[k];
      assert a == b;
    }
  }

  // ---------------------------------------------------------- version stamp

  /**
    `loadResult["@version"] < 20241219` under JavaScript's comparison with a
    number: `true` compares as 1, `null` as 0, a string of decimal digits by its
    value, and `undefined` or any other string as NaN, which is never less.
   */
  predicate BelowCurrent(v: Value) {
    match v
    case Undefined => false
    case Null => 0 < CURRENT_VERSION
    case Bool(b) => (if b then 1 else 0) < CURRENT_VERSION
    case Num(n) => n < CURRENT_VERSION
    case Str(s) => s != "" && AllDigits(s) && DecimalValue(s) < CURRENT_VERSION
  }

  predicate Outdated(m: Settings) {
    !Truthy(Lookup(m, VERSION_KEY)) || BelowCurrent(Lookup(m, VERSION_KEY))
  }

  /**
    The `@version` stamp of `loadSettings`. Outdated settings get the current
    version, and also `immediatelyUpdate = false` when the host lacks
    `getAllEditor`; anything else is left alone. (The list of keys checked for
    outdated values is empty, so no warning dialog ever opens.)
   */
  function StampVersion(m: Settings, hostHasGetAllEditor: bool): (r: Settings)
    ensures !Outdated(r)
    ensures Outdated(m) ==> r[VERSION_KEY] == Num(CURRENT_VERSION)
    ensures !Outdated(m) ==> r == m
    ensures r.Keys == m.Keys + (if Outdated(m) then {VERSION_KEY} else {})
      + (if Outdated(m) && !hostHasGetAllEditor then {IMMEDIATELY_UPDATE} else {})
    ensures forall k :: k in m && k != VERSION_KEY && k != IMMEDIATELY_UPDATE ==> r[k] == m[k]
  {
    if Outdated(m) then
      var stamped := m[VERSION_KEY := Num(CURRENT_VERSION)];
      if hostHasGetAllEditor then stamped else stamped[IMMEDIATELY_UPDATE := Bool(false)]
    else m
  }

  /** Stamping twice is stamping once. */
  lemma StampVersionIdempotent(m: Settings, host: bool)
    ensures StampVersion(StampVersion(m, host), host) == StampVersion(m, host)
  {
  }

  /** A newer version than the current one is kept as it is. */
  lemma NewerVersionKept(m: Settings, host: bool, n: int)
    requires Lookup(m, VERSION_KEY) == Num(n) && n >= CURRENT_VERSION
    ensures StampVersion(m, host) == m
  {
  }

  // --------------------------------------------------------------- type check

  /** The `SELECT` rule: a value outside the options becomes the default. */
  function CoerceSelect(v: Value, options: seq<string>, default: Value): (r: Value)
    ensures v.Str? && v.s in options ==> r == v
    ensures !(v.Str? && v.s in options) ==> r == default
  {
    if v.Str? && v.s in options then v else default
  }

  /** The `SWITCH` rule: `undefined` or `null` (loose `== undefined`) becomes the default. */
  function CoerceSwitch(v: Value, default: Value): (r: Value)
    ensures !IsNullish(v) ==> r == v
    ensures IsNullish(v) ==> r == default
  {
    if v == Undefined || v == Null then default else v
  }

  /**
    `checkSettingType(input)` over the properties `initSettingProperty`
    registers: `imageEditor` is a SELECT over the editor keys and
    `compatibilityMode` a SWITCH; the TIPS, PATH, TEXT and TEXTAREA entries are
    not checked. Both checked keys end up present; every other key is untouched.
   */
  function CheckSettingType(input: Settings): (r: Settings)
    ensures IMAGE_EDITOR in r && r[IMAGE_EDITOR].Str? && r[IMAGE_EDITOR].s in Registry.IMAGE_EDITOR_KEYS
    ensures COMPATIBILITY_MODE in r && !IsNullish(r[COMPATIBILITY_MODE])
    ensures r.Keys == input.Keys + {IMAGE_EDITOR, COMPATIBILITY_MODE}
    ensures forall k :: k in input && k != IMAGE_EDITOR && k != COMPATIBILITY_MODE ==> r[k] == input[k]
    ensures forall k :: (k in input && (k == IMAGE_EDITOR || k == COMPATIBILITY_MODE) && r[k] != input[k]
      ==> r[k] == DEFAULTS[k])
  {
    var e := CoerceSelect(Lookup(input, IMAGE_EDITOR), Registry.IMAGE_EDITOR_KEYS, DEFAULTS[IMAGE_EDITOR]);
    var c := CoerceSwitch(Lookup(input, COMPATIBILITY_MODE), DEFAULTS[COMPATIBILITY_MODE]);
    input[IMAGE_EDITOR := e][COMPATIBILITY_MODE := c]
  }

  /** The default editor is among the options, so checking twice changes nothing more. */
  lemma CheckSettingTypeIdempotent(input: Settings)
    ensures CheckSettingType(CheckSettingType(input)) == CheckSettingType(input)
  {
  }

  /** The defaults pass the check unchanged. */
  lemma DefaultsPassCheck()
    ensures CheckSettingType(DEFAULTS) == DEFAULTS
  {
    assert DEFAULTS[IMAGE_EDITOR] == Str(Registry.IMAGE_EDITOR_KEYS[1]);
  }

  // -------------------------------------------------------------------- load

  /**
    The outcome of `loadSettings`: the settings it installs, and the object
    `defaultSetting` afterwards. When neither file holds data, `loadResult` is
    `defaultSetting` itself, and the stamp writes into it.
   */
  datatype LoadOutcome = LoadOutcome(settings: Settings, defaults: Settings)

  /**
    `loadSettings()` over what the two `loadData` calls return: the current
    file, else the migrated legacy file, else the defaults; then the stamp, the
    type check, and the defaults overlaid by the result. The load rejects when
    the object it compares with `""` has an own `toString`: the current file at
    the first test, or the legacy file inside the migration.
   */
  function LoadSettings(current: Loaded, legacy: Loaded, hostHasGetAllEditor: bool)
    : (o: Result<LoadOutcome, CommonCheck.TypeError>)
    ensures o.Throws? <==> ((current.Record? && LooseEqualsStringThrows(current.fields.Keys))
      || (!current.Record? && legacy.Record? && LooseEqualsStringThrows(legacy.fields.Keys)))
    ensures o.Throws? ==> o.error == CommonCheck.CannotConvertToPrimitive
    ensures o.Ok? ==> !LooseEqualsStringThrows(o.value.settings.Keys)
    ensures o.Ok? ==> DEFAULTS.Keys <= o.value.settings.Keys
    ensures o.Ok? ==> VERSION_KEY in o.value.settings && !Outdated(o.value.settings)
    ensures o.Ok? ==> o.value.settings[IMAGE_EDITOR].Str? && o.value.settings[IMAGE_EDITOR].s in Registry.IMAGE_EDITOR_KEYS
    ensures o.Ok? ==> !IsNullish(o.value.settings[COMPATIBILITY_MODE])
    ensures o.Ok? && current.Record? ==> current.fields.Keys <= o.value.settings.Keys
    ensures o.Ok? && current.Record? ==> forall k :: (k in current.fields && k != VERSION_KEY
      && k != IMMEDIATELY_UPDATE && k != IMAGE_EDITOR && k != COMPATIBILITY_MODE
      ==> k in o.value.settings && o.value.settings[k] == current.fields[k])
    ensures o.Ok? ==> (o.value.defaults != DEFAULTS <==> !current.Record? && !legacy.Record?)
    ensures o.Ok? && !current.Record? && legacy.Record? ==>
      o.value.settings.Keys == MigratedKeys(legacy.fields, hostHasGetAllEditor)
    ensures o.Ok? && current.Record? ==> forall k :: k in DEFAULTS && k !in current.fields ==>
      o.value.settings[k] == DEFAULTS[k]
    ensures o.Ok? && !current.Record? && legacy.Record? ==>
      forall k :: k in DEFAULTS && k != IMAGE_EDITOR && k != COMPATIBILITY_MODE ==>
        o.value.settings[k] == (if k in legacy.fields then legacy.fields[k] else DEFAULTS[k])
  {
    match ChooseLoaded(current, legacy)
    case Throws(e) => Throws(e)
    case Ok(loaded) => Ok(Install(loaded, current, legacy, hostHasGetAllEditor))
  }

  /**
    The object `loadSettings` goes on with: the current file, else the migrated
    legacy file, else `defaultSetting` itself. Comparing the current file with
    `""`, and the legacy one inside the migration, throws on an own `toString`.
   */
  function ChooseLoaded(current: Loaded, legacy: Loaded): (r: Result<Settings, CommonCheck.TypeError>)
    ensures r.Throws? <==> ((current.Record? && LooseEqualsStringThrows(current.fields.Keys))
      || (!current.Record? && legacy.Record? && LooseEqualsStringThrows(legacy.fields.Keys)))
    ensures r.Throws? ==> r.error == CommonCheck.CannotConvertToPrimitive
    ensures r.Ok? && current.Record? ==> r.value == current.fields
    ensures r.Ok? && !current.Record? && legacy.Record? ==> Ok(Some(r.value)) == TransferOldSettingAsWritten(legacy)
    ensures r.Ok? && !current.Record? && !legacy.Record? ==> r.value == DEFAULTS
  {
    if current.Record? then
      if LooseEqualsStringThrows(current.fields.Keys) then Throws(CommonCheck.CannotConvertToPrimitive)
      else Ok(current.fields)
    else
      match TransferOldSettingAsWritten(legacy)
      case Throws(e) => Throws(e)
      case Ok(Some(t)) => Ok(t)
      case Ok(None) => Ok(DEFAULTS)
  }

  /**
    The part of `loadSettings` after the file has been chosen: the stamp, the
    type check and the overlay on the defaults. `loaded` is the defaults object
    itself exactly when neither file holds data.
   */
  function Install(loaded: Settings, current: Loaded, legacy: Loaded, hostHasGetAllEditor: bool): (o: LoadOutcome)
    requires current.Record? ==> loaded == current.fields && !LooseEqualsStringThrows(loaded.Keys)
    requires !current.Record? && legacy.Record? ==>
      && !LooseEqualsStringThrows(legacy.fields.Keys)
      && loaded.Keys == DEFAULTS.Keys + (legacy.fields.Keys * OBJECT_PROTOTYPE_MEMBERS)
      && forall k :: k in loaded ==> loaded[k] == (if k in legacy.fields then legacy.fields[k] else DEFAULTS[k])
    requires !current.Record? && !legacy.Record? ==> loaded == DEFAULTS
    ensures !LooseEqualsStringThrows(o.settings.Keys)
    ensures DEFAULTS.Keys <= o.settings.Keys
    ensures VERSION_KEY in o.settings && !Outdated(o.settings)
    ensures o.settings[IMAGE_EDITOR].Str? && o.settings[IMAGE_EDITOR].s in Registry.IMAGE_EDITOR_KEYS
    ensures !IsNullish(o.settings[COMPATIBILITY_MODE])
    ensures current.Record? ==> current.fields.Keys <= o.settings.Keys
    ensures current.Record? ==> forall k :: (k in current.fields && k != VERSION_KEY
      && k != IMMEDIATELY_UPDATE && k != IMAGE_EDITOR && k != COMPATIBILITY_MODE
      ==> k in o.settings && o.settings[k] == current.fields[k])
    ensures o.defaults != DEFAULTS <==> !current.Record? && !legacy.Record?
    ensures !current.Record? && legacy.Record? ==>
      o.settings.Keys == MigratedKeys(legacy.fields, hostHasGetAllEditor)
    ensures current.Record? ==> forall k :: k in DEFAULTS && k !in current.fields ==> o.settings[k] == DEFAULTS[k]
    ensures !current.Record? && legacy.Record? ==> forall k :: k in DEFAULTS && k != IMAGE_EDITOR && k != COMPATIBILITY_MODE ==>
      o.settings[k] == (if k in legacy.fields then legacy.fields[k] else DEFAULTS[k])
  {
    var checked := CheckSettingType(StampVersion(loaded, hostHasGetAllEditor));
    var settings := Overlay(loaded, hostHasGetAllEditor);
    var aliased := !current.Record? && !legacy.Record?;
    DefaultKeysApart();
    assert VERSION_KEY in checked;
    assert "toString" !in loaded;
    assert !current.Record? && legacy.Record? ==> settings.Keys == MigratedKeys(legacy.fields, hostHasGetAllEditor) by {
      if !current.Record? && legacy.Record? {
        MigrationKeys(loaded, legacy.fields, hostHasGetAllEditor);
      }
    }
    assert !current.Record? && legacy.Record? ==> forall k :: k in DEFAULTS && k != IMAGE_EDITOR && k != COMPATIBILITY_MODE ==>
      settings[k] == (if k in legacy.fields then legacy.fields[k] else DEFAULTS[k]) by {
      if !current.Record? && legacy.Record? {
        MigratedValues(loaded, legacy.fields, hostHasGetAllEditor);
      }
    }
    LoadOutcome(settings, if aliased then checked else DEFAULTS)
  }

  /** The two checked keys are default keys; the keys the stamp writes, and `toString`, are not. */
  lemma DefaultKeysApart()
    ensures IMAGE_EDITOR in DEFAULTS && COMPATIBILITY_MODE in DEFAULTS
    ensures VERSION_KEY !in DEFAULTS && IMMEDIATELY_UPDATE !in DEFAULTS && "toString" !in DEFAULTS
  {
  }

  /** A migrated default key takes the legacy value where there is one, and the default otherwise. */
  lemma MigratedValues(loaded: Settings, legacy: Settings, host: bool)
    requires DEFAULTS.Keys <= loaded.Keys
    requires forall k :: k in DEFAULTS ==> loaded[k] == (if k in legacy then legacy[k] else DEFAULTS[k])
    ensures forall k :: k in DEFAULTS && k != IMAGE_EDITOR && k != COMPATIBILITY_MODE ==>
      Overlay(loaded, host)[k] == (if k in legacy then legacy[k] else DEFAULTS[k])
  {
    var s := Overlay(loaded, host);
    DefaultKeysApart();
    forall k | k in DEFAULTS && k != IMAGE_EDITOR && k != COMPATIBILITY_MODE
      ensures s[k] == (if k in legacy then legacy[k] else DEFAULTS[k])
    {
      assert s[k] == loaded[k];
    }
  }

  /**
    The end of `loadSettings`: the stamp, the type check, and the checked
    settings laid over a copy of the defaults. The result holds the default
    keys and the loaded ones, and at most the four keys the stamp and the check
    write besides. The version is current and both checked keys are valid. A
    loaded key the stamp and the check leave alone keeps its loaded value, and
    a default key the loaded settings lack takes the default value.
   */
  function Overlay(loaded: Settings, host: bool): (s: Settings)
    ensures DEFAULTS.Keys + loaded.Keys <= s.Keys
    ensures s.Keys <= DEFAULTS.Keys + loaded.Keys + {VERSION_KEY, IMMEDIATELY_UPDATE, IMAGE_EDITOR, COMPATIBILITY_MODE}
    ensures VERSION_KEY in s && !Outdated(s)
    ensures s[IMAGE_EDITOR].Str? && s[IMAGE_EDITOR].s in Registry.IMAGE_EDITOR_KEYS
    ensures !IsNullish(s[COMPATIBILITY_MODE])
    ensures forall k :: (k in loaded && k != VERSION_KEY && k != IMMEDIATELY_UPDATE && k != IMAGE_EDITOR
      && k != COMPATIBILITY_MODE) ==> s[k] == loaded[k]
    ensures forall k :: k in DEFAULTS && k !in loaded ==> s[k] == DEFAULTS[k]
  {
    var stamped := StampVersion(loaded, host);
    assert VERSION_KEY !in DEFAULTS && IMMEDIATELY_UPDATE !in DEFAULTS;
    forall k | k in DEFAULTS && k !in loaded
      ensures (DEFAULTS + CheckSettingType(stamped))[k] == DEFAULTS[k]
    {
      assert k !in stamped;
    }
    DEFAULTS + CheckSettingType(stamped)
  }

  /**
    The keys a migrated legacy file ends with: the default keys, the legacy keys
    that name `Object.prototype` members, the version stamp, and
    `immediatelyUpdate` when the host lacks `getAllEditor`.
   */
  function MigratedKeys(legacy: Settings, host: bool): set<string> {
    DEFAULTS.Keys + (legacy.Keys * OBJECT_PROTOTYPE_MEMBERS) + {VERSION_KEY}
      + (if host then {} else {IMMEDIATELY_UPDATE})
  }

  /** A migrated file carries no version, so it is stamped, and the check adds no key. */
  lemma MigrationKeys(t: Settings, legacy: Settings, host: bool)
    requires t.Keys == DEFAULTS.Keys + (legacy.Keys * OBJECT_PROTOTYPE_MEMBERS)
    ensures Overlay(t, host).Keys == MigratedKeys(legacy, host)
  {
    assert VERSION_KEY !in t;
    assert Outdated(t);
  }

  /**
    Of the legacy keys `defaultSetting` does not declare, apart from the two the
    stamp writes, the migration installs exactly those naming `Object.prototype`
    members, with their legacy values. A legacy file with an own `toString`
    makes the load reject instead.
   */
  lemma MigrationKeepsOnlyPrototypeKeys(legacy: Settings, host: bool, k: string)
    requires k in legacy && k !in DEFAULTS && k != VERSION_KEY && k != IMMEDIATELY_UPDATE
    ensures var o := LoadSettings(Nullish, Record(legacy), host);
      && (o.Throws? <==> "toString" in legacy)
      && (o.Ok? ==> (k in o.value.settings <==> k in OBJECT_PROTOTYPE_MEMBERS))
      && (o.Ok? && k in o.value.settings ==> o.value.settings[k] == legacy[k])
  {
    var o := LoadSettings(Nullish, Record(legacy), host);
    if o.Ok? {
      DefaultKeysApart();
      var t := ChooseLoaded(Nullish, Record(legacy)).value;
      assert o == Ok(Install(t, Nullish, Record(legacy), host));
      var s := o.value.settings;
      assert s.Keys == MigratedKeys(legacy, host);
      if k in s {
        assert k in t;
      }
    }
  }

  /** A first start, with neither file present, installs the defaults with the current version. */
  lemma FirstStart(host: bool)
    ensures var o := LoadSettings(Nullish, Nullish, host);
      && o.Ok?
      && o.value.settings == StampVersion(DEFAULTS, host)
      && o.value.settings[IMAGE_EDITOR] == Str(Registry.TUI)
      && o.value.settings[VERSION_KEY] == Num(CURRENT_VERSION)
      && o.value.defaults == o.value.settings
  {
    var s := StampVersion(DEFAULTS, host);
    DefaultKeysApart();
    DefaultsStampedPassCheck(host);
    assert DEFAULTS + s == s;
    assert LoadSettings(Nullish, Nullish, host) == Ok(Install(DEFAULTS, Nullish, Nullish, host));
  }

  lemma DefaultsStampedPassCheck(host: bool)
    ensures CheckSettingType(StampVersion(DEFAULTS, host)) == StampVersion(DEFAULTS, host)
  {
    assert DEFAULTS[IMAGE_EDITOR] == Str(Registry.IMAGE_EDITOR_KEYS[1]);
    assert StampVersion(DEFAULTS, host)[IMAGE_EDITOR] == DEFAULTS[IMAGE_EDITOR];
  }

  /**
    Loading the installed settings again, as the next start does once they have
    been saved, succeeds and installs the same settings.
   */
  lemma {:induction false} ReloadIsStable(current: Loaded, legacy: Loaded, legacy2: Loaded, host: bool)
    ensures var o := LoadSettings(current, legacy, host);
      o.Ok? ==> var o2 := LoadSettings(Record(o.value.settings), legacy2, host);
        o2.Ok? && o2.value.settings == o.value.settings
  {
    var o := LoadSettings(current, legacy, host);
    if o.Ok? {
      ReloadInstalled(o.value.settings, legacy2, host);
    }
  }

  /** Settings as a load installs them pass a further load unchanged. */
  lemma ReloadInstalled(s: Settings, legacy: Loaded, host: bool)
    requires !LooseEqualsStringThrows(s.Keys) && DEFAULTS.Keys <= s.Keys
    requires VERSION_KEY in s && !Outdated(s)
    requires s[IMAGE_EDITOR].Str? && s[IMAGE_EDITOR].s in Registry.IMAGE_EDITOR_KEYS
    requires !IsNullish(s[COMPATIBILITY_MODE])
    ensures LoadSettings(Record(s), legacy, host) == Ok(LoadOutcome(s, DEFAULTS))
  {
    assert StampVersion(s, host) == s;
    CheckedSettingsStable(s);
    assert DEFAULTS + s == s;
  }

  lemma CheckedSettingsStable(s: Settings)
    requires IMAGE_EDITOR in s && s[IMAGE_EDITOR].Str? && s[IMAGE_EDITOR].s in Registry.IMAGE_EDITOR_KEYS
    requires COMPATIBILITY_MODE in s && !IsNullish(s[COMPATIBILITY_MODE])
    ensures CheckSettingType(s) == s
  {
  }

  // ----------------------------------------------------------------- start-up

  /**
    What the plugin's start-up leaves behind: the editor registry, whether the
    event handlers were bound, and whether the load-failure message was shown.
   */
  datatype Startup = Startup(registry: Registry.State, handlersBound: bool, failureShown: bool)

  /**
    `onLayoutReady()`. `loadSettings()` ends with `changeNotify`, which calls
    `changeEditor` with the installed `imageEditor`; once it resolves, the
    handlers are bound and `initImageEditor` runs. A rejection anywhere in that
    chain shows the failure message instead of the remaining steps.
   */
  function StartPlugin(current: Loaded, legacy: Loaded, host: bool): Startup {
    match LoadSettings(current, legacy, host)
    case Throws(_) => Startup(Registry.LOADED, false, true)
    case Ok(o) =>
      var c := Registry.ChangeEditor(Registry.LOADED, o.settings[IMAGE_EDITOR].s);
      if c.threw then Startup(c.state, false, true)
      else
        var i := Registry.InitImageEditor(c.state);
        Startup(i.state, true, i.threw)
  }

  /**
    A rejected load selects no editor, initialises none, binds no handler and
    shows the failure message. A successful one selects exactly the back end
    the installed `imageEditor` names and initialises it twice: once from
    `changeEditor`, once from `initImageEditor`.
   */
  lemma LoadSelectsConfiguredEditor(current: Loaded, legacy: Loaded, host: bool)
    ensures var o := LoadSettings(current, legacy, host);
      var st := StartPlugin(current, legacy, host);
      && (o.Throws? ==> st.registry == Registry.LOADED && !st.handlersBound && st.failureShown)
      && (o.Ok? ==>
            && st.registry.current.Current?
            && Registry.KeyName(st.registry.current.editor) == o.value.settings[IMAGE_EDITOR].s
            && st.registry.calls == [Registry.Init(st.registry.current.editor), Registry.Init(st.registry.current.editor)]
            && st.handlersBound && !st.failureShown)
  {
    var o := LoadSettings(current, legacy, host);
    if o.Ok? {
      Registry.StartupSelects(o.value.settings[IMAGE_EDITOR].s);
    }
  }
}

=== FILE: storage.dfy ===
/**
  `src/storage/localStorage.ts` (with `src/manager/imageStorageHelper.ts`,
  which only forwards to it): writing an edited image, given as a base64 data
  URL, back to the workspace through the host's `putFile` endpoint. Base64
  decoding, the clock and the HTTP exchange are inputs.
 */
module LocalStorage {
  import opened Js
  import opened Text
  import EditorSession

  newtype byte = b: int | 0 <= b < 256

  /** A line terminator, which `.` in a JavaScript regular expression does not match. */
  predicate IsLineTerminator(c: char) {
    c == '\n' || c == '\r' || c == '\U{2028}' || c == '\U{2029}'
  }

  predicate NoLineTerminator(s: string) {
    forall i :: 0 <= i < |s| ==> !IsLineTerminator(s[i])
  }

  const DATA_PREFIX: string := "data:"
  const BASE64_MARK: string := ";base64,"

  /** The data URL of a MIME type and a base64 payload. */
  function DataUrl(mime: string, payload: string): string {
    DATA_PREFIX + mime + BASE64_MARK + payload
  }

  /**
    Matching `^data:([^;]+);base64,(.*)$`: the MIME type is the non-empty text
    up to the first `;`, which must open `;base64,`; the payload is the rest,
    which must hold no line terminator.
   */
  function ParseDataUrl(s: string): (r: Option<(string, string)>)
    ensures r.Some? ==> s == DataUrl(r.value.0, r.value.1)
    ensures r.Some? ==> |r.value.0| > 0 && ';' !in r.value.0 && NoLineTerminator(r.value.1)
  {
    if !StartsWith(s, DATA_PREFIX) || ';' !in s[5..] then None
    else
      var rest := s[5..];
      var k := IndexOf(rest, ';');
      var tail := rest[k..];
      if k == 0 || !StartsWith(tail, BASE64_MARK) || !NoLineTerminator(tail[8..]) then None
      else
        DataUrlPieces(s, rest, k);
        Some((rest[..k], tail[8..]))
  }

  /** Text that opens with `data:` and has `;base64,` at `k` after it is the data URL of its two pieces. */
  lemma DataUrlPieces(s: string, rest: string, k: nat)
    requires StartsWith(s, DATA_PREFIX) && rest == s[5..]
    requires k <= |rest| && StartsWith(rest[k..], BASE64_MARK)
    ensures s == DataUrl(rest[..k], rest[k..][8..])
  {
    assert s == DATA_PREFIX + rest;
    assert rest == rest[..k] + BASE64_MARK + rest[k..][8..];
  }

  /** Every well-formed data URL is recognised, with its parts given back. */
  lemma ParseDataUrlComplete(mime: string, payload: string)
    requires |mime| > 0 && ';' !in mime && NoLineTerminator(payload)
    ensures ParseDataUrl(DataUrl(mime, payload)) == Some((mime, payload))
  {
    var s := DataUrl(mime, payload);
    assert StartsWith(s, DATA_PREFIX);
    var rest := s[5..];
    assert rest == mime + BASE64_MARK + payload;
    assert rest[|mime|] == ';';
    assert rest[..|mime|] == mime;
    IndexOfUnique(rest, ';', |mime|);
    var tail := rest[|mime|..];
    assert tail == BASE64_MARK + payload;
    assert StartsWith(tail, BASE64_MARK);
    assert tail[8..] == payload;
  }

  /** Text that does not begin with `data:` is rejected. */
  lemma ParseDataUrlNeedsPrefix(s: string)
    requires !StartsWith(s, DATA_PREFIX)
    ensures ParseDataUrl(s).None?
  {
  }

  /**
    The file extension derived from the MIME type: for `image/…` the text after
    the first `/` up to the next one, after a dot; `.pdf` for `application/pdf`;
    none otherwise.
   */
  function Extension(mime: string): (ext: string)
    ensures ext == "" || ext[0] == '.'
    ensures '/' !in ext
    ensures StartsWith(mime, "image/") ==> |Split(mime, '/')| >= 2 && ext == "." + Split(mime, '/')[1]
    ensures !StartsWith(mime, "image/") ==> ext == (if mime == "application/pdf" then ".pdf" else "")
  {
    if StartsWith(mime, "image/") then
      SplitAfterPrefix(mime);
      "." + Split(mime[6..], '/')[0]
    else if mime == "application/pdf" then ".pdf"
    else ""
  }

  lemma SplitAfterPrefix(mime: string)
    requires StartsWith(mime, "image/")
    ensures |Split(mime, '/')| >= 2 && Split(mime, '/')[1] == Split(mime[6..], '/')[0]
  {
    assert mime[5] == '/';
    assert mime[..5] == "image";
    IndexOfUnique(mime, '/', 5);
  }

  /** An image type gives its subtype as the extension. */
  lemma PngExtension()
    ensures Extension("image/png") == ".png"
  {
    assert StartsWith("image/png", "image/");
    assert "image/png"[6..] == "png";
    assert '/' !in "png";
  }

  /** PDF is the one non-image type with an extension. */
  lemma PdfExtension()
    ensures Extension("application/pdf") == ".pdf"
  {
    assert "application/pdf"[..6][0] == 'a';
  }

  /** Any other type gets none. */
  lemma TextHasNoExtension()
    ensures Extension("text/plain") == ""
  {
    assert "text/plain"[..6][0] == 't';
  }

  /** `path.split('/').pop()`. */
  function LastSegment(path: string): (seg: string)
    ensures '/' !in seg
  {
    var parts := Split(path, '/');
    parts[|parts| - 1]
  }

  /**
    The uploaded file's name: the last `/`-segment of the path, or `file` when
    that is empty, with the extension appended only when the name has no dot.
   */
  function FileName(path: string, ext: string): (name: string)
    requires '/' !in ext
    ensures |name| > 0 && '/' !in name
    ensures var seg := if LastSegment(path) == "" then "file" else LastSegment(path);
      name == (if '.' !in seg && ext != "" then seg + ext else seg)
  {
    var seg := if LastSegment(path) == "" then "file" else LastSegment(path);
    if '.' !in seg && ext != "" then seg + ext else seg
  }

  /** The name is the path's final component, which keeps its own extension. */
  lemma FileNameOfPath(dir: string, name: string, ext: string)
    requires '/' !in ext && '/' !in name && |name| > 0
    ensures FileName(dir + "/" + name, ext) == (if '.' !in name && ext != "" then name + ext else name)
  {
    SplitAppendPart(dir, '/', name);
  }

  /** A path ending in `/` names no file, so the default name is used. */
  lemma FileNameOfDirectory(dir: string, ext: string)
    requires '/' !in ext
    ensures FileName(dir + "/", ext) == (if ext != "" then "file" + ext else "file")
  {
    SplitAppendPart(dir, '/', "");
    assert dir + "/" == dir + ['/'] + "";
  }

  /** `new Uint8Array(n)` filled from `charCodeAt`: each code unit truncated to 8 bits. */
  function Bytes(decoded: string): (bs: seq<byte>)
    ensures |bs| == |decoded|
    ensures forall i :: 0 <= i < |decoded| ==> bs[i] as int == decoded[i] as int % 256
  {
    if |decoded| == 0 then [] else [(decoded[0] as int % 256) as byte] + Bytes(decoded[1..])
  }

  /** The multipart form the upload posts. */
  datatype Request = Request(
    path: string,
    isDir: string,
    modTime: string,
    fileName: string,
    mime: string,
    bytes: seq<byte>,
    authorization: string)

  /** Why an upload threw before it had an answer. */
  datatype UploadError = MalformedDataUrl | InvalidBase64 | NetworkFailure

  /**
    The request `uploadFile` builds, or the error it throws first: a data URL
    of the wrong shape, or a payload `atob` rejects. `nowMs` is `Date.now()`
    and `token` the stored API token.
   */
  function BuildRequest(path: string, dataUrl: string, atob: string -> Option<string>, nowMs: nat,
                        token: Option<string>): (r: Result<Request, UploadError>)
    ensures ParseDataUrl(dataUrl).None? <==> r == Throws(MalformedDataUrl)
    ensures r == Throws(InvalidBase64) <==>
      (ParseDataUrl(dataUrl).Some? && atob(ParseDataUrl(dataUrl).value.1).None?)
    ensures r.Ok? <==> (ParseDataUrl(dataUrl).Some? && atob(ParseDataUrl(dataUrl).value.1).Some?)
    ensures r.Ok? ==> r.value.mime == ParseDataUrl(dataUrl).value.0
                      && r.value.bytes == Bytes(atob(ParseDataUrl(dataUrl).value.1).value)
    ensures r.Ok? ==> && r.value.path == path
                      && r.value.isDir == "false"
                      && AllDigits(r.value.modTime) && DecimalValue(r.value.modTime) == nowMs / 1000
                      && dataUrl == DataUrl(r.value.mime, ParseDataUrl(dataUrl).value.1)
                      && atob(ParseDataUrl(dataUrl).value.1).Some?
                      && |r.value.bytes| == |atob(ParseDataUrl(dataUrl).value.1).value|
                      && r.value.fileName == FileName(path, Extension(r.value.mime))
                      && r.value.authorization == "Token " + (if token.Some? then token.value else "")
  {
    match ParseDataUrl(dataUrl)
    case None => Throws(MalformedDataUrl)
    case Some((mime, payload)) =>
      match atob(payload)
      case None => Throws(InvalidBase64)
      case Some(decoded) =>
        DecimalOfNatToString(nowMs / 1000);
        Ok(Request(path, "false", NatToString(nowMs / 1000), FileName(path, Extension(mime)), mime,
                   Bytes(decoded), "Token " + (if token.Some? then token.value else "")))
  }

  /** The JSON answer of `putFile`. */
  datatype Reply = Reply(code: int, msg: string)

  /** What the user sees of an upload: its result, and the server's message when it refused. */
  datatype Upload = Upload(result: Result<bool, UploadError>, shownMessage: Option<string>)

  /**
    `uploadFile(path, base64)`, which `saveWithDataURL` and
    `saveImageDistributor` return unchanged. `reply` is the server's answer, or
    `None` when the request itself failed. The result is true exactly for code
    0; any other code shows the server's message and gives false without
    throwing.
   */
  function UploadFile(path: string, dataUrl: string, atob: string -> Option<string>, nowMs: nat,
                      token: Option<string>, reply: Option<Reply>): (u: Upload)
    ensures BuildRequest(path, dataUrl, atob, nowMs, token).Throws? ==>
      u == Upload(Throws(BuildRequest(path, dataUrl, atob, nowMs, token).error), None)
    ensures BuildRequest(path, dataUrl, atob, nowMs, token).Ok? ==>
      (u.result.Ok? <==> reply.Some?)
    ensures u.result.Ok? ==> (u.result.value <==> reply.value.code == 0)
    ensures u.shownMessage.Some? <==> u.result == Ok(false)
    ensures u.shownMessage.Some? ==> u.shownMessage.value == reply.value.msg
  {
    match BuildRequest(path, dataUrl, atob, nowMs, token)
    case Throws(e) => Upload(Throws(e), None)
    case Ok(_) =>
      match reply
      case None => Upload(Throws(NetworkFailure), None)
      case Some(Reply(code, msg)) =>
        if code != 0 then Upload(Ok(false), Some(msg)) else Upload(Ok(true), None)
  }

  /** How an editor's awaited save call ends for a given upload. */
  function AsSaveResult(u: Upload): (r: EditorSession.SaveResult)
    ensures r.Resolved? <==> u.result.Ok?
    ensures r.Resolved? ==> r.stored == u.result.value
  {
    match u.result
    case Ok(b) => EditorSession.Resolved(b)
    case Throws(_) => EditorSession.Rejected
  }

  /**
    A well-formed upload the server refuses with a nonzero code resolves to
    false instead of throwing: the case the tui save button treats as success.
   */
  lemma RefusalResolvesFalse(path: string, mime: string, payload: string, atob: string -> Option<string>,
                             nowMs: nat, token: Option<string>, msg: string, code: int)
    requires |mime| > 0 && ';' !in mime && NoLineTerminator(payload) && atob(payload).Some?
    requires code != 0
    ensures AsSaveResult(UploadFile(path, DataUrl(mime, payload), atob, nowMs, token, Some(Reply(code, msg))))
      == EditorSession.Resolved(false)
  {
    ParseDataUrlComplete(mime, payload);
  }
}

=== FILE: string_utils.dfy ===
/**
  `htmlTransferParser` of `src/utils/stringUtils.ts`: the partial inverse of
  `escapeHTML`, decoding five entities by global replacement in a fixed order.
 */
module StringUtils {
  import opened Js
  import opened Text
  import Common

  /** The five global replacements, `&amp;` last. */
  function DecodeChain(s: string): string {
    ReplaceAll(ReplaceAll(ReplaceAll(ReplaceAll(ReplaceAll(
      s, "&lt;", "<"), "&gt;", ">"), "&nbsp;", " "), "&quot;", "\""), "&amp;", "&")
  }

  /**
    `htmlTransferParser(inputStr)`, with `None` for `null`/`undefined`: null or
    empty input gives "", anything else the decoded text, which is never longer
    than the input because each entity becomes one character.
   */
  function HtmlTransferParser(input: Option<string>): (r: string)
    ensures input.None? || input == Some("") ==> r == ""
    ensures input.Some? ==> |r| <= |input.value|
  {
    if input.None? || input.value == "" then ""
    else
      DecodeChainShrinks(input.value);
      DecodeChain(input.value)
  }

  lemma DecodeChainShrinks(s: string)
    ensures |DecodeChain(s)| <= |s|
  {
    var s1 := ReplaceAll(s, "&lt;", "<");
    ReplaceAllShrinks(s, "&lt;", "<");
    var s2 := ReplaceAll(s1, "&gt;", ">");
    ReplaceAllShrinks(s1, "&gt;", ">");
    var s3 := ReplaceAll(s2, "&nbsp;", " ");
    ReplaceAllShrinks(s2, "&nbsp;", " ");
    var s4 := ReplaceAll(s3, "&quot;", "\"");
    ReplaceAllShrinks(s3, "&quot;", "\"");
    ReplaceAllShrinks(s4, "&amp;", "&");
  }

  /** Every decoded entity begins with `&`, so text without `&` is returned unchanged. */
  lemma HtmlTransferParserWithoutAmpersand(s: string)
    requires '&' !in s
    ensures HtmlTransferParser(Some(s)) == s
  {
    if s != "" {
      NoAmpersandNoEntity(s, "&lt;");
      ReplaceAllAbsent(s, "&lt;", "<");
      NoAmpersandNoEntity(s, "&gt;");
      ReplaceAllAbsent(s, "&gt;", ">");
      NoAmpersandNoEntity(s, "&nbsp;");
      ReplaceAllAbsent(s, "&nbsp;", " ");
      NoAmpersandNoEntity(s, "&quot;");
      ReplaceAllAbsent(s, "&quot;", "\"");
      NoAmpersandNoEntity(s, "&amp;");
      ReplaceAllAbsent(s, "&amp;", "&");
    }
  }

  lemma NoAmpersandNoEntity(s: string, p: string)
    requires '&' !in s
    requires |p| > 0 && p[0] == '&'
    ensures !Contains(s, p)
  {
    forall i: nat | i <= |s|
      ensures !MatchAt(s, p, i)
    {
      if i + |p| <= |s| {
        assert s[i..i + |p|][0] == s[i];
      }
    }
  }

  /** Entities are decoded one level only: a double-escaped `<` comes back as `&lt;`. */
  lemma DecodesOneLevel()
    ensures HtmlTransferParser(Some("&amp;lt;")) == "&lt;"
  {
    var s := "&amp;lt;";
    var s4 := ReplaceAll(ReplaceAll(ReplaceAll(ReplaceAll(s, "&lt;", "<"), "&gt;", ">"), "&nbsp;", " "), "&quot;", "\"");
    FirstFourKeepDoubleEscape(s);
    assert s4 == s;
    AmpDecodedOnce(s);
    assert DecodeChain(s) == ReplaceAll(s4, "&amp;", "&");
  }

  /** None of the first four entities occurs in `&amp;lt;`. */
  lemma FirstFourKeepDoubleEscape(s: string)
    requires s == "&amp;lt;"
    ensures ReplaceAll(ReplaceAll(ReplaceAll(ReplaceAll(s, "&lt;", "<"), "&gt;", ">"), "&nbsp;", " "), "&quot;", "\"") == s
  {
    NoEntityIn(s, "&lt;");
    ReplaceAllAbsent(s, "&lt;", "<");
    NoEntityIn(s, "&gt;");
    ReplaceAllAbsent(s, "&gt;", ">");
    NoEntityIn(s, "&nbsp;");
    ReplaceAllAbsent(s, "&nbsp;", " ");
    NoEntityIn(s, "&quot;");
    ReplaceAllAbsent(s, "&quot;", "\"");
  }

  /** The leading `&amp;` of `&amp;lt;` is decoded; the `lt;` after it is not looked at again. */
  lemma AmpDecodedOnce(s: string)
    requires s == "&amp;lt;"
    ensures ReplaceAll(s, "&amp;", "&") == "&lt;"
  {
    assert StartsWith(s, "&amp;");
    assert s[5..] == "lt;";
    NoAmpersandNoEntity("lt;", "&amp;");
    ReplaceAllAbsent("lt;", "&amp;", "&");
    assert ReplaceAll(s, "&amp;", "&") == "&" + ReplaceAll("lt;", "&amp;", "&");
  }

  /** In `&amp;lt;` only index 0 holds `&`, and no pattern other than `&amp;` matches there. */
  lemma NoEntityIn(s: string, p: string)
    requires s == "&amp;lt;"
    requires p == "&lt;" || p == "&gt;" || p == "&nbsp;" || p == "&quot;"
    ensures !Contains(s, p)
  {
    forall i: nat | i <= |s|
      ensures !MatchAt(s, p, i)
    {
      if i + |p| <= |s| {
        assert s[i..i + |p|][0] == s[i];
        if i == 0 {
          assert s[..|p|][1] == 'a';
        }
      }
    }
  }

  // ------------------------------------------------ round trip with escapeHTML

  /** A piece of escaped text: one ordinary character, or one entity. */
  predicate ValidPiece(x: string) {
    (|x| == 1 && x[0] != '&') || Common.IsEscapeEntity(x)
  }

  predicate IsDecodePattern(p: string) {
    p == "&lt;" || p == "&gt;" || p == "&nbsp;" || p == "&quot;" || p == "&amp;"
  }

  function Concat(ps: seq<string>): string {
    if |ps| == 0 then "" else ps[0] + Concat(ps[1..])
  }

  function MapPieces(ps: seq<string>, p: string, r: string): (qs: seq<string>)
    ensures |qs| == |ps|
    ensures forall i :: 0 <= i < |ps| ==> qs[i] == (if ps[i] == p then r else ps[i])
  {
    if |ps| == 0 then [] else [if ps[0] == p then r else ps[0]] + MapPieces(ps[1..], p, r)
  }

  /** The pieces `escapeHTML` emits for `s`, one per character. */
  function Pieces(s: string): (ps: seq<string>)
    ensures |ps| == |s|
    ensures forall i :: 0 <= i < |s| ==> ps[i] == Common.EscapeChar(s[i])
  {
    if |s| == 0 then [] else [Common.EscapeChar(s[0])] + Pieces(s[1..])
  }

  lemma {:induction false} ConcatPieces(s: string)
    ensures Concat(Pieces(s)) == Common.EscapeEach(s)
  {
    if |s| > 0 {
      assert Pieces(s)[1..] == Pieces(s[1..]);
      ConcatPieces(s[1..]);
    }
  }

  /** Distinct entities differ in their second character. */
  lemma EntitySecondChar(x: string, p: string)
    requires Common.IsEscapeEntity(x) && IsDecodePattern(p) && x != p
    ensures |x| >= 2 && |p| >= 2 && x[1] != p[1]
  {
  }

  /** Text that starts with an entity other than `p` does not start with `p`. */
  lemma EntityNotPrefix(x: string, p: string, rest: string)
    requires Common.IsEscapeEntity(x) && IsDecodePattern(p) && x != p
    ensures !StartsWith(x + rest, p)
  {
    EntitySecondChar(x, p);
    if |p| <= |x + rest| {
      assert (x + rest)[..|p|][1] == x[1];
    }
  }

  /** Replacement applied to one piece followed by arbitrary text. */
  lemma ReplaceHeadPiece(x: string, c: string, p: string, r: string)
    requires ValidPiece(x) && IsDecodePattern(p)
    ensures ReplaceAll(x + c, p, r) == (if x == p then r else x) + ReplaceAll(c, p, r)
  {
    if |x| == 1 && x[0] != '&' {
      ReplaceSkipsPrefix(x, c, p, r);
    } else if x == p {
      ReplaceMatchedHead(x, c, r);
    } else {
      ReplaceOtherEntityHead(x, c, p, r);
    }
  }

  lemma ReplaceMatchedHead(p: string, c: string, r: string)
    requires |p| > 0
    ensures ReplaceAll(p + c, p, r) == r + ReplaceAll(c, p, r)
  {
    assert (p + c)[..|p|] == p;
    assert (p + c)[|p|..] == c;
  }

  lemma ReplaceOtherEntityHead(x: string, c: string, p: string, r: string)
    requires Common.IsEscapeEntity(x) && IsDecodePattern(p) && x != p
    ensures ReplaceAll(x + c, p, r) == x + ReplaceAll(c, p, r)
  {
    EntityNotPrefix(x, p, c);
    EntityShape(x);
    PatternShape(p);
    ReplaceUnmatchedHead(x, c, p, r);
  }

  /** A head that does not start a match and holds the pattern's first character only at 0 is copied. */
  lemma ReplaceUnmatchedHead(x: string, c: string, p: string, r: string)
    requires |x| >= 1 && |p| >= 1 && x[0] == p[0] && p[0] !in x[1..]
    requires !StartsWith(x + c, p)
    ensures ReplaceAll(x + c, p, r) == x + ReplaceAll(c, p, r)
  {
    var xc := x + c;
    assert xc[1..] == x[1..] + c;
    assert ReplaceAll(xc, p, r) == [x[0]] + ReplaceAll(x[1..] + c, p, r);
    ReplaceSkipsPrefix(x[1..], c, p, r);
    assert x == [x[0]] + x[1..];
  }

  /** An entity opens with its only `&`. */
  lemma EntityShape(x: string)
    requires Common.IsEscapeEntity(x)
    ensures |x| >= 2 && x[0] == '&' && '&' !in x[1..]
  {
  }

  lemma PatternShape(p: string)
    requires IsDecodePattern(p)
    ensures |p| >= 2 && p[0] == '&'
  {
  }

  /** Replacing a pattern in well-formed escaped text replaces exactly the pieces equal to it. */
  lemma {:induction false} ReplaceOverPieces(ps: seq<string>, p: string, r: string)
    requires forall i :: 0 <= i < |ps| ==> ValidPiece(ps[i])
    requires IsDecodePattern(p)
    ensures ReplaceAll(Concat(ps), p, r) == Concat(MapPieces(ps, p, r))
  {
    if |ps| > 0 {
      ReplaceOverPieces(ps[1..], p, r);
      assert MapPieces(ps, p, r)[1..] == MapPieces(ps[1..], p, r);
      ReplaceHeadPiece(ps[0], Concat(ps[1..]), p, r);
    }
  }

  /** The decoding chain applied piece by piece. */
  function DecodePieces(ps: seq<string>): seq<string> {
    MapPieces(MapPieces(MapPieces(MapPieces(MapPieces(ps,
      "&lt;", "<"), "&gt;", ">"), "&nbsp;", " "), "&quot;", "\""), "&amp;", "&")
  }

  lemma {:induction false} DecodePiecesOfEscape(s: string)
    requires '\'' !in s
    ensures Concat(DecodePieces(Pieces(s))) == s
  {
    if |s| > 0 {
      DecodePiecesHead(s);
      DecodePiecesTail(s);
      DecodePiecesOfEscape(s[1..]);
      assert s == [s[0]] + s[1..];
    }
  }

  /** The decoding chain applied to a single piece. */
  function DecodePiece(p: string): string {
    var p1 := if p == "&lt;" then "<" else p;
    var p2 := if p1 == "&gt;" then ">" else p1;
    var p3 := if p2 == "&nbsp;" then " " else p2;
    var p4 := if p3 == "&quot;" then "\"" else p3;
    if p4 == "&amp;" then "&" else p4
  }

  /** Decoding a list of pieces decodes each piece on its own. */
  lemma DecodePiecesAt(ps: seq<string>, i: nat)
    requires i < |ps|
    ensures |DecodePieces(ps)| == |ps|
    ensures DecodePieces(ps)[i] == DecodePiece(ps[i])
  {
  }

  /** Every escaped character other than the quote decodes back to itself. */
  lemma DecodePieceOfEscape(c: char)
    requires c != '\''
    ensures DecodePiece(Common.EscapeChar(c)) == [c]
  {
    if c == '&' {
    } else if c == '<' {
    } else if c == '>' {
    } else if c == '"' {
    } else {
      assert |Common.EscapeChar(c)| == 1;
    }
  }

  /** The first escaped character decodes back to itself. */
  lemma DecodePiecesHead(s: string)
    requires |s| > 0 && s[0] != '\''
    ensures DecodePieces(Pieces(s))[0] == [s[0]]
  {
    DecodePiecesAt(Pieces(s), 0);
    DecodePieceOfEscape(s[0]);
  }

  /** Decoding the pieces of `s` after the first is decoding the pieces of its tail. */
  lemma DecodePiecesTail(s: string)
    requires |s| > 0
    ensures DecodePieces(Pieces(s))[1..] == DecodePieces(Pieces(s[1..]))
  {
    assert Pieces(s)[1..] == Pieces(s[1..]);
  }

  /** Replacing an entity by one character other than `&` keeps every piece valid. */
  lemma MapPiecesValid(ps: seq<string>, p: string, r: string)
    requires forall i :: 0 <= i < |ps| ==> ValidPiece(ps[i])
    requires |r| == 1 && r[0] != '&'
    ensures forall i :: 0 <= i < |ps| ==> ValidPiece(MapPieces(ps, p, r)[i])
  {
  }

  lemma EscapeCharValid(c: char)
    ensures ValidPiece(Common.EscapeChar(c))
  {
    if c != '&' && c != '<' && c != '>' && c != '"' && c != '\'' {
      assert Common.EscapeChar(c) == [c];
    }
  }

  lemma PiecesValid(s: string)
    ensures forall i :: 0 <= i < |s| ==> ValidPiece(Pieces(s)[i])
  {
    forall i | 0 <= i < |s|
      ensures ValidPiece(Pieces(s)[i])
    {
      EscapeCharValid(s[i]);
    }
  }

  /**
    Decoding undoes `escapeHTML` on every string without an apostrophe (whose
    entity `&#039;` the parser does not know).
   */
  lemma EscapeRoundTrip(s: string)
    requires '\'' !in s
    ensures HtmlTransferParser(Some(Common.EscapeHtml(s))) == s
  {
    if s != "" {
      var p0 := Pieces(s);
      ConcatPieces(s);
      var e := Common.EscapeHtml(s);
      assert e == Concat(p0);
      assert e != "" by {
        assert |Common.EscapeChar(s[0])| >= 1;
      }
      PiecesValid(s);
      ReplaceOverPieces(p0, "&lt;", "<");
      var p1 := MapPieces(p0, "&lt;", "<");
      MapPiecesValid(p0, "&lt;", "<");
      ReplaceOverPieces(p1, "&gt;", ">");
      var p2 := MapPieces(p1, "&gt;", ">");
      MapPiecesValid(p1, "&gt;", ">");
      ReplaceOverPieces(p2, "&nbsp;", " ");
      var p3 := MapPieces(p2, "&nbsp;", " ");
      MapPiecesValid(p2, "&nbsp;", " ");
      ReplaceOverPieces(p3, "&quot;", "\"");
      var p4 := MapPieces(p3, "&quot;", "\"");
      MapPiecesValid(p3, "&quot;", "\"");
      ReplaceOverPieces(p4, "&amp;", "&");
      DecodePiecesOfEscape(s);
      assert DecodeChain(e) == Concat(MapPieces(p4, "&amp;", "&"));
    }
  }
}

=== FILE: text.dfy ===
/**
  String operations of the JavaScript runtime that the plugin uses, written out:
  global replacement of a literal pattern, `split` on one character, `startsWith`,
  decimal rendering of integers, and the cache-busting `src` rewrite shared by
  all three editor backends.
 */
module Text {

  /** `p` occurs in `s` at index `i`. */
  predicate MatchAt(s: string, p: string, i: nat) {
    i + |p| <= |s| && s[i..i + |p|] == p
  }

  /** `s.includes(p)`. */
  predicate Contains(s: string, p: string) {
    exists i: nat | i <= |s| :: MatchAt(s, p, i)
  }

  /** `s.startsWith(p)`. */
  predicate StartsWith(s: string, p: string) {
    |p| <= |s| && s[..|p|] == p
  }

  /**
    `s.replace(/p/g, r)` for a pattern without regular-expression operators and a
    replacement without `$`: the occurrences of `p` are found left to right
    without overlapping, and each is replaced by `r`.
   */
  function ReplaceAll(s: string, p: string, r: string): string
    requires |p| > 0
    decreases |s|
  {
    if |s| == 0 then ""
    else if StartsWith(s, p) then r + ReplaceAll(s[|p|..], p, r)
    else [s[0]] + ReplaceAll(s[1..], p, r)
  }

  /** Replacing a pattern that does not occur leaves the string unchanged. */
  lemma {:induction false} ReplaceAllAbsent(s: string, p: string, r: string)
    requires |p| > 0
    requires !Contains(s, p)
    ensures ReplaceAll(s, p, r) == s
    decreases |s|
  {
    if |s| > 0 {
      assert !MatchAt(s, p, 0);
      assert !StartsWith(s, p);
      forall i: nat | MatchAt(s[1..], p, i)
        ensures false
      {
        assert s[1..][i..i + |p|] == s[i + 1..i + 1 + |p|];
        assert MatchAt(s, p, i + 1);
      }
      ReplaceAllAbsent(s[1..], p, r);
    }
  }

  /** A replacement no longer than the pattern never lengthens the string. */
  lemma {:induction false} ReplaceAllShrinks(s: string, p: string, r: string)
    requires |p| > 0 && |r| <= |p|
    ensures |ReplaceAll(s, p, r)| <= |s|
    decreases |s|
  {
    if |s| > 0 {
      if StartsWith(s, p) {
        ReplaceAllShrinks(s[|p|..], p, r);
      } else {
        ReplaceAllShrinks(s[1..], p, r);
      }
    }
  }

  /** A one-character pattern cannot straddle two pieces, so replacement distributes over `+`. */
  lemma {:induction false} ReplaceCharAppend(a: string, b: string, c: char, r: string)
    ensures ReplaceAll(a + b, [c], r) == ReplaceAll(a, [c], r) + ReplaceAll(b, [c], r)
    decreases |a|
  {
    if |a| > 0 {
      assert (a + b)[1..] == a[1..] + b;
      assert StartsWith(a + b, [c]) <==> a[0] == c by {
        assert (a + b)[..1] == [a[0]];
      }
      assert StartsWith(a, [c]) <==> a[0] == c by {
        assert a[..1] == [a[0]];
      }
      ReplaceCharAppend(a[1..], b, c, r);
      assert ReplaceAll(a, [c], r) == (if a[0] == c then r else [a[0]]) + ReplaceAll(a[1..], [c], r);
    } else {
      assert a + b == b;
    }
  }

  /**
    A piece that starts with a character other than the pattern's first one, and
    holds that character nowhere, is copied through unchanged.
   */
  lemma {:induction false} ReplaceSkipsPrefix(x: string, u: string, p: string, r: string)
    requires |p| > 0
    requires p[0] !in x
    ensures ReplaceAll(x + u, p, r) == x + ReplaceAll(u, p, r)
    decreases |x|
  {
    if |x| > 0 {
      assert (x + u)[0] == x[0];
      assert !StartsWith(x + u, p);
      assert (x + u)[1..] == x[1..] + u;
      ReplaceSkipsPrefix(x[1..], u, p, r);
      assert x == [x[0]] + x[1..];
    } else {
      assert x + u == u;
    }
  }

  /** Index of the first `c` in `s`. */
  function IndexOf(s: string, c: char): (k: nat)
    requires c in s
    ensures k < |s| && s[k] == c && c !in s[..k]
  {
    if s[0] == c then 0 else 1 + IndexOf(s[1..], c)
  }

  /** `s.split(sep)` for a one-character separator. */
  function Split(s: string, sep: char): (parts: seq<string>)
    ensures |parts| >= 1
    ensures forall i :: 0 <= i < |parts| ==> sep !in parts[i]
    decreases |s|
  {
    if sep !in s then [s]
    else
      var k := IndexOf(s, sep);
      [s[..k]] + Split(s[k + 1..], sep)
  }

  /** `parts.join(sep)`. */
  function Join(parts: seq<string>, sep: char): string
    requires |parts| >= 1
  {
    if |parts| == 1 then parts[0] else parts[0] + [sep] + Join(parts[1..], sep)
  }

  /** Splitting and joining again gives back the original string. */
  lemma {:induction false} JoinSplit(s: string, sep: char)
    ensures Join(Split(s, sep), sep) == s
    decreases |s|
  {
    if sep in s {
      var k := IndexOf(s, sep);
      JoinSplit(s[k + 1..], sep);
      assert s == s[..k] + [sep] + s[k + 1..];
    }
  }

  /** Joining pieces free of the separator and splitting again gives back the pieces. */
  lemma {:induction false} SplitJoin(parts: seq<string>, sep: char)
    requires |parts| >= 1
    requires forall i :: 0 <= i < |parts| ==> sep !in parts[i]
    ensures Split(Join(parts, sep), sep) == parts
    decreases |parts|
  {
    if |parts| > 1 {
      var s := Join(parts, sep);
      var rest := Join(parts[1..], sep);
      assert s == parts[0] + [sep] + rest;
      assert s[|parts[0]|] == sep;
      assert sep in s;
      assert s[..|parts[0]|] == parts[0];
      var k := IndexOf(s, sep);
      assert k == |parts[0]|;
      assert s[k + 1..] == rest;
      SplitJoin(parts[1..], sep);
      assert parts == [parts[0]] + parts[1..];
    }
  }

  /** Appending a separator and a separator-free piece appends one part to the split. */
  lemma {:induction false} SplitAppendPart(a: string, sep: char, n: string)
    requires sep !in n
    ensures Split(a + [sep] + n, sep) == Split(a, sep) + [n]
    decreases |a|
  {
    var s := a + [sep] + n;
    assert s[|a|] == sep;
    if sep in a {
      var k := IndexOf(a, sep);
      assert s[..k] == a[..k];
      assert sep !in s[..k];
      assert IndexOf(s, sep) == k by { IndexOfUnique(s, sep, k); }
      assert s[k + 1..] == a[k + 1..] + [sep] + n;
      SplitAppendPart(a[k + 1..], sep, n);
    } else {
      assert s[..|a|] == a;
      assert IndexOf(s, sep) == |a| by { IndexOfUnique(s, sep, |a|); }
      assert s[|a| + 1..] == n;
    }
  }

  /** The first occurrence is the index that holds `c` with no `c` before it. */
  lemma IndexOfUnique(s: string, c: char, k: nat)
    requires k < |s| && s[k] == c && c !in s[..k]
    ensures c in s && IndexOf(s, c) == k
  {
    var j := IndexOf(s, c);
    forall i | 0 <= i < k
      ensures s[i] != c
    {
      assert s[i] == s[..k][i];
    }
    forall i | 0 <= i < j
      ensures s[i] != c
    {
      assert s[i] == s[..j][i];
    }
  }

  /**
    `src.split('?')[0]`: the part of a URL before its query string. It holds no
    `?`, begins `src`, and is all of `src` unless a `?` follows it.
   */
  function BaseOf(src: string): (b: string)
    ensures '?' !in b
    ensures StartsWith(src, b)
    ensures |b| < |src| ==> src[|b|] == '?'
  {
    if '?' in src then src[..IndexOf(src, '?')] else src
  }

  /** The decimal digits of a non-negative integer, most significant first. */
  function NatToString(n: nat): (d: string)
    ensures |d| >= 1
    ensures forall i :: 0 <= i < |d| ==> '0' <= d[i] <= '9'
  {
    if n < 10 then [DigitChar(n)] else NatToString(n / 10) + [DigitChar(n % 10)]
  }

  function DigitChar(d: nat): (c: char)
    requires d < 10
    ensures '0' <= c <= '9'
  {
    ('0' as int + d) as char
  }

  predicate IsDigit(c: char) {
    '0' <= c <= '9'
  }

  predicate AllDigits(s: string) {
    forall i :: 0 <= i < |s| ==> IsDigit(s[i])
  }

  /**
    `\s` of JavaScript regular expressions, which is also the set `parseInt`
    skips: white space and line terminators.
   */
  predicate IsJsWhitespace(c: char) {
    || c == '\t' || c == '\n' || c == '\U{000B}' || c == '\U{000C}' || c == '\r' || c == ' '
    || c == '\U{00A0}' || c == '\U{1680}' || ('\U{2000}' <= c <= '\U{200A}')
    || c == '\U{2028}' || c == '\U{2029}' || c == '\U{202F}' || c == '\U{205F}'
    || c == '\U{3000}' || c == '\U{FEFF}'
  }

  /** The value of a string of decimal digits. */
  function DecimalValue(s: string): nat
    requires AllDigits(s)
  {
    if |s| == 0 then 0 else 10 * DecimalValue(s[..|s| - 1]) + (s[|s| - 1] as int - '0' as int)
  }

  /** Reading the digits of `n` back gives `n`. */
  lemma {:induction false} DecimalOfNatToString(n: nat)
    ensures DecimalValue(NatToString(n)) == n
  {
    if n >= 10 {
      var d := NatToString(n);
      assert d[..|d| - 1] == NatToString(n / 10);
      DecimalOfNatToString(n / 10);
    }
  }

  /** `String(n)` for an integer: an optional minus sign and the decimal digits. */
  function IntToString(n: int): string {
    if n < 0 then "-" + NatToString(-n) else NatToString(n)
  }

  /**
    The cache-busting rewrite every editor applies to the image element after a
    save or an external edit: `src.split('?')[0] + '?t=' + Date.now()`.
   */
  function Refresh(src: string, now: nat): string {
    BaseOf(src) + "?t=" + NatToString(now)
  }

  /** The base of a refreshed `src` is the base of the original one. */
  lemma RefreshKeepsBase(src: string, now: nat)
    ensures BaseOf(Refresh(src, now)) == BaseOf(src)
    ensures StartsWith(Refresh(src, now), BaseOf(src))
  {
    var b := BaseOf(src);
    var r := Refresh(src, now);
    assert r[|b|] == '?';
    assert '?' in r;
    var k := IndexOf(r, '?');
    assert k == |b|;
  }

  /** Refreshing twice leaves exactly one query string: the last one. */
  lemma RefreshNeverStacks(src: string, a: nat, b: nat)
    ensures Refresh(Refresh(src, a), b) == Refresh(src, b)
  {
    RefreshKeepsBase(src, a);
  }
}

=== FILE: tui_editor.dfy ===
/**
  `src/editor/tuiEditor.ts`: the session logic of the tui-image-editor back end.
  Each show builds a new widget; edits set the unsaved flag; a click on the
  mask closes at once or, with unsaved edits, asks first; the save button
  writes the image back through the storage.
 */
module TuiEditor {
  import opened Js
  import opened Text
  import opened EditorSession

  /** The widget events the editor listens to. */
  datatype WidgetEvent =
    | ObjectAdded
    | ObjectMoved
    | ObjectScaled
    | ObjectRotated
    | TextEditing
    | UndoStackChanged(length: int)

  /** The events after which the session counts as modified. */
  predicate Marks(e: WidgetEvent) {
    !e.UndoStackChanged? || e.length > 0
  }

  /**
    `showImageEditor(...)` once the editor is initialised: the mask and the
    container are shown, a new widget is constructed for the image whose `src`
    is `elementSrc`, and the unsaved flag starts false.
   */
  function Show(s: Session, elementSrc: Option<string>): (t: Session)
    ensures t.visible && t.widgetPresent && !t.unsavedModify
    ensures t.widgetsBuilt == s.widgetsBuilt + 1
    ensures t.imgSrc == elementSrc
    ensures t.dialogOpen == s.dialogOpen && t.notices == s.notices
  {
    s.(visible := true, widgetPresent := true, unsavedModify := false, imgSrc := elementSrc,
       widgetsBuilt := s.widgetsBuilt + 1)
  }

  /**
    One widget event: the five object and text events set the flag, and
    `undoStackChanged` sets it only for a non-empty stack. No event clears it.
   */
  function OnWidgetEvent(s: Session, e: WidgetEvent): (t: Session)
    ensures t.unsavedModify <==> s.unsavedModify || Marks(e)
    ensures t.(unsavedModify := s.unsavedModify) == s
  {
    if Marks(e) then s.(unsavedModify := true) else s
  }

  function OnWidgetEvents(s: Session, es: seq<WidgetEvent>): Session
    decreases |es|
  {
    if |es| == 0 then s else OnWidgetEvents(OnWidgetEvent(s, es[0]), es[1..])
  }

  /**
    After a run of widget events the session is modified exactly when it was
    before or some event marks it; the flag is a boolean, so how many events
    there were does not matter, and nothing else changes.
   */
  lemma {:induction false} OnWidgetEventsFlag(s: Session, es: seq<WidgetEvent>)
    ensures OnWidgetEvents(s, es).unsavedModify
      <==> (s.unsavedModify || exists i :: 0 <= i < |es| && Marks(es[i]))
    ensures OnWidgetEvents(s, es).(unsavedModify := s.unsavedModify) == s
    decreases |es|
  {
    if |es| > 0 {
      var t := OnWidgetEvent(s, es[0]);
      OnWidgetEventsFlag(t, es[1..]);
      if exists i :: 0 <= i < |es| && Marks(es[i]) {
        var i :| 0 <= i < |es| && Marks(es[i]);
        if i > 0 { assert Marks(es[1..][i - 1]); }
      }
      if exists i :: 0 <= i < |es[1..]| && Marks(es[1..][i]) {
        var i :| 0 <= i < |es[1..]| && Marks(es[1..][i]);
        assert Marks(es[i + 1]);
      }
    }
  }

  /**
    `closeEditor()`: the container and the mask are hidden and the widget is
    destroyed and dropped; the flag and the image are untouched.
   */
  function CloseEditor(s: Session): (t: Session)
    ensures !t.visible && !t.widgetPresent
    ensures t.(visible := s.visible, widgetPresent := s.widgetPresent) == s
  {
    s.(visible := false, widgetPresent := false)
  }

  /**
    `mask.onclick`: without unsaved edits the editor closes at once and no
    dialog opens; otherwise the dialog opens and the editor stays.
   */
  function MaskClick(s: Session): (t: Session)
    ensures !s.unsavedModify ==> !t.visible && !t.widgetPresent && t.dialogOpen == s.dialogOpen
    ensures s.unsavedModify ==> t.dialogOpen && t.visible == s.visible && t.widgetPresent == s.widgetPresent
    ensures t.unsavedModify == s.unsavedModify && t.imgSrc == s.imgSrc
  {
    if !s.unsavedModify then CloseEditor(s) else s.(dialogOpen := true)
  }

  /** `dialog.destroy()`: the dialog's `destroyCallback` is `closeEditor`. */
  function DestroyDialog(s: Session): (t: Session)
    ensures !t.dialogOpen && !t.visible && !t.widgetPresent
    ensures t.unsavedModify == s.unsavedModify && t.imgSrc == s.imgSrc && t.notices == s.notices
  {
    CloseEditor(s.(dialogOpen := false))
  }

  /**
    The dialog's save button: it writes the image and, once the storage call
    resolves, refreshes the image whatever the storage answered; a thrown
    storage call shows the failure. Either way the dialog is destroyed and so
    the editor closes. The flag is not cleared.
   */
  function DialogSave(s: Session, result: SaveResult, now: nat): (t: Session)
    ensures !t.dialogOpen && !t.visible && !t.widgetPresent
    ensures t.unsavedModify == s.unsavedModify
    ensures result.Resolved? ==> t.imgSrc == RefreshSrc(s, now).imgSrc && t.notices == s.notices
    ensures result.Rejected? ==> t.imgSrc == s.imgSrc && t.notices == s.notices + [SaveFailed]
  {
    var saved := if result.Resolved? then RefreshSrc(s, now) else s.(notices := s.notices + [SaveFailed]);
    DestroyDialog(saved)
  }

  /** The dialog's cancel button: the dialog is destroyed, so the editor closes without saving. */
  function DialogCancel(s: Session): (t: Session)
    ensures !t.dialogOpen && !t.visible && !t.widgetPresent
    ensures t.unsavedModify == s.unsavedModify && t.imgSrc == s.imgSrc && t.notices == s.notices
  {
    DestroyDialog(s)
  }

  /** Whichever button answers the dialog, the editor ends closed and the widget gone. */
  lemma EitherButtonCloses(s: Session, result: SaveResult, now: nat)
    requires s.unsavedModify
    ensures var d := MaskClick(s);
      && d.dialogOpen
      && var a := DialogSave(d, result, now);
      && var b := DialogCancel(d);
      && !a.visible && !b.visible && !a.widgetPresent && !b.widgetPresent
      && a.unsavedModify && b.unsavedModify
  {
  }

  /**
    The toolbar save button as written: any resolved storage call refreshes the
    image, clears the flag and reports success, even when the storage answered
    false; a thrown call reports the failure and leaves the flag.
   */
  function SaveButtonAsWritten(s: Session, result: SaveResult, now: nat): (t: Session)
    ensures result.Resolved? ==> !t.unsavedModify && t.notices == s.notices + [SaveSucceeded]
    ensures result.Resolved? ==> t.imgSrc == RefreshSrc(s, now).imgSrc
    ensures result.Rejected? ==> t == s.(notices := s.notices + [SaveFailed])
    ensures t.visible == s.visible && t.widgetPresent == s.widgetPresent && t.dialogOpen == s.dialogOpen
  {
    match result
    case Resolved(_) =>
      RefreshSrc(s, now).(unsavedModify := false, notices := s.notices + [SaveSucceeded])
    case Rejected => s.(notices := s.notices + [SaveFailed])
  }

  /** A storage refusal is reported as a success and the edits count as saved. */
  lemma RefusedSaveReportedAsSuccess(s: Session, now: nat)
    requires s.unsavedModify
    ensures var t := SaveButtonAsWritten(s, Resolved(false), now);
      !t.unsavedModify && t.notices[|t.notices| - 1] == SaveSucceeded
  {
  }

  /**
    The toolbar save button as its messages intend: only a storage call that
    resolved true refreshes the image, clears the flag and reports success; a
    refusal (already reported by the storage) changes nothing; a thrown call
    reports the failure.
   */
  function SaveButton(s: Session, result: SaveResult, now: nat): (t: Session)
    ensures !t.unsavedModify <==> result == Resolved(true) || !s.unsavedModify
    ensures |s.notices| <= |t.notices| && t.notices[..|s.notices|] == s.notices
    ensures (SaveSucceeded in t.notices[|s.notices|..]) <==> result == Resolved(true)
    ensures result != Resolved(true) ==> t.imgSrc == s.imgSrc
    ensures result == Resolved(true) ==> t.imgSrc == RefreshSrc(s, now).imgSrc
    ensures t.visible == s.visible && t.widgetPresent == s.widgetPresent && t.dialogOpen == s.dialogOpen
  {
    match result
    case Resolved(true) =>
      RefreshSrc(s, now).(unsavedModify := false, notices := s.notices + [SaveSucceeded])
    case Resolved(false) => s
    case Rejected => s.(notices := s.notices + [SaveFailed])
  }

  /** The two save buttons differ exactly on a refused save. */
  lemma SaveButtonsAgreeUnlessRefused(s: Session, result: SaveResult, now: nat)
    ensures SaveButton(s, result, now) == SaveButtonAsWritten(s, result, now) <==> result != Resolved(false)
  {
    if result == Resolved(false) {
      var t := SaveButtonAsWritten(s, result, now);
      assert |t.notices| != |s.notices|;
    }
  }

  /**
    `destroy()`: the floating container is removed from the page, so the editor
    is no longer shown; the widget reference is not touched. The mask is looked
    up in the shadow root while it lives on the page body, so it is not removed;
    the session record does not track it.
   */
  function Destroy(s: Session): (t: Session)
    ensures !t.visible && t.widgetPresent == s.widgetPresent
    ensures t.(visible := s.visible) == s
  {
    s.(visible := false)
  }

  /** Every show after a close builds a new widget: none is carried over. */
  lemma ShowAfterCloseRebuilds(s: Session, src: Option<string>)
    ensures var t := Show(CloseEditor(s), src);
      t.widgetsBuilt == s.widgetsBuilt + 1 && !t.unsavedModify
  {
  }
}
